=== FILE: README.md ===
# Portfolio site: a Dafny model of its editing and deployment rules

The site is a single-page portfolio. Its owner edits every section in place and then publishes a copy through a hosted deployment service. This project models, in Dafny, the rules behind that editing and publishing.

- **Deployment dialog** (`DeploymentModal`). The dialog is a pure state machine. Each handler, and each continuation of its asynchronous chains, is one event. The model also builds the app name a deployment runs under.
- **Deployment service** (`DeploymentService`). The service is modelled over given sequences of responses:
  - the retry loop of the start and status calls, with its literal retry test and linear back-off (also written as a loop method);
  - the single attempt of the app-existence check;
  - the polling that stops at the first settled status.
- **String helpers** (`Utils`, `Social`, `SkillIcons`, `Text`). Completing URLs, the logo text, the icons the data file writes, platform detection, social address completion and checking, the e-mail pattern, and the formatter of skill and category names. `Text` models the JavaScript string primitives these rules use.
- **Validators.** The portfolio-wide ordered error list (`Validation`) and each form's and editor's first-failure check. Years are checked against a current year passed in.
- **Collection editors.** Projects, skills, experience, education, certifications and social links: adding with caps and duplicate checks, replacing at the edited index, and deleting. The experience and education timelines use a two-key stable sort (`Timeline`).
- **Page-level rules.** Saving on the page, filtering and width-dependent visibility of the navigation links (`Page`), the metadata built for the page (`Layout`), the certification status badge (`CertificationCard`), and the profile image field (`AboutSection`).

Each source file is one module. `Portfolio` holds the data model, `Forms` the outcome types shared by every dialog, and `Seqs` the list operations every editor repeats. Everything is a pure function over immutable datatypes, except the service's retry loop, which is also given as a method whose loop invariants tie it to the functional definition.

Three things the browser provides enter as parameters:
- the `URL` constructor, as a `UrlParser`;
- the clock, as `currentYear`;
- the generated data file and the service endpoints, as the deployment dialog's `Context`.

## Where the code and its own comments part ways

The model follows the code in each case.

- **Retry test.** The comment at `lib/deployment-service.ts:93` reads "Only retry on network errors or 5xx server errors". The test under it (`lib/deployment-service.ts:94-97`) retries a `TypeError`, which is how a network failure shows up. It also retries any `DeploymentError` whose message contains the character `5` anywhere. A status text of `Service Unavailable` is therefore not retried. A text of `Error 415` is, and so is a response body with a `5` in it (`DeploymentService.StatusRetryOnDigit`, `DeploymentService.DeployRetryOnDigit`).
- **Back-off.** The comment at `lib/deployment-service.ts:98` says "Exponential backoff". The wait is linear: `1000 * (i + 1)` milliseconds.
- **Closed sign-in window.** The popup watcher at `components/deployment-modal.tsx:222-231` has a branch that shows the `AUTH_WINDOW_CLOSED` error when the popup is closed and the status reads "authorizing" (`:225-230`). The status it reads is captured when Deploy was pressed, and that status is never "authorizing". So the branch never fires, and the dialog stays authorizing (see Findings).

## Model

| member | source | states |
|---|---|---|
| Utils.ValidateUrl | lib/utils.ts:8-22 | an address is accepted exactly when it is not empty and the URL constructor accepts its completed form (with `https://` in front unless it starts with `http`) |
| Utils.FormatUrl | lib/utils.ts:24-33 | the empty address stays empty; an address already starting with `http` is returned unchanged; any other gets `https://` in front |
| Utils.FormatUrlIdempotent | lib/utils.ts:24-33 | completing an address twice gives the same as completing it once |
| Utils.ValidateFormatted | lib/utils.ts:8-33 | an accepted address is still accepted after completion |
| Utils.FormatLogoWords | lib/utils.ts:130-147 | every logo format in terms of the first and last space-separated words: initials upper-cased, or one upper-cased initial, or a throw for an empty name; the first two or three characters; the initial plus two letters of the last word, with no case change |
| Utils.FormatLogo | lib/utils.ts:130-147 | `formatLogo`: its contract is carried by FormatLogoWords (every format from the first and last words), LogoOfFullName, LogoOfEmptyName and LogoOfLeadingSpace |
| Utils.LogoOfFullName | lib/utils.ts:136-143 | for a two-word name the initials are the two upper-cased first letters; initial-plus-two is the first initial followed by up to two letters of the last word |
| Utils.LogoOfEmptyName | lib/utils.ts:131-143 | an empty name makes the initials throw, gives `undefined` for initial-plus-two, and gives "" for first-two |
| Utils.LogoOfLeadingSpace | lib/utils.ts:131-143 | with a leading space the first word is empty, and the template prints `undefined` for its missing letter |
| Utils.SerializedSocialIcon | lib/utils.ts:46-63 | each platform is written with its own icon name (GitHub, LinkedIn, Twitter, Mail) and a custom link with Globe, in both directions |
| Utils.SerializedProjectIcon | lib/utils.ts:66-74 | a project link is written with the Github icon exactly when its address contains `github.com`, and with Globe otherwise |
| Utils.SerializeSocialLinks | lib/utils.ts:46-63 | the same number of links in the same order, each keeping its platform and address, with its platform's own icon and the Globe icon exactly for custom links |
| Utils.SerializeProjects | lib/utils.ts:66-80 | the same projects in the same order, each field kept; every link keeps its name and address, and gets the Github icon exactly when the address contains `github.com` |
| Utils.SerializeIdempotent | lib/utils.ts:46-80 | writing the data file's links and projects twice gives the same as writing them once |
| Social.EmailIffShape | lib/social-utils.ts:19-23 | the email pattern accepts a string exactly when it has no whitespace, exactly one `@` and not at the start, and a dot after the `@` with at least one character on each side (both directions) |
| Social.EmailHasShape | lib/social-utils.ts:19-23 | a string the pattern accepts has that shape |
| Social.ShapeIsEmail | lib/social-utils.ts:19-23 | a string of that shape is accepted by the pattern |
| Social.DetectPlatform | lib/social-utils.ts:11-26 | GitHub exactly when the parsed host, lower-cased, contains `github.com`; LinkedIn exactly when it contains `linkedin.com` but not `github.com`; Twitter exactly when it contains `twitter.com` but neither of those; for a parsed address matching none of the three, email exactly when it matches the pattern; an unparseable address is email exactly when it matches the pattern, and custom otherwise |
| Social.DetectBareEmail | lib/social-utils.ts:21-24 | an address the URL constructor rejects and the pattern accepts is detected as email |
| Social.PlatformIcon | lib/social-utils.ts:28-43 | each platform gets its own icon and custom the Globe icon, in both directions |
| Social.PlatformIconInjective | lib/social-utils.ts:28-43 | distinct platforms get distinct icons |
| Social.IconAgreesWithSerializer | lib/social-utils.ts:28-43 | the editor's icon for a platform is the icon name the data file writes for it (lib/utils.ts:48-57) |
| Social.FormatSocialUrl | lib/social-utils.ts:45-56 | an email address without `mailto:` gets `mailto:` in front; any other address starting with neither `http` nor `mailto:` gets `https://`; the input is returned unchanged exactly when it already starts with `mailto:`, or starts with `http` on a platform other than email; the input is always the tail of the result |
| Social.FormatSocialUrlIdempotent | lib/social-utils.ts:45-56 | completing twice with the same platform gives the same as completing once |
| Social.ValidateSocialUrl | lib/social-utils.ts:58-74 | for email, accepted exactly when the address has the email shape |
| Social.SocialCheckIsUrlCheck | lib/social-utils.ts:58-74 | for a non-empty address on any platform but email, the social check and `validateUrl` (lib/utils.ts:8-22) agree |
| Social.MailtoKeepsEmail | lib/social-utils.ts:45-61 | an address the pattern accepts is still accepted once `mailto:` is put in front |
| Validation.PersonalErrors | lib/validation.ts:11-50 | every broken personal rule is reported (name or title under 2 characters, bio under 50, location under 2, a non-empty resume address the URL constructor rejects) and every reported error is one of them, all in the personal section, in field order |
| Validation.LinkErrors | lib/validation.ts:59-76 | one link's errors are about that link and deserved; an empty address is reported missing; an address that is neither `mailto:` nor accepted by the URL constructor is reported malformed |
| Validation.SocialErrorsFrom | lib/validation.ts:59-76 | the link errors from a position on are deserved and at or after it, every missing or malformed address there is reported, in list order |
| Validation.SocialErrors | lib/validation.ts:52-77 | the social-link errors belong to that section, are deserved, and are in order |
| Validation.ProjectItemErrors | lib/validation.ts:86-105 | one project's errors are about that project and deserved; a title under 5 characters, a description under 20 and an empty tag list are each reported |
| Validation.ProjectErrorsFrom | lib/validation.ts:86-105 | the project errors from a position on are deserved, at or after it, include every short title, short description and missing tag list there, and are ordered |
| Validation.ProjectErrors | lib/validation.ts:79-106 | the project errors belong to that section, are deserved, and are in order |
| Validation.CategoryItemErrors | lib/validation.ts:115-128 | one category's errors are about that category and deserved; a name under 3 characters and an empty item list are each reported |
| Validation.CategoryErrorsFrom | lib/validation.ts:115-128 | the category errors from a position on are deserved, at or after it, include every short name and empty item list there, and are ordered |
| Validation.SkillErrors | lib/validation.ts:108-129 | the skill errors belong to that section, are deserved, and are in order |
| Validation.ValidatePortfolioData | lib/validation.ts:8-132 | every error reported is a rule the portfolio breaks; the errors come strictly in check order (section, item, check within the item), so none is reported twice |
| Validation.ViolationReported | lib/validation.ts:8-132 | every rule the portfolio breaks is reported |
| Validation.NoErrorsIffValid | lib/validation.ts:8-132 | the error list is empty exactly when every rule holds |
| Validation.ValidNoViolation | lib/validation.ts:8-132 | a portfolio meeting every rule breaks none |
| Validation.SomeViolation | lib/validation.ts:8-132 | a portfolio that is not valid breaks some rule |
| Validation.EmptySocialUrlTwoErrors | lib/validation.ts:60-75 | a link with an empty address gets both the missing-address and the malformed-address error, since the URL constructor rejects the empty string |
| Validation.MailtoNeverMalformed | lib/validation.ts:66-75 | an address starting with `mailto:` is never reported malformed, whatever the URL constructor says |
| Page.HandleSave | app/page.tsx:72-95 | a portfolio with any validation error leaves the state alone and shows the first error's message; the save succeeds exactly when the portfolio is valid, and then the edited data is published and the editor closes |
| Page.SaveIdempotent | app/page.tsx:72-95 | saving again after a successful save succeeds and changes nothing |
| Page.ListedIffSectionFilled | app/page.tsx:184-194 | a link naming a section is listed exactly when that section has entries; every other link is always listed |
| Page.Listed | app/page.tsx:184-194 | the navigation filter's test; ListedIffSectionFilled and FixedLinksListed state it |
| Page.NavFilter | app/page.tsx:183-194 | the filtered links are exactly the listed ones among the links, and no more of them |
| Page.NavFilterAppend | app/page.tsx:183-194 | the filter keeps order: filtering two runs of links is filtering each and joining the results |
| Page.FixedLinksListed | app/page.tsx:186 | Home, About and Contact always pass the filter |
| Page.VisibleIffFits | app/page.tsx:196-200 | a link is shown exactly when its position is below the number that fits at the width: 2, 4 from 768 pixels, 6 from 1024, all from 1280 |
| Page.Visible | app/page.tsx:196-200 | `isVisible`; VisibleIffFits, AlwaysVisible and VisibleMonotone state it |
| Page.AlwaysVisible | app/page.tsx:196-200 | the first two links always show, and every link shows from 1280 pixels |
| Page.VisibleMonotone | app/page.tsx:196-200 | widening the window never hides a link |
| Layout.SkillNames | app/layout.tsx:11 | every skill's name is among the skill keywords, and every skill keyword is some skill's name |
| Layout.ProjectTags | app/layout.tsx:12 | every project tag is among the project keywords, and every project keyword is some project's tag |
| Layout.Keywords | app/layout.tsx:11-13 | the keywords hold no duplicate, start with the title, include every skill name and project tag, and hold nothing else |
| Layout.Description | app/layout.tsx:15-18 | with no experience there is no description (reading the first role throws); otherwise it is the bio and " Currently " followed by "working as" exactly when the latest role is ongoing and by "worked as" exactly when it is not |
| Layout.VerbsDiffer | app/layout.tsx:16-18 | text starting with the verb for a role starts with "working as" exactly when the role is ongoing and with "worked as" exactly when it is not |
| Layout.DefaultTitle | app/layout.tsx:25 | the default title is the name, " - ", then the title, each part where it belongs |
| Layout.Find | app/layout.tsx:20-21 | the link found is the first of the platform; none is found exactly when no link has it |
| Layout.TwitterCreator | app/layout.tsx:52 | there is no creator exactly when no link is a Twitter link or the first one has an empty address; otherwise the creator has no slash, ends the address, and is the whole address or follows a slash |
| DeploymentService.DeployAttempt | lib/deployment-service.ts:67-91 | one deployment attempt succeeds exactly when the response is OK and parses; a status that is not OK throws a `DeploymentError` naming the status text and the body; a network failure throws a `TypeError` |
| DeploymentService.StatusAttempt | lib/deployment-service.ts:117-130 | one status check succeeds exactly when the response is OK and parses; a status that is not OK throws a `DeploymentError` naming the status text; a network failure throws a `TypeError` |
| DeploymentService.RetryFrom | lib/deployment-service.ts:65-103 | from a given attempt on, the loop stops at the first success or at the first failure that is not retryable or is on the last attempt; every earlier failure was retryable, and each retry waits one second more than the one before |
| DeploymentService.Retryable | lib/deployment-service.ts:94-97 | the retry test: a network failure (`TypeError`), or a `DeploymentError` whose message contains the character 5; what it means for each call is stated by StatusRetryOnDigit and DeployRetryOnDigit |
| DeploymentService.Backoff | lib/deployment-service.ts:98 | the wait after a failed attempt is 1000 milliseconds times its number, as ThreeFailures states (1000, then 2000) |
| DeploymentService.Retry | lib/deployment-service.ts:55-106 | with no attempt allowed the fallback error is thrown; otherwise between one and `retryCount` attempts are made, the last one's outcome is the result, each failure before it was retryable, a failure short of the last attempt is thrown only if not retryable, and the waits are 1000, 2000, ... milliseconds |
| DeploymentService.RetryLoop | lib/deployment-service.ts:63-105 | the loop, attempt by attempt, gives the same result, number of attempts and waits as `Retry` |
| DeploymentService.RetryAgrees | lib/deployment-service.ts:65-103 | when every attempt before a given one failed retryably and that one succeeds, fails for good or is the last, the run makes exactly that many attempts |
| DeploymentService.FirstSuccessReturned | lib/deployment-service.ts:89 | the first success is returned after the waits before it, with no further attempt |
| DeploymentService.ThreeFailures | lib/deployment-service.ts:61-101 | with the default three attempts, three retryable failures make three attempts with waits of 1000 and 2000 milliseconds, and the third failure is thrown |
| DeploymentService.StatusRetryOnDigit | lib/deployment-service.ts:124-136 | a status check that is not OK is retried exactly when its status text contains the character 5, whatever the status code |
| DeploymentService.DeployRetryOnDigit | lib/deployment-service.ts:84-97 | a deployment that is not OK is retried exactly when its status text or its body contains the character 5 |
| DeploymentService.CheckAppExists | lib/deployment-service.ts:34-53 | the check succeeds exactly when the response is OK, with the server's answer; a status that is not OK fails naming its status text; any other failure becomes the generic `DeploymentError`; every failure is a `DeploymentError` |
| DeploymentService.Poll | lib/deployment-service.ts:147-168 | each check's status is reported in order, a pending one leads to another check, the first settled status or error stops the polling, and an error is reported exactly when it is what stopped it; the waits add up to `PollingInterval` (5000 milliseconds) per pending status |
| DeploymentService.PollStopsAtFirstSettled | lib/deployment-service.ts:154-165 | polling makes exactly one check more than the position of the first result that is not pending, and reports an error exactly when that result was one |
| DeploymentModal.Filter | components/deployment-modal.tsx:34 | the filtered name keeps exactly the characters of `[a-z0-9-]` it had and is no longer; a single character is kept exactly when allowed |
| DeploymentModal.FilterAllowed | components/deployment-modal.tsx:34 | a name of allowed characters only is left unchanged by the filter |
| DeploymentModal.FilterAppend | components/deployment-modal.tsx:34 | the filter of two strings joined is the two filters joined, so the filter keeps every allowed character in order and as often as it occurs |
| DeploymentModal.Sanitize | components/deployment-modal.tsx:34 | the sanitized name holds exactly the allowed characters of the lower-cased first name, and is no longer than it |
| DeploymentModal.FormatAppName | components/deployment-modal.tsx:29-43 | the app name is `folio-`, the sanitized name, `-abuilds`; it is at most 28 characters; the middle is a prefix of the sanitized name, all of it when it fits, and cut so the whole is exactly 28 characters when it does not |
| DeploymentModal.AppNameStable | components/deployment-modal.tsx:29-43 | formatting the middle of an app name again gives the same app name |
| DeploymentModal.FirstName | components/deployment-modal.tsx:149 | the first name is the whole text before the first space: it has no space, starts the full name, and is either all of it or followed by a space |
| DeploymentModal.StartDeployment | components/deployment-modal.tsx:84-87 | starting a deployment shows deploying at 20% and calls the deployment service with the chain's token, name, content, redeploy flag and app id |
| DeploymentModal.HandleMessage | components/deployment-modal.tsx:134-192 | a message from any origin but the deployment API is ignored; otherwise the popup watcher stops; unreadable data shows the unexpected error; a success with a token shows deploying at 20% and checks the app under the name made from the first name; an error message, or one carrying an error, shows that error or the generic authorization error; any other message changes nothing but the watcher |
| DeploymentModal.OnDeployPressed | components/deployment-modal.tsx:198-242 | an opened popup shows authorizing at 10% and starts the watcher, which keeps the status of the current render; a blocked popup and a throwing `window.open` show their errors |
| DeploymentModal.OnPopupClosed | components/deployment-modal.tsx:222-233 | a tick that finds the popup closed stops the watcher, and shows the closed-window error exactly when the status it reads is authorizing |
| DeploymentModal.OnAppChecked | components/deployment-modal.tsx:152-176 | a failed check shows its message, wrapped twice; an existing app keeps the deployment pending and asks to confirm a redeploy; a new app starts deploying without redeploy |
| DeploymentModal.OnStarted | components/deployment-modal.tsx:87-128 | a failed start shows its message; a started build moves the bar to 40% and starts polling it |
| DeploymentModal.OnPollUpdate | components/deployment-modal.tsx:94-113 | success fills the bar and shows the address; failure shows the failed-deployment error; a pending build moves the bar up by 10, never past 90, and never back |
| DeploymentModal.OnClosePressed | components/deployment-modal.tsx:244-254 | closing is refused while deploying; otherwise the watcher stops and the dialog is asked to close |
| DeploymentModal.OnRedeployConfirmed | components/deployment-modal.tsx:256-261 | confirming redeploys the pending deployment under its app id; with nothing pending nothing happens |
| DeploymentModal.Step | components/deployment-modal.tsx:61-266 | the dialog as written: a watcher tick stops the watcher and, reading a status other than authorizing, leaves what is shown; a failed poll shows its message; the page closing the dialog resets it to idle with nothing pending and the watcher stopped; cancelling the redeploy resets it to idle with nothing pending; the dialog is asked to close exactly when Close is pressed while not deploying; a deployment starts at 20%; polling starts exactly when a start succeeds |
| DeploymentModal.StepCorrected | components/deployment-modal.tsx:222-233 | with the watcher reading the current status, a closed popup while authorizing shows the closed-window error; every other event is handled as written |
| DeploymentModal.StepKeepsInv | components/deployment-modal.tsx:82-266 | every event keeps the bar between 0 and 100, full only on success, and keeps a pending deployment behind the redeploy confirmation |
| DeploymentModal.InitialInv | components/deployment-modal.tsx:46-55 | the dialog starts in a state meeting that invariant |
| DeploymentModal.ConfirmStartsRedeploy | components/deployment-modal.tsx:256-261 | the confirmation's Yes button, shown only while confirming, always starts a redeploy of the pending deployment |
| DeploymentModal.Run | components/deployment-modal.tsx:82-266 | any run of events keeps the invariant, with the watcher as written or corrected |
| DeploymentModal.NoSuccessWithoutPoll | components/deployment-modal.tsx:94-100 | with either watcher, only a poll reporting success shows success: through any run without one, a bar at 90% or less stays there and success does not show |
| DeploymentModal.StepWithoutPollSuccess | components/deployment-modal.tsx:82-266 | in both machines, one event other than a successful poll neither shows success nor fills the bar past 90% |
| DeploymentModal.CloseRefusedWhileDeploying | components/deployment-modal.tsx:244-245 | with either watcher, any number of close requests leave a deploying dialog as it was |
| DeploymentModal.SeenStatusNeverAuthorizing | components/deployment-modal.tsx:198-225 | since Deploy is pressed only while idle, the status the watcher reads is never authorizing |
| DeploymentModal.TickNeverShowsClosedWindow | components/deployment-modal.tsx:222-233 | as written, the watcher's tick never changes what the dialog shows |
| DeploymentModal.ClosedPopupLeavesAuthorizing | components/deployment-modal.tsx:198-233 | as written, pressing Deploy and closing the popup leaves the dialog authorizing at 10% with its watcher stopped |
| DeploymentModal.ClosedPopupShowsError | components/deployment-modal.tsx:198-233 | with the correction, the same run shows the closed-window error |
| DeploymentModal.FirstDeployment | components/deployment-modal.tsx:82-166 | a trusted success message, a new app, a started build, one pending and one successful poll check the app, deploy it, poll the build, reach 50% and end in success with the address |
| SkillIcons.DropUnderscores | lib/skill-icons.ts:184 | the name with its underscores removed has none left |
| SkillIcons.Scan | lib/skill-icons.ts:184 | the split always yields at least one piece |
| SkillIcons.ScanPieces | lib/skill-icons.ts:184 | no piece of the split holds an underscore, and upper case only ever starts a piece |
| SkillIcons.ScanConcat | lib/skill-icons.ts:184 | the split loses nothing but the underscores: its pieces run together are the name without them |
| SkillIcons.Words | lib/skill-icons.ts:184 | the split of a name gives at least one piece, each free of underscores with upper case only at its start, and the pieces run together give the name back without its underscores |
| SkillIcons.Capitalize | lib/skill-icons.ts:185 | a capitalised word has the same length, its first character upper-cased and the rest lower-cased |
| SkillIcons.CapitalizeAll | lib/skill-icons.ts:185 | every piece is capitalised, in place |
| SkillIcons.FormatName | lib/skill-icons.ts:182-195 | `formatCategoryName` and `formatSkillName`: the pieces, each capitalised, joined by single spaces; its contract is carried by FormatNameLength, Words, CapitalizeAll, PlainKeyIsOneWord, TwoWordName and VersionControl |
| SkillIcons.FormatNameLength | lib/skill-icons.ts:182-195 | the name shown is as long as the key without underscores, plus one space between each two pieces |
| SkillIcons.ScanPlain | lib/skill-icons.ts:184 | characters that are neither underscores nor upper case never end a piece |
| SkillIcons.ScanHumps | lib/skill-icons.ts:184 | each run starting with an upper-case letter followed by plain characters becomes a piece of its own |
| SkillIcons.CamelCaseWords | lib/skill-icons.ts:184 | a camel-case key splits into its plain first word and then each capitalised word |
| SkillIcons.ScanSnake | lib/skill-icons.ts:184 | plain words joined by underscores split back into those words, the first joined to what was read before |
| SkillIcons.SnakeCaseWords | lib/skill-icons.ts:184 | a snake-case key splits at its underscores and only there |
| SkillIcons.PlainKeyIsOneWord | lib/skill-icons.ts:182-187 | a key with no underscore and no upper-case letter stays one word, and is displayed capitalised |
| SkillIcons.CapitalizePiece | lib/skill-icons.ts:185 | capitalising a piece of the split only touches its first character |
| SkillIcons.TwoWordName | lib/skill-icons.ts:182-187 | a two-word camel-case key is displayed as its two words capitalised, one space between them |
| SkillIcons.VersionControl | lib/skill-icons.ts:162-187 | the key `versionControl` is displayed as `Version Control` |
| SkillIcons.AllSkills | lib/skill-icons.ts:171-179 | one category per icon table, in order, named by formatting the table's key, with one skill per entry, named by formatting the entry's key, and the icon address unchanged |
| SkillForm.MatchingSkills | components/skill-form.tsx:51 | the skills kept are exactly those whose lower-cased name contains the lower-cased query; a single skill is kept exactly when it matches |
| SkillForm.Matches | components/skill-form.tsx:51 | the search test, lower-cased name containing the lower-cased query; MatchingSkills and MatchingSkillsAppend state the filter built on it |
| SkillForm.MatchingSkillsAppend | components/skill-form.tsx:51 | the matches of two lists joined are the matches of each, joined in order |
| SkillForm.AllMatchingKept | components/skill-form.tsx:51 | when every skill of a category matches, the filter keeps the whole list, in order |
| SkillForm.MatchingCategories | components/skill-form.tsx:48-53 | a category lists a skill in the results exactly when it lists it in the catalogue and the skill matches; no category in the result is empty; the result is never longer than the catalogue; with MatchingCategoriesAppend and MatchingCategoriesOne, the result is each catalogue category in catalogue order, narrowed to its matching skills under its own name, and dropped when none match |
| SkillForm.MatchingCategoriesAppend | components/skill-form.tsx:48-53 | narrowing two catalogues joined gives the narrowed catalogues joined in the same order, so catalogue order is kept |
| SkillForm.MatchingCategoriesOne | components/skill-form.tsx:48-53 | a single category is kept under its own name with exactly its matching skills, or dropped when none match |
| SkillForm.ListedCons | components/skill-form.tsx:48-53 | a skill is listed by a list of categories exactly when its first category or the rest lists it |
| SkillForm.SearchResults | components/skill-form.tsx:47-54 | an empty query gives no results; for any other query a category lists a skill in the results exactly when it lists it in the catalogue and the skill matches, ignoring case, and no category is empty; catalogue order and the narrowing of each category follow from MatchingCategoriesAppend and MatchingCategoriesOne |
| SkillForm.HandleSelect | components/skill-form.tsx:68-72 | picking a result makes it the skill being edited and clears the error |
| SkillForm.SelectClearsResults | components/skill-form.tsx:68-72 | after a pick the search text is empty, so the result list is empty |
| SkillForm.ValidateCustomSkill | components/skill-form.tsx:74-88 | a custom skill is refused exactly when its name is under 2 or over 30 characters or its icon address is missing or not a URL, and each message is given exactly when its rule is the first that fails |
| SkillForm.HandleSave | components/skill-form.tsx:90-104 | the search tab hands on any skill with a name and an icon and otherwise asks to select one; the custom tab hands on exactly the skills the custom rules accept and otherwise shows the first broken rule; an accepted skill is handed on unchanged |
| SkillForm.CustomStricterThanSearch | components/skill-form.tsx:90-104 | a skill the custom tab accepts, the search tab accepts too |
| SkillForm.PickedIsSaved | components/skill-form.tsx:47-104 | a result picked from the search, with a name and an icon, is in the catalogue and is saved as picked |
| SkillCategoryForm.ValidateCategory | components/skill-category-form.tsx:52-60 | a category name passes exactly when it has 3 to 50 characters; the too-short message exactly when it has fewer, the too-long message exactly when it has more |
| SkillCategoryForm.HandleSave | components/skill-category-form.tsx:62-69 | the category is handed on, unchanged and with its skills, exactly when its name passes; otherwise the rule's message is shown |
| SkillsEditor.SaveCategory | components/skills-editor.tsx:57-73 | with no index being edited, or an index equal to the length, the category is appended (`updatedSkills[i] = c` at the length appends); an index inside the list replaces that category and keeps every other |
| SkillsEditor.DeleteCategory | components/skills-editor.tsx:95-104 | deleting removes the category at the index, and only it, keeping the others in order; an index past the end removes nothing |
| SkillsEditor.AddThenDeleteCategory | components/skills-editor.tsx:57-104 | deleting the category just appended gives the list back |
| SkillsEditor.SaveSkill | components/skills-editor.tsx:75-93 | with no category selected nothing changes; otherwise only the selected category's skills change, the skill replacing the one being edited or being appended, and every category keeps its name |
| SkillsEditor.DeleteSkill | components/skills-editor.tsx:106-116 | only the given category changes, losing the skill at the index |
| SkillsEditor.AddThenDeleteSkill | components/skills-editor.tsx:75-116 | deleting the skill just appended to a category gives the list back |
| SkillsEditor.ConfirmDelete | components/skills-editor.tsx:308-314 | the confirmation deletes the category or the skill it was opened for, and nothing when the kind or its indices are missing |
| SkillsEditor.Shown | components/skills-editor.tsx:154 | the form shows the category being edited, or an empty one with no skills when there is none |
| SkillsEditor.Step | components/skills-editor.tsx:95-197 | the category dialog as written, with the delete confirmation: a delete removes that category and leaves the dialog's category and index as they were; Add Category only opens the dialog, keeping what an earlier edit left behind; an edit opens the dialog on that category and index; dismissing only closes, Cancel closes and clears; typing sets the name and clears the message; Save with a name out of range shows the form's message and changes nothing else; Save with a name in range saves the category and closes and clears the dialog, except that it has no result (None) exactly when the stale index is past the end of the list, where JavaScript would make a sparse array |
| SkillsEditor.StepCorrected | components/skills-editor.tsx:95-197 | with the correction, Add Category opens an empty form with no index being edited, every other event is as written, every step has a result, and while the dialog is open the index being edited points into the list |
| SkillsEditor.AddAfterDismissedEditOverwrites | components/skills-editor.tsx:141-197 | as written: editing the first category, dismissing the dialog, then adding a category with a valid name renames the first category instead of adding one |
| SkillsEditor.DeleteAfterDismissedEditOverwritesNext | components/skills-editor.tsx:95-104 | as written: edit the first category, dismiss, delete it, then add a category with a valid name: the deleted category's skills come back under the new name and overwrite what was the second category |
| SkillsEditor.DeletedCategoryComesBack | components/skills-editor.tsx:57-73 | as written: edit the last category, dismiss, delete it, then add a category with a valid name: the stale index equals the new length, so the deleted category's skills are appended under the new name |
| SkillsEditor.DeletesLeaveIndexPastEnd | components/skills-editor.tsx:57-73 | as written: edit the last of two or more categories, dismiss, delete the first category twice, then add and save a valid name: the stale index is past the end, the save that would leave a hole in the array |
| SkillsEditor.AddAppends | components/skills-editor.tsx:141-197 | with the correction, Add Category, a valid name and Save append one empty category with that name, whatever state the closed dialog was left in |
| SkillsEditor.DeleteAfterDismissedEditAppends | components/skills-editor.tsx:95-104 | with the correction, the run of DeleteAfterDismissedEditOverwritesNext deletes the first category, keeps the second, and appends one empty category with the new name |
| SkillsEditor.RefusedNameKeepsList | components/skill-category-form.tsx:62-69 | in either version Save with a non-blank name the form refuses leaves the list unchanged, keeps the dialog as it was, and shows the form's message |
| SkillsEditor.TypingClearsMessage | components/skill-category-form.tsx:79-82 | typing after a refused save sets the name and clears the message |
| SocialLinksEditor.Unused | components/social-links-editor.tsx:40 | the platforms kept are exactly those no link uses, never more than given; with UnusedAppend and UnusedOne, each platform of the list is kept once, in the list's order, exactly when no link uses it |
| SocialLinksEditor.UnusedAppend | components/social-links-editor.tsx:40 | filtering two lists joined gives the filtered lists joined in the same order |
| SocialLinksEditor.UnusedOne | components/social-links-editor.tsx:40 | a single platform is kept exactly when no link uses it |
| SocialLinksEditor.AvailablePlatforms | components/social-links-editor.tsx:26-40 | a platform is offered exactly when it is built in (not custom) and no link uses it; since it is `Unused` of the fixed list, UnusedAppend and UnusedOne give the order GitHub, LinkedIn, Twitter, email, each once |
| SocialLinksEditor.BuiltInMembers | components/social-links-editor.tsx:26 | every platform but custom is built in |
| SocialLinksEditor.UnusedKeepsOrder | components/social-links-editor.tsx:40 | when no platform is used, all are offered, in their own order |
| SocialLinksEditor.NoLinksAllAvailable | components/social-links-editor.tsx:26-40 | with no links, GitHub, LinkedIn, Twitter and email are offered, in that order |
| SocialLinksEditor.NewLink | components/social-links-editor.tsx:59-66 | the new link has the detected platform, that platform's icon, and the completed address |
| SocialLinksEditor.AddLink | components/social-links-editor.tsx:42-72 | an address is added exactly when its platform is unused and its platform's check accepts it, appended as the completed link; the already-exists message shows exactly when the platform is used |
| SocialLinksEditor.AddKeepsWellFormed | components/social-links-editor.tsx:42-72 | adding keeps one link per platform, each with its platform's icon |
| SocialLinksEditor.PlatformsUsed | components/social-links-editor.tsx:37 | a platform is among the used ones exactly when some link has it |
| SocialLinksEditor.PlatformsCount | components/social-links-editor.tsx:37-52 | with one link per platform there are as many platforms used as links |
| SocialLinksEditor.WellFormedWithinMaximum | components/social-links-editor.tsx:25-195 | a list with one link per platform never has more than five links, the cap the add button checks |
| SocialLinksEditor.EditLink | components/social-links-editor.tsx:74-103 | nothing happens without a link being edited; the edit is accepted exactly when the address is detected as the link's platform and passes its check; then every link of that platform gets the completed address and nothing else changes |
| SocialLinksEditor.EditChangesOnlyThatLink | components/social-links-editor.tsx:74-103 | in a list with one link per platform an accepted edit changes that link's address only, and keeps one link per platform |
| SocialLinksEditor.ReplaceKeepsWellFormed | components/social-links-editor.tsx:94-96 | replacing a link by one of the same platform and icon keeps one link per platform |
| SocialLinksEditor.EditAddress | components/social-links-editor.tsx:111 | the edit field shows an address starting with `mailto:` without it, an address with no `mailto:` unchanged, and otherwise the address 7 characters shorter |
| SocialLinksEditor.EditAddressRemovesFirst | components/social-links-editor.tsx:111 | the `mailto:` taken out is the first one: the result is the text before it followed by the text after it |
| SocialLinksEditor.ReopenedEmailKeepsAddress | components/social-links-editor.tsx:93-111 | reopening an email link and saving its address unchanged gives back the same address |
| SocialLinksEditor.ReopenedWebLinkKeepsAddress | components/social-links-editor.tsx:93-111 | reopening a web link and saving its address unchanged gives back the same address |
| SocialLinksEditor.RemoveLink | components/social-links-editor.tsx:105-107 | removing never lengthens the list; a single link goes exactly when it has the address |
| SocialLinksEditor.RemoveLinkAppend | components/social-links-editor.tsx:105-107 | removing from two lists joined is removing from each and joining the results |
| SocialLinksEditor.RemoveLinkMembers | components/social-links-editor.tsx:105-107 | exactly the links with another address are kept |
| SocialLinksEditor.RemoveKeepsOrder | components/social-links-editor.tsx:105-107 | when only one link has the address, removing it leaves the others in order |
| SocialLinksEditor.RemoveNone | components/social-links-editor.tsx:105-107 | when no link has the address, removing changes nothing |
| SocialLinksEditor.RemoveTakesSharedAddress | components/social-links-editor.tsx:105-107 | a link's remove button also removes every other link with the same address |
| SocialLinksEditor.RemoveKeepsWellFormed | components/social-links-editor.tsx:105-107 | removing keeps one link per platform |
| ProjectForm.AddTag | components/project-form.tsx:82-118 | a blank tag is ignored; each length, count and duplicate message shows exactly when its rule is the first broken, the lengths read on the untrimmed input and the duplicate check on the trimmed one; a tag that breaks none of these rules is accepted, and the accepted value is the project with the trimmed tag appended and nothing else changed |
| ProjectForm.TrimmedInput | components/project-form.tsx:83-106 | the trimmed input of a non-blank tag is non-blank, no longer than the input, and trims to itself |
| ProjectForm.AddTagKeepsTagsWellFormed | components/project-form.tsx:82-118 | adding a tag keeps the tags at most six, without duplicates, non-blank, at most 20 characters and trimmed |
| ProjectForm.RemoveTag | components/project-form.tsx:120-125 | removing a tag removes the one at the index, keeps the others in order, and changes nothing else |
| ProjectForm.RemoveTagKeepsTagsWellFormed | components/project-form.tsx:120-125 | removing a tag keeps the tags well formed |
| ProjectForm.AddLink | components/project-form.tsx:127-166 | a link with a blank name or address is ignored; each message shows exactly when its rule is the first broken; a link that breaks none of these rules is accepted; an accepted link keeps its name as typed, gets the completed address, and the GitHub icon exactly when that address mentions `github.com` |
| ProjectForm.AddLinkKeepsLinksWellFormed | components/project-form.tsx:127-166 | adding a link keeps the links at most three, each named with 2 to 30 characters, with a completed address and the icon its address calls for |
| ProjectForm.RemoveLink | components/project-form.tsx:168-173 | removing a link removes the one at the index, keeps the others in order, and changes nothing else |
| ProjectForm.RemoveLinkKeepsLinksWellFormed | components/project-form.tsx:168-173 | removing a link keeps the links well formed |
| ProjectEditor.ValidateProject | components/project-editor.tsx:72-85 | a project passes exactly when its title and description are not blank, the title has at least 5 characters, the description at least 20, and it has a tag and a link; each message shows exactly when its rule is the first broken |
| ProjectEditor.EnabledFormIsAccepted | components/project-form.tsx:437-444 | a project the form lets you save, with a title and description that are not blank, passes the editor's validation |
| ProjectForm.SaveEnabled | components/project-form.tsx:437-444 | the save button's enabling condition; ProjectEditor.EnabledFormIsAccepted and ProjectEditor.SaveWithinMaximum state what it guarantees |
| ProjectEditor.HandleSave | components/project-editor.tsx:87-118 | a project is saved exactly when it passes validation, replacing the one being edited with every other kept, or appended; a refused one shows the validator's message |
| ProjectEditor.DeleteProject | components/project-editor.tsx:120-128 | deleting removes the project at the index, and only it, keeping the others in order |
| ProjectEditor.AddThenDeleteProject | components/project-editor.tsx:87-128 | deleting the project just added gives the list back |
| ProjectEditor.SaveWithinMaximum | components/project-editor.tsx:142-148 | with the add button disabled at twelve projects, saving never takes the list past twelve |
| ProjectEditor.SaveIgnoresMaximum | components/project-editor.tsx:87-103 | the save handler itself does not check the cap: adding to twelve projects gives thirteen |
| ExperienceEditor.FirstBroken | components/experience-editor.tsx:69-91 | the first validation rule an entry breaks, each rule reported exactly when every earlier rule holds and it fails; none exactly when the entry is acceptable |
| ExperienceEditor.ValidateExperience | components/experience-editor.tsx:69-91 | no message exactly when every field rule holds; otherwise the message of the first rule broken |
| ExperienceEditor.EnabledFormIsAccepted | components/experience-form.tsx:336-347 | an entry the form's save button lets through, with non-blank text fields, passes the editor's validation |
| ExperienceEditor.HandleSave | components/experience-editor.tsx:93-118 | saved exactly when the entry passes validation, with the validation message otherwise; a new entry is appended, an edited one replaces its position and every other entry is kept |
| ExperienceEditor.SaveWithinMaximum | components/experience-editor.tsx:49-165 | with the add button disabled at ten entries, saving never takes the list past ten |
| ExperienceEditor.Displayed | components/experience-editor.tsx:137-143 | the cards shown are the stored entries rearranged, none placed after one it should precede |
| ExperienceEditor.DisplayedOrder | components/experience-editor.tsx:137-143 | in display order ongoing entries come first and start years do not increase within each group |
| ExperienceEditor.StoredIndex | components/experience-editor.tsx:190 | the stored position of a displayed card holds the entry that card shows |
| ExperienceEditor.DeleteFromView | components/experience-editor.tsx:127-135 | as written: the delete button passes the card's display index, and the stored entry at that index is removed |
| ExperienceEditor.EditFromView | components/experience-editor.tsx:206-215 | as written: the edit button passes the card's display index, and a save overwrites the stored entry at that index |
| ExperienceEditor.OutOfOrderSwapped | components/experience-editor.tsx:137-143 | two entries stored out of display order are each displayed at the other's position |
| ExperienceEditor.DeleteDisplayed | components/experience-editor.tsx:127-135 | corrected: deleting from a card removes exactly the entry that card shows |
| ExperienceEditor.EditDisplayed | components/experience-editor.tsx:93-118 | corrected: editing from a card replaces exactly the entry that card shows, and only when it passes validation |
| ExperienceEditor.DisplayIndexHitsWrongEntry | components/experience-editor.tsx:190-215 | for two entries stored oldest first, the first card's delete and edit buttons as written act on the other entry; the corrected handlers act on the one shown |
| ExperienceEditor.SortedListHasNoMismatch | components/experience-editor.tsx:137-143 | when the stored list is already in display order the buttons as written act on the card they sit on |
| ExperienceForm.ValidateYear | components/experience-form.tsx:27-50 | no message exactly when the year rule holds; the required message exactly for an empty start year; the four-digit message exactly for a non-empty year that is not four digits; the range message, naming ten years ahead, for a four-digit year out of range; the order message exactly for an in-range end year earlier than a start year that reads as a number |
| ExperienceForm.YearsInOrder | components/experience-form.tsx:27-50 | a start year and a non-empty end year that both pass are four-digit years from 1900 to ten years ahead, the end no earlier than the start |
| ExperienceForm.AddDescriptionItem | components/experience-form.tsx:96-122 | blank input is ignored; a non-blank item over 150 characters is refused with the length message; a non-blank item within 150 characters with five items already is refused with the count message; otherwise it is appended trimmed |
| ExperienceForm.AddKeepsItemsWellFormed | components/experience-form.tsx:96-122 | adding keeps every item non-blank and within 150 characters, and at most five items |
| ExperienceForm.RemoveDescriptionItem | components/experience-form.tsx:124-129 | removing changes only the item list, which loses one item when the index is in range and is unchanged otherwise |
| ExperienceForm.RemoveKeepsItemsWellFormed | components/experience-form.tsx:124-129 | removing keeps the list well formed and takes away exactly the item at the index |
| ExperienceForm.SetOngoing | components/experience-form.tsx:235-240 | the switch sets the ongoing flag, clears the end year when switched on and keeps it when switched off, and changes nothing else |
| ExperienceForm.OngoingSatisfiesEndYear | components/experience-form.tsx:336-347 | after switching on, neither end-year condition of the save button holds |
| ExperienceForm.SaveDisabled | components/experience-form.tsx:336-347 | the save button's disabling condition; ExperienceEditor.EnabledFormIsAccepted and ExperienceForm.OngoingSatisfiesEndYear state what it guarantees |
| EducationEditor.FirstBroken | components/education-editor.tsx:69-93 | the first validation rule an entry breaks, each rule reported exactly when every earlier rule holds and it fails; none exactly when the entry is acceptable |
| EducationEditor.ValidateEducation | components/education-editor.tsx:69-93 | no message exactly when every field rule holds; otherwise the message of the first rule broken |
| EducationEditor.EnabledFormIsAccepted | components/education-form.tsx:244-257 | an entry the form's save button lets through, with non-blank text fields, passes the editor's validation |
| EducationEditor.HandleSave | components/education-editor.tsx:95-126 | saved exactly when the entry passes validation, with the validation message otherwise; a new entry is appended, an edited one replaces its position and every other entry is kept |
| EducationEditor.SaveWithinMaximum | components/education-editor.tsx:50-166 | with the add button disabled at five entries, saving never takes the list past five |
| EducationEditor.Displayed | components/education-editor.tsx:138-144 | the cards shown are the stored entries rearranged, none placed after one it should precede |
| EducationEditor.DisplayedOrder | components/education-editor.tsx:138-144 | in display order ongoing entries come first and start years do not increase within each group |
| EducationEditor.StoredIndex | components/education-editor.tsx:189 | the stored position of a displayed card holds the entry that card shows |
| EducationEditor.DeleteFromView | components/education-editor.tsx:128-136 | as written: the delete button passes the card's display index, and the stored entry at that index is removed |
| EducationEditor.EditFromView | components/education-editor.tsx:205-214 | as written: the edit button passes the card's display index, and a save overwrites the stored entry at that index |
| EducationEditor.OutOfOrderSwapped | components/education-editor.tsx:138-144 | two entries stored out of display order are each displayed at the other's position |
| EducationEditor.DeleteDisplayed | components/education-editor.tsx:128-136 | corrected: deleting from a card removes exactly the entry that card shows |
| EducationEditor.EditDisplayed | components/education-editor.tsx:95-126 | corrected: editing from a card replaces exactly the entry that card shows, and only when it passes validation |
| EducationEditor.DisplayIndexHitsWrongEntry | components/education-editor.tsx:189-214 | for two entries stored oldest first, the first card's delete and edit buttons as written act on the other entry; the corrected handlers act on the one shown |
| EducationEditor.SortedListHasNoMismatch | components/education-editor.tsx:138-144 | when the stored list is already in display order the buttons as written act on the card they sit on |
| EducationForm.SetOngoing | components/education-form.tsx:194-200 | the switch sets the ongoing flag, clears the end year when switched on and keeps it when switched off, and changes nothing else |
| EducationForm.EnabledSaveMeans | components/education-form.tsx:244-257 | an enabled save button means every minimum length holds, the entry is ongoing or has an end year, and both years pass the year rule |
| EducationForm.SaveDisabled | components/education-form.tsx:244-257 | the save button's disabling condition; EducationForm.EnabledSaveMeans, EducationEditor.EnabledFormIsAccepted and EducationForm.OngoingSatisfiesEndYear state what it guarantees |
| EducationForm.OngoingSatisfiesEndYear | components/education-form.tsx:244-257 | after switching on, neither end-year condition of the save button holds |
| CertificationForm.ValidateDate | components/certification-form.tsx:26-53 | no message exactly when the date rule holds (an empty expiry, or four digits from 1900 to ten years ahead, and an expiry given with an issue date no earlier than a readable issue year and not in the past); the required message exactly for an empty issue date; the format message exactly for a non-empty date that is not four digits; the two expiry messages only for an expiry with an issue date |
| CertificationForm.ParseIntAgrees | components/certification-form.tsx:34 | integer parsing of a four-digit year gives the year's decimal value |
| CertificationForm.DatesInOrder | components/certification-form.tsx:26-53 | an issue date and a non-empty expiry that both pass are four-digit years with the issue no later than the expiry, and the expiry between this year and ten years ahead |
| CertificationForm.FirstBroken | components/certification-form.tsx:95-131 | each rule (title, issuer, issue date, expiry date, credential ID, credential address, badge address, description, each required or long enough) is reported exactly when every rule before it holds and it does not; none exactly when all hold |
| CertificationForm.ValidateCertification | components/certification-form.tsx:95-131 | no message exactly when every field rule holds; otherwise the message of the first rule broken, and for a date rule the message the date check gives |
| CertificationForm.HandleSave | components/certification-form.tsx:133-149 | refused with the validation message exactly when validation fails; an accepted certification keeps every field except the two addresses, each of which stays empty when empty and is otherwise the completed address |
| CertificationForm.SavedPassesAgain | components/certification-form.tsx:133-149 | what the form hands on passes the form's own validation again |
| CertificationEditor.ValidateCertification | components/certification-editor.tsx:70-100 | no message exactly when every field rule holds; otherwise the message of the first rule broken, worded as the form words it; the credential address message exactly when the earlier rules hold and a non-empty address is refused by the URL constructor |
| CertificationEditor.FirstBroken | components/certification-editor.tsx:70-100 | each of the editor's rules (title, issuer, non-blank issue date, credential ID, credential address, description) is reported exactly when every rule before it holds and it does not; the form's date and badge rules never are |
| CertificationEditor.Stored | components/certification-editor.tsx:110-114 | the stored certification differs only in the credential address, which stays empty when empty and is otherwise the completed address, starting with http and containing the typed one |
| CertificationEditor.HandleSave | components/certification-editor.tsx:102-139 | saved exactly when the certification passes the editor's validation; a new one is appended in stored form, an edited one replaces its position |
| CertificationEditor.DeleteCertification | components/certification-editor.tsx:141-149 | deleting an index in range removes exactly that certification and keeps the others in order; any other index changes nothing |
| CertificationEditor.AddThenDeleteCertification | components/certification-editor.tsx:102-149 | deleting the certification just added gives the list back |
| CertificationEditor.SaveWithinMaximum | components/certification-editor.tsx:51-174 | with the add button disabled at eight certifications, saving never takes the list past eight |
| CertificationEditor.SaveFromForm | components/certification-editor.tsx:184-187 | as written: the editor is reached exactly when the form accepts, and then validates and stores the certification as typed, not as the form completed it |
| CertificationEditor.SaveFromFormCorrected | components/certification-editor.tsx:184-187 | corrected: the editor is reached exactly when the form accepts, and receives the certification the form completed |
| CertificationEditor.BareCredentialUrlRefused | components/certification-editor.tsx:87-93 | a credential address without a scheme passes the form, yet the editor as written refuses it with the credential address message |
| CertificationEditor.FormAcceptedIsSaved | components/certification-form.tsx:133-149 | with the completed certification, everything the form accepts is appended exactly as the form completed it |
| CertificationCard.CalculateStatus | components/certification-card.tsx:29-34 | no expiry exactly for an empty expiry date; otherwise active exactly when the parsed expiry year is this year or later |
| CertificationCard.StatusOfYear | components/certification-card.tsx:29-34 | for a four-digit expiry year: active exactly up to that year, expired exactly after it |
| CertificationCard.AcceptedNotExpired | components/certification-card.tsx:29-34 | for dates the form accepted in a given year: no expiry date never expires; an expiry year lies between that year and ten years later, and shows as expired exactly in the years after it, so never in the year of saving or before |
| AboutSection.HandleImageUrlChange | components/about-section.tsx:30-47 | an empty field shows and reports the placeholder; an address the URL check refuses only sets the image message and reports nothing; any other address is completed, shown, reported and passes the URL check, and the message is cleared |
| AboutSection.ReportedIsStable | components/about-section.tsx:30-47 | entering the reported address again reports the same address |
| Forms.Save | components/experience-editor.tsx:95-108 | a validation message stops the save and is shown; otherwise a new entry is appended and an edited one replaces its position, every other entry kept |
| Forms.SaveKeepsMaximum | components/experience-editor.tsx:165 | adding through the enabled add button, or editing, never takes a list above the maximum |
| Seqs.RemoveAt | components/experience-editor.tsx:129 | filtering out an index removes exactly the element there and keeps the others in order; an index out of range changes nothing |
| Seqs.Upsert | components/experience-editor.tsx:101-108 | with an editing index one slot is replaced and the length kept; without one the entry is appended after the unchanged list |
| Seqs.Dedup | app/layout.tsx:13 | the set's array has no value twice, holds every input value, and nothing else |
| Seqs.DedupKeepsFirstOccurrenceOrder | app/layout.tsx:13 | values keep the order of their first occurrences |
| Seqs.DedupHead | app/layout.tsx:13 | the first value stays first |
| Text.Trim | components/experience-editor.tsx:70 | trimming never lengthens a string and leaves no whitespace at either end |
| Text.TrimEmptyIffBlank | components/experience-editor.tsx:70 | a string trims to the empty string exactly when it is blank |
| Text.Split | components/deployment-modal.tsx:149 | splitting gives at least one piece, none holding the separator |
| Text.JoinSplit | components/deployment-modal.tsx:149 | joining the pieces of a split gives the text back |
| Text.SplitJoin | components/deployment-modal.tsx:149 | splitting the join of separator-free pieces gives the pieces back |
| Text.SplitFirst | components/deployment-modal.tsx:149 | the first piece is the text before the first separator, or all of it when there is none; there is more than one piece exactly when the separator occurs |
| Text.SplitLast | app/layout.tsx:52 | the last piece of a split is the text after the last separator |
| Text.AfterLast | app/layout.tsx:52 | the text after the last separator is a separator-free suffix that is all of the text or follows a separator |
| Text.AfterLastUnique | app/layout.tsx:52 | any separator-free suffix that is all of the text or follows a separator is the text after the last separator |
| Text.Lower | lib/skill-icons.ts:185 | lower-casing keeps the length and maps each character |
| Text.Upper | lib/skill-icons.ts:185 | upper-casing keeps the length and maps each character |
| Text.JsNumber | components/experience-form.tsx:31 | a non-empty string of digits reads as its decimal value |
| Text.ParseInt | components/certification-form.tsx:34 | a non-empty string of digits parses to its decimal value |
| Text.NatToString | components/experience-form.tsx:39 | a non-negative integer renders as a non-empty string of digits with no leading zero: 0 renders as `0`, and any other number starts with a non-zero digit |
| Text.NatToStringRoundTrip | components/experience-form.tsx:39 | reading back the rendering of a number gives the number |
| Timeline.CompareIsBefore | components/experience-editor.tsx:138-142 | the comparator is negative exactly when the first entry goes before, positive exactly when the second does, and antisymmetric |
| Timeline.Compare | components/experience-editor.tsx:138-142 | the sort comparator; CompareIsBefore states its sign against the independent `Before` order |
| Timeline.SortOrder | components/experience-editor.tsx:137-143 | the display order is a permutation of the stored positions, sorted by the comparator and stable |
| Timeline.SortedView | components/experience-editor.tsx:137-143 | each displayed entry is the stored one at its stored position, and no entry is displayed after one it should precede |
| Timeline.SortedViewPermutes | components/experience-editor.tsx:137-143 | every stored entry is displayed exactly once |
| Timeline.SwappedPair | components/experience-editor.tsx:137-143 | two entries stored in the wrong order are displayed swapped |
| Timeline.SortedListStaysPut | components/experience-editor.tsx:137-143 | a list already in display order is displayed as stored |

## Left out

- Network and browser I/O: `fetch`, `window.open`, `postMessage` listeners, and the timers behind retries, polling and the popup watcher. Responses are given as sequences, and waits are recorded as numbers rather than elapsed.
- React machinery: hooks, refs, focus handling, toasts, animation and rendering. Most dialogs' open flags are left out too. Where a handler's effect on the dialog state matters, that state is an explicit datatype. The skills editor's category dialog keeps its open flag (`SkillsEditor.CategoryDialog.open`); the deployment dialog's open flag is its `ClosedByParent` event.
- String lengths count characters (Unicode scalar values). JavaScript's `length` counts UTF-16 code units, so a character outside the Basic Multilingual Plane, such as an emoji, counts twice in the source. Every length limit of the forms, the editors and the portfolio validation is therefore modelled on characters and agrees with the source only for text inside that plane.
- Possible events: the skills editor's category dialog is modal, so `SkillsEditor.Possible` lets its own events (typing, Save, Cancel, dismissing) happen only while it is open and the page's buttons (Add Category, edit, delete) only while it is closed. The Save button is disabled while the category name is blank, so a save of a blank name is ruled out too, and `SkillsEditor.RefusedNameKeepsList` is about non-blank names only.
- SkillsEditor.Step: a save whose stale index is past the end of the list has no result (None). JavaScript writes past the end and leaves holes in the array, and a list of categories has no value for a hole; what the page then does with the sparse array is not modelled.
- The `URL` constructor is an uninterpreted `UrlParser` parameter. Only the empty-string case of `validateUrl` and the host tests in `detectPlatform` are fixed by the model.
- The clock is the `currentYear` parameter.
- The generated data file and the endpoints of the deployment service are the dialog's `Context`.
- `generateDataFileContent` text: the `JSON.stringify` output and its regular-expression rewrites are left out, as is the download. Only the icon names it writes are modelled (`Utils.SerializeSocialLinks`, `Utils.SerializeProjects`).
- Text.Lower: maps ASCII letters only, where `toLowerCase` follows Unicode.
- Text.Upper: maps ASCII letters only, where `toUpperCase` follows Unicode.
- Text.JsNumber: reads only an empty or all-digit string after trimming. Signs, decimal points, exponents, hexadecimal and `Infinity` read as `NaN`, which is enough for the four-digit years the forms pass it.
- Text.ParseInt: decimal only, with no radix prefix.
- Text.Trim: the contract states the length bound and the whitespace-free ends, not that the result is the middle of the input. That fact is stated through `TrimStart` and `TrimEnd` instead.
- The deployment dialog models one popup watcher at a time. A second Deploy press while a watcher runs is not modelled, since the model lets Deploy be pressed only in an idle dialog (`DeploymentModal.Possible`).
- A thrown value that is not an `Error` (the "Unknown error occurred" fallback of the service) is not modelled: every modelled failure is a `TypeError`, a `DeploymentError` or another `Error`.
- The experience and education sorts require every stored start year to read as a number (`NumericStartYears`). With `NaN` the comparator is inconsistent, and the order `Array.prototype.sort` gives is implementation-defined.
- The success toast of `handleSave` in `app/page.tsx` is not modelled. Only the error toast's message is.
- `getIconUrl` in `lib/skill-icons.ts` is a plain table lookup. The icon tables are data and enter `SkillIcons.AllSkills` as a parameter.
- The skills editor mutates the category objects of a shallow copy in place, so the previous list shares them. The model builds new values and describes only the list handed to `onChange`. The sharing with the old state is not modelled.
- Not modelled:
  - the favicon canvas code, the contact form (a third-party POST), the API-key form's trim check, the web manifest and scroll helpers;
  - the presentational components (cards, badges, rating stars, editable text, logo selector, floating buttons, section headings).
  None of them decides anything the model covers.

## Findings

| source | as written | input that shows it | evidently intended | confidence | as-written member | corrected member |
|---|---|---|---|---|---|---|
| components/experience-editor.tsx:190-215 | the delete and edit buttons pass the card's position in the sorted list, and the handlers use it as a position in the stored list | two finished jobs stored oldest first (started 2018, then 2020): the first card shows the 2020 job, yet its delete button removes the 2018 job and its edit button overwrites it | act on the entry the card shows | not executed | ExperienceEditor.DisplayIndexHitsWrongEntry | ExperienceEditor.DeleteDisplayed |
| components/education-editor.tsx:189-214 | the same mix of sorted and stored positions as the experience editor | two finished degrees stored oldest first: the first card's delete and edit buttons act on the other degree | act on the entry the card shows | not executed | EducationEditor.DisplayIndexHitsWrongEntry | EducationEditor.DeleteDisplayed |
| components/certification-editor.tsx:184-187 | the form's save sets the completed certification and then calls `onSave`, which the editor bound to the certification as typed, so the editor validates the address before `https://` is added | a valid certification whose credential URL is `example.com/cert`: the form accepts it, and the editor refuses it with "Please enter a valid credential URL" | the editor receives the certification the form completed | not executed | CertificationEditor.BareCredentialUrlRefused | CertificationEditor.SaveFromFormCorrected |
| components/skills-editor.tsx:141-160 | the Add Category button only opens the dialog, so an edit dismissed by closing the dialog (not by Cancel) leaves its category and index behind | edit the first category, close the dialog, press Add Category, type a valid name and save: the first category is renamed and nothing is added | Add Category starts from an empty form with no editing index | not executed | SkillsEditor.AddAfterDismissedEditOverwrites | SkillsEditor.StepCorrected |
| components/skills-editor.tsx:95-104 | deleting a category resets neither the category nor the index left by a dismissed edit, so the next Add Category saves at a stale index | edit the first of two categories, close the dialog, delete that category, press Add Category, type a valid name and save: the deleted category's skills come back under the new name and overwrite the second category | Add Category starts from an empty form with no editing index, so the save appends a new empty category | not executed | SkillsEditor.DeleteAfterDismissedEditOverwritesNext | SkillsEditor.DeleteAfterDismissedEditAppends |
| components/deployment-modal.tsx:222-231 | the popup watcher reads the status of the render in which Deploy was pressed, which is never "authorizing", so the closed-window error is never set | press Deploy from idle and close the sign-in popup before signing in: the dialog stays authorizing at 10% with its watcher stopped | show the "auth window closed" error | not executed | DeploymentModal.ClosedPopupLeavesAuthorizing | DeploymentModal.ClosedPopupShowsError |

=== FILE: about_section.dfy ===
/** components/about-section.tsx: changing the profile image address. */
module AboutSection {
  import opened Wrappers
  import opened Text
  import opened Utils

  const Placeholder := "/placeholder.svg"
  const InvalidImage := "Please enter a valid image URL"

  /** What the section keeps: the image shown and the message under the field. */
  datatype ImageState = ImageState(imageUrl: string, error: Option<string>)

  /** The outcome of a change: the new state, and the address reported
      through `onChange` (`None` when `onChange` is not called). */
  datatype ImageChange = ImageChange(state: ImageState, reported: Option<string>)

  /** `handleImageUrlChange`: an empty field falls back to the placeholder;
      an address `validateUrl` rejects only sets the message, leaving the
      image and the portfolio alone; any other address is completed, shown
      and reported, and the message cleared. */
  function HandleImageUrlChange(parse: UrlParser, st: ImageState, value: string): (r: ImageChange)
    ensures value == "" ==> r == ImageChange(ImageState(Placeholder, None), Some(Placeholder))
    ensures r.reported.None? <==> value != "" && !ValidateUrl(parse, value)
    ensures r.reported.None? ==> r.state == st.(error := Some(InvalidImage))
    ensures r.reported.Some? ==> r.state == ImageState(r.reported.value, None)
    ensures value != "" && r.reported.Some? ==>
      r.reported.value == FormatUrl(value) && ValidateUrl(parse, r.reported.value)
  {
    if value == "" then ImageChange(ImageState(Placeholder, None), Some(Placeholder))
    else if !ValidateUrl(parse, value) then ImageChange(st.(error := Some(InvalidImage)), None)
    else
      ValidateFormatted(parse, value);
      ImageChange(ImageState(FormatUrl(value), None), Some(FormatUrl(value)))
  }

  /** Entering the reported address again reports the same address: the
      stored form is a fixed point of the handler. */
  lemma ReportedIsStable(parse: UrlParser, st: ImageState, other: ImageState, value: string)
    requires value != "" && HandleImageUrlChange(parse, st, value).reported.Some?
    ensures var shown := HandleImageUrlChange(parse, st, value).reported.value;
      HandleImageUrlChange(parse, other, shown).reported == Some(shown)
  {
    FormatUrlIdempotent(value);
  }
}

=== FILE: certification_card.dfy ===
/** components/certification-card.tsx: the status badge of a certification.

    The clock is a parameter: `currentYear` stands for `new Date().getFullYear()`. */
module CertificationCard {
  import opened Wrappers
  import opened Text
  import CertificationForm

  /** `CertificationStatus`. */
  datatype Status = NoExpiry | Active | Expired

  /** `calculateStatus`: no expiry date, or active while the expiry year
      (`Number.parseInt`) is this year or later. An expiry date without
      leading digits parses to `NaN`, which compares false, so it reads as
      expired. */
  function CalculateStatus(expiryDate: string, currentYear: int): (s: Status)
    ensures s == NoExpiry <==> expiryDate == ""
    ensures expiryDate != "" ==>
      (s == Active <==> ParseInt(expiryDate).Some? && ParseInt(expiryDate).value >= currentYear)
  {
    if expiryDate == "" then NoExpiry
    else
      match ParseInt(expiryDate)
      case Some(expiryYear) => if expiryYear >= currentYear then Active else Expired
      case None => Expired
  }

  /** For a four-digit expiry year: active in that year and every year
      before it, expired from the next year on. */
  lemma StatusOfYear(expiryDate: string, currentYear: int)
    requires IsFourDigits(expiryDate)
    ensures CalculateStatus(expiryDate, currentYear) == Active <==> DigitsValue(expiryDate) >= currentYear
    ensures CalculateStatus(expiryDate, currentYear) == Expired <==> DigitsValue(expiryDate) < currentYear
  {
    CertificationForm.ParseIntAgrees(expiryDate);
  }

  /** A certification whose dates the form accepted in `savedYear`, viewed
      in `viewYear`: without an expiry date it never expires; with one, the
      expiry year lies between the year of saving and ten years after it,
      and the certification shows as expired exactly in the years after its
      expiry year, so never in the year it was saved or before. */
  lemma AcceptedNotExpired(issueDate: string, expiryDate: string, savedYear: int, viewYear: int)
    requires CertificationForm.ValidateDate(issueDate, CertificationForm.Issue, "", savedYear).None?
    requires CertificationForm.ValidateDate(expiryDate, CertificationForm.Expiry, issueDate, savedYear).None?
    ensures expiryDate == "" ==> CalculateStatus(expiryDate, viewYear) == NoExpiry
    ensures expiryDate != "" ==>
      && IsFourDigits(expiryDate) && savedYear <= DigitsValue(expiryDate) <= savedYear + 10
      && (CalculateStatus(expiryDate, viewYear) == Expired <==> viewYear > DigitsValue(expiryDate))
    ensures viewYear <= savedYear ==> CalculateStatus(expiryDate, viewYear) != Expired
  {
    if expiryDate != "" {
      CertificationForm.DatesInOrder(issueDate, expiryDate, savedYear);
      StatusOfYear(expiryDate, viewYear);
    }
  }
}

=== FILE: certification_editor.dfy ===
/** components/certification-editor.tsx: the editor's own certification
    validator, saving and deleting certifications, and the cap on their
    number; and what reaches the editor when the form's save button is
    pressed. */
module CertificationEditor {
  import opened Wrappers
  import opened Text
  import opened Seqs
  import opened Portfolio
  import opened Forms
  import opened Utils
  import CertificationForm

  const MaxCertifications := 8

  const InvalidCredentialUrl := "Please enter a valid credential URL"

  /** What the editor's `validateCertification` accepts. The issue date is
      only required to be non-blank, and the credential address is handed to
      the `URL` constructor as it is. */
  predicate Acceptable(parse: UrlParser, c: Certification) {
    && !IsBlank(c.title) && |c.title| >= 5
    && !IsBlank(c.issuer) && |c.issuer| >= 2
    && !IsBlank(c.issueDate)
    && !IsBlank(c.credentialId) && |c.credentialId| >= 3
    && (c.credentialUrl == "" || parse(c.credentialUrl).Some?)
    && !IsBlank(c.description) && |c.description| >= 20
  }

  /** The first rule a certification breaks in the editor, among the rules
      the form checks: each is reported exactly when every rule before it
      holds and it does not. */
  function FirstBroken(parse: UrlParser, c: Certification): (r: Option<CertificationForm.Rule>)
    ensures r.None? <==> Acceptable(parse, c)
    ensures r.Some? ==> !r.value.IssueDateInvalid? && !r.value.ExpiryDateInvalid? && !r.value.BadgeUrlInvalid?
    ensures r == Some(CertificationForm.TitleRequired) <==> IsBlank(c.title)
    ensures r == Some(CertificationForm.TitleTooShort) <==> !IsBlank(c.title) && |c.title| < 5
    ensures r == Some(CertificationForm.IssuerRequired) <==> CertificationForm.TitleOk(c) && IsBlank(c.issuer)
    ensures r == Some(CertificationForm.IssuerTooShort) <==>
      CertificationForm.TitleOk(c) && !IsBlank(c.issuer) && |c.issuer| < 2
    ensures r == Some(CertificationForm.IssueDateRequired) <==> CertificationForm.NamesOk(c) && IsBlank(c.issueDate)
    ensures r == Some(CertificationForm.CredentialIdRequired) <==>
      CertificationForm.NamesOk(c) && !IsBlank(c.issueDate) && IsBlank(c.credentialId)
    ensures r == Some(CertificationForm.CredentialIdTooShort) <==>
      CertificationForm.NamesOk(c) && !IsBlank(c.issueDate) && !IsBlank(c.credentialId) && |c.credentialId| < 3
    ensures r == Some(CertificationForm.CredentialUrlInvalid) <==>
      && CertificationForm.NamesOk(c) && !IsBlank(c.issueDate) && CertificationForm.CredentialIdOk(c)
      && c.credentialUrl != "" && parse(c.credentialUrl).None?
    ensures r == Some(CertificationForm.DescriptionRequired) <==>
      && CertificationForm.NamesOk(c) && !IsBlank(c.issueDate) && CertificationForm.CredentialIdOk(c)
      && (c.credentialUrl == "" || parse(c.credentialUrl).Some?) && IsBlank(c.description)
    ensures r == Some(CertificationForm.DescriptionTooShort) <==>
      && CertificationForm.NamesOk(c) && !IsBlank(c.issueDate) && CertificationForm.CredentialIdOk(c)
      && (c.credentialUrl == "" || parse(c.credentialUrl).Some?) && !IsBlank(c.description) && |c.description| < 20
  {
    if IsBlank(c.title) then Some(CertificationForm.TitleRequired)
    else if |c.title| < 5 then Some(CertificationForm.TitleTooShort)
    else if IsBlank(c.issuer) then Some(CertificationForm.IssuerRequired)
    else if |c.issuer| < 2 then Some(CertificationForm.IssuerTooShort)
    else if IsBlank(c.issueDate) then Some(CertificationForm.IssueDateRequired)
    else if IsBlank(c.credentialId) then Some(CertificationForm.CredentialIdRequired)
    else if |c.credentialId| < 3 then Some(CertificationForm.CredentialIdTooShort)
    else if c.credentialUrl != "" && parse(c.credentialUrl).None? then Some(CertificationForm.CredentialUrlInvalid)
    else if IsBlank(c.description) then Some(CertificationForm.DescriptionRequired)
    else if |c.description| < 20 then Some(CertificationForm.DescriptionTooShort)
    else None
  }

  /** The editor's `validateCertification`: the message of the first rule
      broken, worded as the form words it. */
  function ValidateCertification(parse: UrlParser, c: Certification): (r: Option<string>)
    ensures r.None? <==> Acceptable(parse, c)
    ensures r.Some? ==> r.value == CertificationForm.Message(FirstBroken(parse, c).value)
    ensures r == Some(InvalidCredentialUrl) <==>
      && !IsBlank(c.title) && |c.title| >= 5 && !IsBlank(c.issuer) && |c.issuer| >= 2
      && !IsBlank(c.issueDate) && !IsBlank(c.credentialId) && |c.credentialId| >= 3
      && c.credentialUrl != "" && parse(c.credentialUrl).None?
  {
    match FirstBroken(parse, c)
    case None => None
    case Some(rule) => Some(CertificationForm.Message(rule))
  }

  /** The certification the editor stores: the credential address completed,
      an empty one left empty, everything else as given. */
  function Stored(c: Certification): (r: Certification)
    ensures r.(credentialUrl := c.credentialUrl) == c
    ensures c.credentialUrl == "" <==> r.credentialUrl == ""
    ensures c.credentialUrl != "" ==> StartsWith(r.credentialUrl, "http") && Contains(r.credentialUrl, c.credentialUrl)
    ensures r.credentialUrl == (if c.credentialUrl == "" then "" else FormatUrl(c.credentialUrl))
  {
    c.(credentialUrl := if c.credentialUrl != "" then FormatUrl(c.credentialUrl) else "")
  }

  /** `handleSaveCertification`: a refused certification leaves the list as
      it was; an accepted one, completed, replaces the one being edited or is
      appended. */
  function HandleSave(parse: UrlParser, items: seq<Certification>, editingIndex: Option<nat>, c: Certification): (r: SaveResult<Certification>)
    requires editingIndex.Some? ==> editingIndex.value < |items|
    ensures r.Saved? <==> Acceptable(parse, c)
    ensures r.Saved? && editingIndex.None? ==> r.items == items + [Stored(c)]
    ensures r.Saved? && editingIndex.Some? ==>
      |r.items| == |items| && r.items[editingIndex.value] == Stored(c)
      && forall k | 0 <= k < |items| && k != editingIndex.value :: r.items[k] == items[k]
  {
    Save(ValidateCertification(parse, c), items, editingIndex, Stored(c))
  }

  /** `handleDeleteCertification`: the certification at the index goes, the
      others keep their order. */
  function DeleteCertification(items: seq<Certification>, index: nat): (r: seq<Certification>)
    ensures index < |items| ==> multiset(r) + multiset{items[index]} == multiset(items)
    ensures index < |items| ==> r == items[..index] + items[index + 1..]
    ensures index >= |items| ==> r == items
  {
    RemoveAt(items, index)
  }

  /** Deleting the certification just added gives the list back. */
  lemma AddThenDeleteCertification(parse: UrlParser, items: seq<Certification>, c: Certification)
    requires Acceptable(parse, c)
    ensures DeleteCertification(HandleSave(parse, items, None, c).items, |items|) == items
  {
    assert (items + [Stored(c)])[..|items|] == items;
  }

  /** The add button is disabled at eight certifications and editing keeps
      the count, so saving never takes the list past eight. */
  lemma SaveWithinMaximum(parse: UrlParser, items: seq<Certification>, editingIndex: Option<nat>, c: Certification)
    requires editingIndex.Some? ==> editingIndex.value < |items|
    requires |items| <= MaxCertifications
    requires editingIndex.None? ==> CanAdd(items, MaxCertifications)
    ensures var r := HandleSave(parse, items, editingIndex, c);
      r.Saved? ==> |r.items| <= MaxCertifications
  {
  }

  /** As written: the form's save button runs the form's `handleSave`, which
      hands the completed certification to `setCertification`, and then
      `onSave`, which the editor bound to the certification of its last
      render. The editor therefore validates and stores the certification as
      typed, not as the form completed it. When the form refuses, `onSave` is
      not called and there is no result (`None`). */
  function SaveFromForm(parse: UrlParser, items: seq<Certification>, editingIndex: Option<nat>,
                        typed: Certification, currentYear: int): (r: Option<SaveResult<Certification>>)
    requires editingIndex.Some? ==> editingIndex.value < |items|
    ensures r.None? <==> CertificationForm.HandleSave(parse, typed, currentYear).Refused?
    ensures r.Some? ==> r.value == HandleSave(parse, items, editingIndex, typed)
  {
    match CertificationForm.HandleSave(parse, typed, currentYear)
    case Accepted(_) => Some(HandleSave(parse, items, editingIndex, typed))
    case _ => None
  }

  /** Corrected: the editor receives the certification the form completed. */
  function SaveFromFormCorrected(parse: UrlParser, items: seq<Certification>, editingIndex: Option<nat>,
                                 typed: Certification, currentYear: int): (r: Option<SaveResult<Certification>>)
    requires editingIndex.Some? ==> editingIndex.value < |items|
    ensures r.None? <==> CertificationForm.HandleSave(parse, typed, currentYear).Refused?
    ensures r.Some? ==>
      r.value == HandleSave(parse, items, editingIndex, CertificationForm.HandleSave(parse, typed, currentYear).value)
  {
    match CertificationForm.HandleSave(parse, typed, currentYear)
    case Accepted(completed) => Some(HandleSave(parse, items, editingIndex, completed))
    case _ => None
  }

  /** A credential address without a scheme (`example.com/cert`, which the
      `URL` constructor refuses and accepts once `https://` is added) passes
      the form, yet the editor as written refuses it with the credential URL
      message, so the certification is never saved. */
  lemma BareCredentialUrlRefused(parse: UrlParser, items: seq<Certification>, typed: Certification, currentYear: int)
    requires CertificationForm.Acceptable(parse, typed, currentYear)
    requires typed.credentialUrl != "" && parse(typed.credentialUrl).None?
    ensures CertificationForm.HandleSave(parse, typed, currentYear).Accepted?
    ensures SaveFromForm(parse, items, None, typed, currentYear) == Some(Rejected(InvalidCredentialUrl))
  {
  }

  /** With the completed certification, everything the form accepts is
      saved, and stored exactly as the form completed it. */
  lemma FormAcceptedIsSaved(parse: UrlParser, items: seq<Certification>, typed: Certification, currentYear: int)
    requires CertificationForm.Acceptable(parse, typed, currentYear)
    ensures CertificationForm.HandleSave(parse, typed, currentYear).Accepted?
    ensures SaveFromFormCorrected(parse, items, None, typed, currentYear)
      == Some(Saved(items + [CertificationForm.HandleSave(parse, typed, currentYear).value]))
  {
    var completed := CertificationForm.HandleSave(parse, typed, currentYear).value;
    if typed.credentialUrl != "" {
      FormatUrlIdempotent(typed.credentialUrl);
      assert completed.credentialUrl == FormatUrl(typed.credentialUrl);
    }
    assert Stored(completed) == completed;
  }
}

=== FILE: certification_form.dfy ===
/** components/certification-form.tsx: the year rule for issue and expiry
    dates, the form's certification validator, and the save handler that
    completes the two optional addresses.

    The clock is a parameter: `currentYear` stands for `new Date().getFullYear()`. */
module CertificationForm {
  import opened Wrappers
  import opened Text
  import opened Portfolio
  import opened Forms
  import opened Utils
  import ExperienceForm

  /** `type` of `validateDate`. */
  datatype DateKind = Issue | Expiry

  const DateRequired := "Date is required"
  const DateNotYear := "Date must be a valid year (YYYY)"
  const ExpiryBeforeIssue := "Expiry date cannot be before issue date"
  const ExpiryInPast := "Expiry date cannot be in the past"

  /** The date rule in words: an empty expiry is fine; otherwise four digits
      between 1900 and ten years from now, and an expiry given with an issue
      date is no earlier than an issue year that reads as a number, and not
      in the past. */
  predicate DateAcceptable(date: string, kind: DateKind, issueDate: string, currentYear: int) {
    || (date == "" && kind == Expiry)
    || (&& IsFourDigits(date)
        && 1900 <= DigitsValue(date) <= currentYear + 10
        && (kind == Expiry && issueDate != "" ==>
              && (ParseInt(issueDate).Some? ==> DigitsValue(date) >= ParseInt(issueDate).value)
              && DigitsValue(date) >= currentYear))
  }

  /** `validateDate`. `Number.parseInt` of an issue date without leading
      digits is `NaN`, which makes the before-issue comparison false; the
      in-the-past comparison is still made. */
  function ValidateDate(date: string, kind: DateKind, issueDate: string, currentYear: int): (r: Option<string>)
    ensures r.None? <==> DateAcceptable(date, kind, issueDate, currentYear)
    ensures r == Some(DateRequired) <==> date == "" && kind == Issue
    ensures date != "" ==> (r == Some(DateNotYear) <==> !IsFourDigits(date))
    ensures r == Some(ExpiryBeforeIssue) || r == Some(ExpiryInPast) ==> kind == Expiry && issueDate != ""
  {
    if date == "" then (if kind == Issue then Some(DateRequired) else None)
    else if !IsFourDigits(date) then Some(DateNotYear)
    else
      var year := DigitsValue(date);
      ParseIntAgrees(date);
      if year < 1900 || year > currentYear + 10 then Some(ExperienceForm.YearOutOfRange(currentYear))
      else if kind == Expiry && issueDate != "" then
        match ParseInt(issueDate)
        case Some(issueYear) =>
          if year < issueYear then Some(ExpiryBeforeIssue)
          else if year < currentYear then Some(ExpiryInPast)
          else None
        case None =>
          if year < currentYear then Some(ExpiryInPast) else None
      else None
  }

  /** `Number.parseInt` of a four-digit year is its value. */
  lemma ParseIntAgrees(date: string)
    requires IsFourDigits(date)
    ensures ParseInt(date) == Some(DigitsValue(date))
  {
  }

  /** An issue date and an expiry date that both pass are in order, and the
      expiry is not in the past. */
  lemma DatesInOrder(issue: string, expiry: string, currentYear: int)
    requires ValidateDate(issue, Issue, "", currentYear).None?
    requires expiry != "" && ValidateDate(expiry, Expiry, issue, currentYear).None?
    ensures IsFourDigits(issue) && IsFourDigits(expiry)
    ensures 1900 <= DigitsValue(issue) <= DigitsValue(expiry)
    ensures currentYear <= DigitsValue(expiry) <= currentYear + 10
  {
    ParseIntAgrees(issue);
  }

  /** The rules of `validateCertification`, in the order the form checks
      them. The editor's validator checks the same rules, but of the dates
      only that the issue date is not blank, and no badge address. */
  datatype Rule =
    | TitleRequired | TitleTooShort | IssuerRequired | IssuerTooShort
    | IssueDateRequired | IssueDateInvalid | ExpiryDateInvalid
    | CredentialIdRequired | CredentialIdTooShort | CredentialUrlInvalid | BadgeUrlInvalid
    | DescriptionRequired | DescriptionTooShort

  /** The message a rule shows; the two date rules show what `validateDate`
      answers instead. */
  function Message(rule: Rule): string
    requires !rule.IssueDateInvalid? && !rule.ExpiryDateInvalid?
  {
    match rule
    case TitleRequired => "Title is required"
    case TitleTooShort => "Title must be at least 5 characters"
    case IssuerRequired => "Issuer is required"
    case IssuerTooShort => "Issuer must be at least 2 characters"
    case IssueDateRequired => "Issue date is required"
    case CredentialIdRequired => "Credential ID is required"
    case CredentialIdTooShort => "Credential ID must be at least 3 characters"
    case CredentialUrlInvalid => "Please enter a valid credential URL"
    case BadgeUrlInvalid => "Please enter a valid badge URL"
    case DescriptionRequired => "Description is required"
    case DescriptionTooShort => "Description must be at least 20 characters"
  }

  predicate TitleOk(c: Certification) {
    !IsBlank(c.title) && |c.title| >= 5
  }

  /** The title and issuer rules hold. */
  predicate NamesOk(c: Certification) {
    TitleOk(c) && !IsBlank(c.issuer) && |c.issuer| >= 2
  }

  /** The title, issuer and both date rules hold. */
  predicate DatesOk(c: Certification, currentYear: int) {
    && NamesOk(c)
    && !IsBlank(c.issueDate) && ValidateDate(c.issueDate, Issue, "", currentYear).None?
    && (c.expiryDate == "" || ValidateDate(c.expiryDate, Expiry, c.issueDate, currentYear).None?)
  }

  predicate CredentialIdOk(c: Certification) {
    !IsBlank(c.credentialId) && |c.credentialId| >= 3
  }

  /** Every rule up to the badge address holds. */
  predicate AddressesOk(parse: UrlParser, c: Certification, currentYear: int) {
    && DatesOk(c, currentYear) && CredentialIdOk(c)
    && (c.credentialUrl == "" || ValidateUrl(parse, c.credentialUrl))
    && (c.badgeUrl == "" || ValidateUrl(parse, c.badgeUrl))
  }

  /** What the form's `validateCertification` accepts, field by field. */
  predicate Acceptable(parse: UrlParser, c: Certification, currentYear: int) {
    && !IsBlank(c.title) && |c.title| >= 5
    && !IsBlank(c.issuer) && |c.issuer| >= 2
    && !IsBlank(c.issueDate) && ValidateDate(c.issueDate, Issue, "", currentYear).None?
    && (c.expiryDate == "" || ValidateDate(c.expiryDate, Expiry, c.issueDate, currentYear).None?)
    && !IsBlank(c.credentialId) && |c.credentialId| >= 3
    && (c.credentialUrl == "" || ValidateUrl(parse, c.credentialUrl))
    && (c.badgeUrl == "" || ValidateUrl(parse, c.badgeUrl))
    && !IsBlank(c.description) && |c.description| >= 20
  }

  /** The first rule a certification breaks in the form: each is reported
      exactly when every rule before it holds and it does not. */
  function FirstBroken(parse: UrlParser, c: Certification, currentYear: int): (r: Option<Rule>)
    ensures r.None? <==> Acceptable(parse, c, currentYear)
    ensures r == Some(TitleRequired) <==> IsBlank(c.title)
    ensures r == Some(TitleTooShort) <==> !IsBlank(c.title) && |c.title| < 5
    ensures r == Some(IssuerRequired) <==> TitleOk(c) && IsBlank(c.issuer)
    ensures r == Some(IssuerTooShort) <==> TitleOk(c) && !IsBlank(c.issuer) && |c.issuer| < 2
    ensures r == Some(IssueDateRequired) <==> NamesOk(c) && IsBlank(c.issueDate)
    ensures r == Some(IssueDateInvalid) <==>
      NamesOk(c) && !IsBlank(c.issueDate) && ValidateDate(c.issueDate, Issue, "", currentYear).Some?
    ensures r == Some(ExpiryDateInvalid) <==>
      && NamesOk(c) && !IsBlank(c.issueDate) && ValidateDate(c.issueDate, Issue, "", currentYear).None?
      && c.expiryDate != "" && ValidateDate(c.expiryDate, Expiry, c.issueDate, currentYear).Some?
    ensures r == Some(CredentialIdRequired) <==> DatesOk(c, currentYear) && IsBlank(c.credentialId)
    ensures r == Some(CredentialIdTooShort) <==>
      DatesOk(c, currentYear) && !IsBlank(c.credentialId) && |c.credentialId| < 3
    ensures r == Some(CredentialUrlInvalid) <==>
      DatesOk(c, currentYear) && CredentialIdOk(c) && c.credentialUrl != "" && !ValidateUrl(parse, c.credentialUrl)
    ensures r == Some(BadgeUrlInvalid) <==>
      && DatesOk(c, currentYear) && CredentialIdOk(c) && (c.credentialUrl == "" || ValidateUrl(parse, c.credentialUrl))
      && c.badgeUrl != "" && !ValidateUrl(parse, c.badgeUrl)
    ensures r == Some(DescriptionRequired) <==> AddressesOk(parse, c, currentYear) && IsBlank(c.description)
    ensures r == Some(DescriptionTooShort) <==>
      AddressesOk(parse, c, currentYear) && !IsBlank(c.description) && |c.description| < 20
  {
    if IsBlank(c.title) then Some(TitleRequired)
    else if |c.title| < 5 then Some(TitleTooShort)
    else if IsBlank(c.issuer) then Some(IssuerRequired)
    else if |c.issuer| < 2 then Some(IssuerTooShort)
    else if IsBlank(c.issueDate) then Some(IssueDateRequired)
    else if ValidateDate(c.issueDate, Issue, "", currentYear).Some? then Some(IssueDateInvalid)
    else if c.expiryDate != "" && ValidateDate(c.expiryDate, Expiry, c.issueDate, currentYear).Some? then
      Some(ExpiryDateInvalid)
    else if IsBlank(c.credentialId) then Some(CredentialIdRequired)
    else if |c.credentialId| < 3 then Some(CredentialIdTooShort)
    else if c.credentialUrl != "" && !ValidateUrl(parse, c.credentialUrl) then Some(CredentialUrlInvalid)
    else if c.badgeUrl != "" && !ValidateUrl(parse, c.badgeUrl) then Some(BadgeUrlInvalid)
    else if IsBlank(c.description) then Some(DescriptionRequired)
    else if |c.description| < 20 then Some(DescriptionTooShort)
    else None
  }

  /** The form's `validateCertification`: the message of the first rule
      broken, or what `validateDate` answers when that rule is a date's. */
  function ValidateCertification(parse: UrlParser, c: Certification, currentYear: int): (r: Option<string>)
    ensures r.None? <==> Acceptable(parse, c, currentYear)
    ensures FirstBroken(parse, c, currentYear) == Some(IssueDateInvalid) ==>
      r == ValidateDate(c.issueDate, Issue, "", currentYear)
    ensures FirstBroken(parse, c, currentYear) == Some(ExpiryDateInvalid) ==>
      r == ValidateDate(c.expiryDate, Expiry, c.issueDate, currentYear)
    ensures var rule := FirstBroken(parse, c, currentYear);
      rule.Some? && !rule.value.IssueDateInvalid? && !rule.value.ExpiryDateInvalid? ==> r == Some(Message(rule.value))
  {
    match FirstBroken(parse, c, currentYear)
    case None => None
    case Some(IssueDateInvalid) => ValidateDate(c.issueDate, Issue, "", currentYear)
    case Some(ExpiryDateInvalid) => ValidateDate(c.expiryDate, Expiry, c.issueDate, currentYear)
    case Some(rule) => Some(Message(rule))
  }

  /** The form's `handleSave`: a refused certification is not handed on; an
      accepted one is handed on with both addresses completed (an empty one
      stays empty) and every other field as typed. */
  function HandleSave(parse: UrlParser, c: Certification, currentYear: int): (r: Step<Certification>)
    ensures r.Ignored? == false
    ensures r.Refused? <==> !Acceptable(parse, c, currentYear)
    ensures r.Accepted? ==>
      && r.value.(credentialUrl := c.credentialUrl, badgeUrl := c.badgeUrl) == c
      && (c.credentialUrl == "" <==> r.value.credentialUrl == "")
      && (c.badgeUrl == "" <==> r.value.badgeUrl == "")
      && (c.credentialUrl != "" ==> StartsWith(r.value.credentialUrl, "http"))
      && (c.badgeUrl != "" ==> StartsWith(r.value.badgeUrl, "http"))
      && r.value.credentialUrl == (if c.credentialUrl == "" then "" else FormatUrl(c.credentialUrl))
      && r.value.badgeUrl == (if c.badgeUrl == "" then "" else FormatUrl(c.badgeUrl))
    ensures r.Refused? ==> Some(r.message) == ValidateCertification(parse, c, currentYear)
  {
    match ValidateCertification(parse, c, currentYear)
    case Some(message) => Refused(message)
    case None =>
      Accepted(c.(
        credentialUrl := if c.credentialUrl != "" then FormatUrl(c.credentialUrl) else "",
        badgeUrl := if c.badgeUrl != "" then FormatUrl(c.badgeUrl) else ""))
  }

  /** What the form hands on passes the form's own check again: completing
      the addresses keeps them valid. */
  lemma SavedPassesAgain(parse: UrlParser, c: Certification, currentYear: int)
    requires HandleSave(parse, c, currentYear).Accepted?
    ensures ValidateCertification(parse, HandleSave(parse, c, currentYear).value, currentYear).None?
  {
    if c.credentialUrl != "" {
      ValidateFormatted(parse, c.credentialUrl);
    }
    if c.badgeUrl != "" {
      ValidateFormatted(parse, c.badgeUrl);
    }
  }
}

=== FILE: deployment_modal.dfy ===
/** components/deployment-modal.tsx: the app name a deployment is made
    under, and the deployment dialog as a state machine.

    Every handler of the dialog, and every continuation of its asynchronous
    chains, is one event of `Step`. A handler that calls the deployment
    service does not wait for it: `Step` names the call it makes, and the
    call's result comes back later as an event of its own carrying the data
    its chain had gathered. As in the source, those results are applied
    whatever the dialog's status is by then. */
module DeploymentModal {
  import opened Wrappers
  import opened Text
  import opened DeploymentService

  /** `DEPLOYMENT_CONFIG` in lib/config.ts. */
  const Prefix := "folio-"
  const Suffix := "-abuilds"
  const MaxAppNameLength := 28

  /** The room left for the name between the prefix and the suffix. */
  const MaxMiddle := MaxAppNameLength - (|Prefix| + |Suffix|)

  /** A character the name keeps: `[a-z0-9-]`. */
  predicate Allowed(c: char) {
    ('a' <= c <= 'z') || ('0' <= c <= '9') || c == '-'
  }

  /** `replace(/[^a-z0-9-]/g, "")`: the allowed characters, in order. */
  function Filter(s: string): (r: string)
    ensures |r| <= |s|
    ensures forall c :: c in r <==> c in s && Allowed(c)
    ensures |s| == 1 ==> r == (if Allowed(s[0]) then s else "")
  {
    if |s| == 0 then ""
    else
      var rest := Filter(s[1..]);
      assert forall c :: c in s <==> c == s[0] || c in s[1..];
      if Allowed(s[0]) then [s[0]] + rest else rest
  }

  /** Filtering a string of allowed characters changes nothing. */
  lemma {:induction false} FilterAllowed(s: string)
    requires forall i | 0 <= i < |s| :: Allowed(s[i])
    ensures Filter(s) == s
  {
    if |s| > 0 {
      FilterAllowed(s[1..]);
    }
  }

  /** Filtering works character by character: the filter of two strings
      joined is the two filtered strings joined, so with the single-character
      case above it keeps every allowed character, in order and as often as
      it occurs. */
  lemma {:induction false} FilterAppend(s: string, t: string)
    ensures Filter(s + t) == Filter(s) + Filter(t)
    decreases |s|
  {
    if |s| > 0 {
      assert (s + t)[1..] == s[1..] + t;
      FilterAppend(s[1..], t);
    } else {
      assert s + t == t;
    }
  }

  /** The name's first word lower-cased, with everything but `[a-z0-9-]`
      removed. */
  function Sanitize(firstName: string): (r: string)
    ensures forall c | c in r :: Allowed(c)
    ensures forall c :: c in r <==> c in Lower(firstName) && Allowed(c)
    ensures |r| <= |firstName|
  {
    Filter(Lower(firstName))
  }

  /** `formatAppName`: the prefix, the sanitized name cut to the room left,
      and the suffix. */
  function FormatAppName(firstName: string): (r: string)
    ensures |Prefix| + |Suffix| <= |r| <= MaxAppNameLength
    ensures r[..|Prefix|] == Prefix && r[|r| - |Suffix|..] == Suffix
    ensures var middle := r[|Prefix|..|r| - |Suffix|];
      && (forall c | c in middle :: Allowed(c))
      && middle <= Sanitize(firstName)
      && (|Sanitize(firstName)| <= MaxMiddle ==> middle == Sanitize(firstName))
      && (|Sanitize(firstName)| > MaxMiddle ==> |r| == MaxAppNameLength)
  {
    var name := Sanitize(firstName);
    var middle := if |Prefix| + |name| + |Suffix| > MaxAppNameLength then name[..MaxMiddle] else name;
    var r := Prefix + middle + Suffix;
    assert r[|Prefix|..|r| - |Suffix|] == middle;
    r
  }

  /** An app name is a fixed point: formatting its middle again gives the
      same name. */
  lemma AppNameStable(firstName: string)
    ensures var r := FormatAppName(firstName);
      FormatAppName(r[|Prefix|..|r| - |Suffix|]) == r
  {
    var r := FormatAppName(firstName);
    var middle := r[|Prefix|..|r| - |Suffix|];
    assert forall i | 0 <= i < |middle| :: Allowed(middle[i]);
    assert Lower(middle) == middle;
    FilterAllowed(middle);
    assert r == Prefix + middle + Suffix;
  }

  /** `portfolioData.personalInfo.name.split(" ")[0]`. */
  function FirstName(name: string): (r: string)
    ensures ' ' !in r
    ensures r <= name
    ensures r == name || (|r| < |name| && name[|r|] == ' ')
  {
    SplitFirst(name, ' ');
    Split(name, ' ')[0]
  }

  /** The dialog's status. */
  datatype Status = Idle | Authorizing | Deploying | Success | Error | ConfirmRedeploy

  /** `DeploymentState`: the status, the deployed address, the error shown,
      and the progress bar's percentage. */
  datatype DeploymentState = DeploymentState(status: Status, deployedUrl: Option<string>, error: Option<string>, progress: int)

  /** A state set from scratch, with no address and no error. */
  function Plain(status: Status, progress: int): DeploymentState {
    DeploymentState(status, None, None, progress)
  }

  /** A state showing an error with the bar emptied. */
  function Failed(message: string): DeploymentState {
    DeploymentState(Error, None, Some(message), 0)
  }

  /** What a deployment chain has gathered: the token the authorization
      window sent, the app name and the data file's content. */
  datatype Chain = Chain(accessToken: string, appName: string, fileContent: string)

  /** The deployment waiting for the user to confirm a redeploy. */
  datatype PendingDeployment = PendingDeployment(chain: Chain, appId: Option<string>)

  /** The dialog: its state, the pending deployment, whether the popup
      watcher (`checkIntervalRef`) is running, and the status its callback
      reads. */
  datatype Modal = Modal(state: DeploymentState, pending: Option<PendingDeployment>, watching: bool, seenStatus: Status)

  /** The dialog when it is first shown. */
  const Initial := Modal(Plain(Idle, 0), None, false, Idle)

  /** The messages of `CONTENT.DEPLOYMENT.ERRORS`, and those the dialog
      writes itself. */
  const PopupBlocked := "Please enable popups to continue with deployment."
  const AuthWindowClosed := "Authentication window was closed. Please try again."
  const DeploymentFailed := "Failed to initiate deployment. Please try again."
  const AuthFailed := "Authentication failed. Please ensure pop-ups are enabled and try again."
  const Unexpected := "An unexpected error occurred. Please refresh the page and try again."
  const PollReportedFailure := "Deployment failed. Please try again."

  /** The only origin whose messages are read contains this host. */
  const TrustedHost := "execute-api.us-east-1.amazonaws.com"

  /** The error shown when `checkAppExists` throws: its message wrapped by
      the `catch` that rethrows it, then by the handler's own `catch`. */
  function CheckFailedMessage(message: string): string {
    "Deployment failed: " + "Failed to check if app exists: " + message + ". Please try again."
      + ". Please check your connection and try again."
  }

  /** What `window.open` gave: a window, nothing (or a closed window), or
      an exception. */
  datatype PopupResult = Opened | Blocked | OpenFailed

  /** `event.data` of a message: its `type`, `accessToken` and `error`. */
  datatype MessageData = MessageData(kind: string, accessToken: Option<string>, error: Option<string>)

  /** A JavaScript string that is present and not empty. */
  predicate Truthy(s: Option<string>) {
    s.Some? && s.value != ""
  }

  /** What `startDeployment` answers. */
  datatype DeployResponse = DeployResponse(appId: string, buildId: string)

  /** The call a step makes: none, `checkAppExists`, `startDeployment`,
      `pollDeploymentStatus`, or the dialog's `onClose`. */
  datatype Call =
    | NoCall
    | CheckApp(chain: Chain)
    | StartDeploy(chain: Chain, redeploy: bool, appId: Option<string>)
    | PollStatus(token: string, deployedApp: string, build: string)
    | CloseDialog

  /** The portfolio being deployed: the person's name and the content
      `generateDataFileContent` makes of the data. */
  datatype Context = Context(name: string, fileContent: string)

  /** What happens to the dialog:
      - the Authorize & Deploy button, with what `window.open` gave;
      - a tick of the popup watcher that finds the popup closed;
      - a message posted to the window, whose data may be unreadable;
      - `checkAppExists` or `startDeployment` settling;
      - `onStatusUpdate` and `onError` of the poll;
      - the dialog asking to close, and the page closing it;
      - the two buttons of the redeploy confirmation. */
  datatype Event =
    | DeployPressed(popup: PopupResult)
    | PopupClosedTick
    | Message(origin: string, data: Option<MessageData>)
    | AppChecked(chain: Chain, check: Attempt<AppCheck>)
    | Started(chain: Chain, start: Attempt<DeployResponse>)
    | PollUpdate(status: DeployStatus, deployedUrl: Option<string>)
    | PollFailed(message: string)
    | ClosePressed
    | ClosedByParent
    | RedeployConfirmed
    | RedeployCancelled

  datatype Outcome = Outcome(modal: Modal, call: Call)

  /** `handleStartDeployment`'s first step: deploying at 20%, and the call. */
  function StartDeployment(m: Modal, chain: Chain, redeploy: bool, appId: Option<string>): (o: Outcome)
    ensures o.modal.state.status == Deploying && o.modal.state.progress == 20
    ensures o.call == StartDeploy(chain, redeploy, appId)
    ensures o.modal.pending == m.pending
  {
    Outcome(m.(state := m.state.(status := Deploying, progress := 20)), StartDeploy(chain, redeploy, appId))
  }

  /** `handleMessage`. A message from elsewhere is ignored. Otherwise the
      popup watcher stops; unreadable data is an unexpected error; a success
      with a token starts deploying and checks whether the app exists, under
      the name made from the person's first name; an error message, or a
      message carrying an error, shows that error (or the generic one);
      anything else changes nothing more. */
  function HandleMessage(ctx: Context, m: Modal, origin: string, data: Option<MessageData>): (o: Outcome)
    ensures !Contains(origin, TrustedHost) ==> o == Outcome(m, NoCall)
    ensures Contains(origin, TrustedHost) ==> !o.modal.watching && o.modal.pending == m.pending
    ensures Contains(origin, TrustedHost) && data.None? ==> o.modal.state == Failed(Unexpected)
    ensures Contains(origin, TrustedHost) && data.Some? && data.value.kind == "OAUTH_SUCCESS" && Truthy(data.value.accessToken) ==>
      && o.modal.state.status == Deploying && o.modal.state.progress == 20
      && o.call == CheckApp(Chain(data.value.accessToken.value, FormatAppName(FirstName(ctx.name)), ctx.fileContent))
    ensures (&& Contains(origin, TrustedHost) && data.Some?
             && !(data.value.kind == "OAUTH_SUCCESS" && Truthy(data.value.accessToken))
             && (data.value.kind == "OAUTH_ERROR" || Truthy(data.value.error))) ==>
      o == Outcome(m.(watching := false, state := Failed(if Truthy(data.value.error) then data.value.error.value else AuthFailed)), NoCall)
    ensures (&& Contains(origin, TrustedHost) && data.Some?
             && !(data.value.kind == "OAUTH_SUCCESS" && Truthy(data.value.accessToken))
             && !(data.value.kind == "OAUTH_ERROR" || Truthy(data.value.error))) ==>
      o == Outcome(m.(watching := false), NoCall)
    ensures o.call.NoCall? || o.call.CheckApp?
  {
    if !Contains(origin, TrustedHost) then Outcome(m, NoCall)
    else
      var m1 := m.(watching := false);
      match data
      case None => Outcome(m1.(state := Failed(Unexpected)), NoCall)
      case Some(d) =>
        if d.kind == "OAUTH_SUCCESS" && Truthy(d.accessToken) then
          var chain := Chain(d.accessToken.value, FormatAppName(FirstName(ctx.name)), ctx.fileContent);
          Outcome(m1.(state := m.state.(status := Deploying, progress := 20)), CheckApp(chain))
        else if d.kind == "OAUTH_ERROR" || Truthy(d.error) then
          Outcome(m1.(state := Failed(if Truthy(d.error) then d.error.value else AuthFailed)), NoCall)
        else Outcome(m1, NoCall)
  }

  /** `handleDeploy`: with the popup open, authorize at 10% and start the
      watcher, which reads the status of this render; a blocked popup or a
      throwing `window.open` shows its error. */
  function OnDeployPressed(m: Modal, popup: PopupResult): (o: Outcome)
    ensures popup == Opened ==> o.modal == Modal(Plain(Authorizing, 10), m.pending, true, m.state.status)
    ensures popup == Blocked ==> o.modal == m.(state := Failed(PopupBlocked))
    ensures popup == OpenFailed ==> o.modal == m.(state := Failed(DeploymentFailed))
    ensures o.call == NoCall
  {
    match popup
    case Opened => Outcome(Modal(Plain(Authorizing, 10), m.pending, true, m.state.status), NoCall)
    case Blocked => Outcome(m.(state := Failed(PopupBlocked)), NoCall)
    case OpenFailed => Outcome(m.(state := Failed(DeploymentFailed)), NoCall)
  }

  /** A tick of the popup watcher that finds the popup closed, given the
      status its callback reads: the watcher stops, and the closed-window
      error shows only when that status is `Authorizing`. */
  function OnPopupClosed(m: Modal, read: Status): (o: Outcome)
    ensures m.watching && read == Authorizing ==> o.modal.state == Failed(AuthWindowClosed)
    ensures !(m.watching && read == Authorizing) ==> o.modal.state == m.state
    ensures !o.modal.watching && o.modal.pending == m.pending && o.modal.seenStatus == m.seenStatus
    ensures o.call == NoCall
  {
    if !m.watching then Outcome(m, NoCall)
    else if read == Authorizing then Outcome(m.(watching := false, state := Failed(AuthWindowClosed)), NoCall)
    else Outcome(m.(watching := false), NoCall)
  }

  /** `checkAppExists` settling: a failure shows its wrapped message; an
      existing app asks to confirm a redeploy and keeps the deployment
      pending; a new app starts deploying. */
  function OnAppChecked(m: Modal, chain: Chain, check: Attempt<AppCheck>): (o: Outcome)
    ensures check.Fail? ==> o == Outcome(m.(state := Failed(CheckFailedMessage(check.failure.message))), NoCall)
    ensures check.Ok? && check.value.exists_ ==>
      && o.modal == m.(pending := Some(PendingDeployment(chain, check.value.appId)),
                       state := m.state.(status := ConfirmRedeploy, progress := 0))
      && o.call == NoCall
    ensures check.Ok? && !check.value.exists_ ==> o == StartDeployment(m, chain, false, None)
  {
    match check
    case Fail(f) => Outcome(m.(state := Failed(CheckFailedMessage(f.message))), NoCall)
    case Ok(c) =>
      if c.exists_ then
        Outcome(m.(pending := Some(PendingDeployment(chain, c.appId)),
                   state := m.state.(status := ConfirmRedeploy, progress := 0)), NoCall)
      else StartDeployment(m, chain, false, None)
  }

  /** `startDeployment` settling: a failure shows its message; a started
      build moves the bar to 40% and starts polling it. */
  function OnStarted(m: Modal, chain: Chain, start: Attempt<DeployResponse>): (o: Outcome)
    ensures start.Fail? ==> o == Outcome(m.(state := Failed(start.failure.message)), NoCall)
    ensures start.Ok? ==>
      && o.modal == m.(state := m.state.(progress := 40))
      && o.call == PollStatus(chain.accessToken, start.value.appId, start.value.buildId)
  {
    match start
    case Fail(f) => Outcome(m.(state := Failed(f.message)), NoCall)
    case Ok(r) => Outcome(m.(state := m.state.(progress := 40)), PollStatus(chain.accessToken, r.appId, r.buildId))
  }

  /** `onStatusUpdate` of the poll: success fills the bar and shows the
      address; failure shows the poll's error; a pending build advances the
      bar by 10, never past 90. */
  function OnPollUpdate(m: Modal, status: DeployStatus, url: Option<string>): (o: Outcome)
    ensures status == Succeeded ==> o.modal == m.(state := DeploymentState(Success, url, None, 100))
    ensures status == DeployStatus.Failed ==> o.modal == m.(state := Failed(PollReportedFailure))
    ensures status == Pending ==>
      && o.modal == m.(state := m.state.(progress := o.modal.state.progress))
      && (o.modal.state.progress == m.state.progress + 10 || o.modal.state.progress == 90)
      && o.modal.state.progress <= 90
      && (m.state.progress <= 90 ==> o.modal.state.progress >= m.state.progress)
    ensures o.call == NoCall
  {
    match status
    case Succeeded => Outcome(m.(state := DeploymentState(Success, url, None, 100)), NoCall)
    case Failed => Outcome(m.(state := Failed(PollReportedFailure)), NoCall)
    case Pending => Outcome(m.(state := m.state.(progress := Min(m.state.progress + 10, 90))), NoCall)
  }

  /** `handleClose`: refused while deploying; otherwise the watcher stops
      and the dialog is asked to close. */
  function OnClosePressed(m: Modal): (o: Outcome)
    ensures m.state.status == Deploying ==> o == Outcome(m, NoCall)
    ensures m.state.status != Deploying ==> o == Outcome(m.(watching := false), CloseDialog)
  {
    if m.state.status == Deploying then Outcome(m, NoCall) else Outcome(m.(watching := false), CloseDialog)
  }

  /** `handleConfirmRedeploy`: redeploy the pending deployment under its
      app id; with nothing pending, nothing happens. */
  function OnRedeployConfirmed(m: Modal): (o: Outcome)
    ensures m.pending.Some? ==> o == StartDeployment(m, m.pending.value.chain, true, m.pending.value.appId)
    ensures m.pending.None? ==> o == Outcome(m, NoCall)
  {
    match m.pending
    case None => Outcome(m, NoCall)
    case Some(p) => StartDeployment(m, p.chain, true, p.appId)
  }

  /** The dialog as written: one step per event. The popup watcher's
      callback reads `seenStatus`, the status of the render in which the
      Deploy button was pressed, not the current one. Closing by the page
      and cancelling the redeploy reset the dialog to idle. */
  function Step(ctx: Context, m: Modal, ev: Event): (o: Outcome)
    ensures ev.PopupClosedTick? ==> !o.modal.watching && o.call == NoCall
    ensures ev.PopupClosedTick? && m.seenStatus != Authorizing ==> o.modal.state == m.state
    ensures ev.PollFailed? ==> o == Outcome(m.(state := Failed(ev.message)), NoCall)
    ensures ev.ClosedByParent? ==>
      && o.modal.state == Plain(Idle, 0) && o.modal.pending.None? && !o.modal.watching
      && o.call == NoCall
    ensures ev.RedeployCancelled? ==>
      && o.modal.state == Plain(Idle, 0) && o.modal.pending.None? && o.modal.watching == m.watching
      && o.call == NoCall
    ensures o.call.CloseDialog? <==> ev.ClosePressed? && m.state.status != Deploying
    ensures o.call.StartDeploy? ==> o.modal.state.status == Deploying && o.modal.state.progress == 20
    ensures o.call.PollStatus? <==> ev.Started? && ev.start.Ok?
  {
    match ev
    case DeployPressed(popup) => OnDeployPressed(m, popup)
    case PopupClosedTick => OnPopupClosed(m, m.seenStatus)
    case Message(origin, data) => HandleMessage(ctx, m, origin, data)
    case AppChecked(chain, check) => OnAppChecked(m, chain, check)
    case Started(chain, start) => OnStarted(m, chain, start)
    case PollUpdate(status, url) => OnPollUpdate(m, status, url)
    case PollFailed(message) => Outcome(m.(state := Failed(message)), NoCall)
    case ClosePressed => OnClosePressed(m)
    case ClosedByParent => Outcome(Modal(Plain(Idle, 0), None, false, m.seenStatus), NoCall)
    case RedeployConfirmed => OnRedeployConfirmed(m)
    case RedeployCancelled => Outcome(m.(pending := None, state := Plain(Idle, 0)), NoCall)
  }

  function Min(a: int, b: int): int {
    if a <= b then a else b
  }

  /** Corrected: the popup watcher reads the dialog's current status, so a
      popup closed while authorizing shows the error. Every other event is
      as written. */
  function StepCorrected(ctx: Context, m: Modal, ev: Event): (o: Outcome)
    ensures ev.PopupClosedTick? && m.watching && m.state.status == Authorizing ==> o.modal.state == Failed(AuthWindowClosed)
    ensures ev.PopupClosedTick? && !(m.watching && m.state.status == Authorizing) ==> o.modal.state == m.state
    ensures !ev.PopupClosedTick? ==> o == Step(ctx, m, ev)
  {
    if ev.PopupClosedTick? then OnPopupClosed(m, m.state.status) else Step(ctx, m, ev)
  }

  /** An event the dialog can receive: the Deploy button is shown only
      while idle, and the two redeploy buttons only while confirming. */
  predicate Possible(m: Modal, ev: Event) {
    && (ev.DeployPressed? ==> m.state.status == Idle)
    && (ev.RedeployConfirmed? || ev.RedeployCancelled? ==> m.state.status == ConfirmRedeploy)
  }

  /** The invariant of the dialog: the bar stays between 0 and 100 and is
      full only on success, and the redeploy confirmation always has a
      pending deployment behind it. */
  predicate Inv(m: Modal) {
    && 0 <= m.state.progress <= 100
    && (m.state.progress == 100 ==> m.state.status == Success)
    && (m.state.status == ConfirmRedeploy ==> m.pending.Some?)
  }

  lemma StepKeepsInv(ctx: Context, m: Modal, ev: Event)
    requires Inv(m)
    ensures Inv(Step(ctx, m, ev).modal)
    ensures Inv(StepCorrected(ctx, m, ev).modal)
  {
  }

  lemma InitialInv()
    ensures Inv(Initial)
  {
  }

  /** The confirmation's Yes button always starts a redeploy of the pending
      deployment, under its app id. */
  lemma ConfirmStartsRedeploy(ctx: Context, m: Modal)
    requires Inv(m) && Possible(m, RedeployConfirmed)
    ensures var o := Step(ctx, m, RedeployConfirmed);
      && o.call == StartDeploy(m.pending.value.chain, true, m.pending.value.appId)
      && o.modal.state.status == Deploying
  {
  }

  /** The dialog after a run of events, with the watcher as written or
      corrected. */
  function Run(ctx: Context, m: Modal, evs: seq<Event>, corrected: bool): (r: Modal)
    requires Inv(m)
    ensures Inv(r)
    ensures |evs| == 0 ==> r == m
    decreases |evs|
  {
    if |evs| == 0 then m
    else
      StepKeepsInv(ctx, m, evs[0]);
      var next := if corrected then StepCorrected(ctx, m, evs[0]) else Step(ctx, m, evs[0]);
      Run(ctx, next.modal, evs[1..], corrected)
  }

  /** Only a poll reporting success shows success or fills the bar: through
      any run without one, a bar at 90% or less stays there, and a dialog
      not showing success does not start to, with either watcher. */
  lemma {:induction false} NoSuccessWithoutPoll(ctx: Context, m: Modal, evs: seq<Event>, corrected: bool)
    requires Inv(m) && m.state.progress <= 90 && m.state.status != Success
    requires forall k | 0 <= k < |evs| :: !(evs[k].PollUpdate? && evs[k].status == Succeeded)
    ensures Run(ctx, m, evs, corrected).state.progress <= 90
    ensures Run(ctx, m, evs, corrected).state.status != Success
    decreases |evs|
  {
    if |evs| > 0 {
      var next := if corrected then StepCorrected(ctx, m, evs[0]).modal else Step(ctx, m, evs[0]).modal;
      StepKeepsInv(ctx, m, evs[0]);
      StepWithoutPollSuccess(ctx, m, evs[0]);
      assert forall k | 0 <= k < |evs[1..]| :: evs[1..][k] == evs[k + 1];
      NoSuccessWithoutPoll(ctx, next, evs[1..], corrected);
    }
  }

  /** One step of `NoSuccessWithoutPoll`: an event other than a successful
      poll neither fills the bar past 90% nor shows success. */
  lemma StepWithoutPollSuccess(ctx: Context, m: Modal, ev: Event)
    requires Inv(m) && m.state.progress <= 90 && m.state.status != Success
    requires !(ev.PollUpdate? && ev.status == Succeeded)
    ensures Step(ctx, m, ev).modal.state.progress <= 90
    ensures Step(ctx, m, ev).modal.state.status != Success
    ensures StepCorrected(ctx, m, ev).modal.state.progress <= 90
    ensures StepCorrected(ctx, m, ev).modal.state.status != Success
  {
  }

  /** The close request is refused for as long as the dialog is deploying:
      any number of them leaves it as it was, with either watcher. */
  lemma {:induction false} CloseRefusedWhileDeploying(ctx: Context, m: Modal, n: nat, corrected: bool)
    requires Inv(m) && m.state.status == Deploying
    ensures Run(ctx, m, seq(n, _ => ClosePressed), corrected) == m
  {
    if n > 0 {
      var evs := seq(n, _ => ClosePressed);
      assert evs[1..] == seq(n - 1, _ => ClosePressed);
      CloseRefusedWhileDeploying(ctx, m, n - 1, corrected);
    }
  }

  /** The status the watcher reads is never `Authorizing` when the Deploy
      button is pressed only while idle. */
  lemma SeenStatusNeverAuthorizing(ctx: Context, m: Modal, ev: Event)
    requires m.seenStatus != Authorizing && Possible(m, ev)
    ensures Step(ctx, m, ev).modal.seenStatus != Authorizing
  {
  }

  /** As written: the watcher's tick never changes what the dialog shows. */
  lemma TickNeverShowsClosedWindow(ctx: Context, m: Modal)
    requires m.seenStatus != Authorizing
    ensures Step(ctx, m, PopupClosedTick).modal.state == m.state
  {
  }

  /** As written: press Deploy in an idle dialog and close the popup. The
      dialog keeps authorizing at 10% with its watcher stopped, and the
      error for a closed window never shows. */
  lemma ClosedPopupLeavesAuthorizing(ctx: Context, m: Modal)
    requires m.state.status == Idle
    ensures var m1 := Step(ctx, m, DeployPressed(Opened)).modal;
      var m2 := Step(ctx, m1, PopupClosedTick).modal;
      m2.state == Plain(Authorizing, 10) && !m2.watching
  {
  }

  /** Corrected: the same run shows the closed-window error. */
  lemma ClosedPopupShowsError(ctx: Context, m: Modal)
    requires m.state.status == Idle
    ensures var m1 := StepCorrected(ctx, m, DeployPressed(Opened)).modal;
      var m2 := StepCorrected(ctx, m1, PopupClosedTick).modal;
      m2.state == Failed(AuthWindowClosed) && !m2.watching
  {
  }

  /** A typical first deployment: a trusted success message, an app that
      does not exist yet, a started deployment, one pending and one
      successful poll. */
  lemma FirstDeployment(ctx: Context, origin: string, token: string, app: DeployResponse, url: string)
    requires Contains(origin, TrustedHost) && token != ""
    ensures var chain := Chain(token, FormatAppName(FirstName(ctx.name)), ctx.fileContent);
      var o1 := Step(ctx, Initial, Message(origin, Some(MessageData("OAUTH_SUCCESS", Some(token), None))));
      var o2 := Step(ctx, o1.modal, AppChecked(chain, Ok(AppCheck(false, None))));
      var o3 := Step(ctx, o2.modal, Started(chain, Ok(app)));
      var o4 := Step(ctx, o3.modal, PollUpdate(Pending, None));
      var o5 := Step(ctx, o4.modal, PollUpdate(Succeeded, Some(url)));
      && o1.call == CheckApp(chain)
      && o2.call == StartDeploy(chain, false, None)
      && o3.call == PollStatus(token, app.appId, app.buildId)
      && o4.modal.state.progress == 50
      && o5.modal.state == DeploymentState(Success, Some(url), None, 100)
  {
  }
}

=== FILE: deployment_service.dfy ===
/** lib/deployment-service.ts: the retry loop shared by `startDeployment`
    and `checkDeploymentStatus`, the single attempt of `checkAppExists`, and
    the polling of `pollDeploymentStatus`.

    The network is not modelled: each attempt's response is given in a
    sequence of abstract outcomes, the waits are recorded as numbers of
    milliseconds instead of being slept, and a poll run is a sequence of
    check results. */
module DeploymentService {
  import opened Wrappers
  import opened Text

  /** `DEPLOYMENT_CONFIG.POLLING_INTERVAL`, in milliseconds. */
  const PollingInterval := 5000

  /** The default `retryCount` of both retrying calls. */
  const DefaultRetryCount := 3

  /** What one `fetch` gives: it throws (a `TypeError`), answers with a
      status that is not OK, answers OK with a body that is not JSON (a
      `SyntaxError`), or answers OK with a response. */
  datatype Response<T> =
    | NetworkFailure(message: string)
    | NotOk(statusText: string, body: string)
    | BadJson(message: string)
    | Good(value: T)

  /** What an attempt throws, with its message: a `TypeError`, a
      `DeploymentError`, or any other error. */
  datatype Failure = NetworkError(message: string) | DeploymentError(message: string) | OtherError(message: string)

  datatype Attempt<T> = Ok(value: T) | Fail(failure: Failure)

  /** One attempt of `startDeployment`. */
  function DeployAttempt<T>(r: Response<T>): (a: Attempt<T>)
    ensures a.Ok? <==> r.Good?
    ensures r.NotOk? ==> a == Fail(DeploymentError("Deployment failed: " + r.statusText + ". " + r.body))
    ensures r.NetworkFailure? ==> a == Fail(NetworkError(r.message))
    ensures r.BadJson? ==> a == Fail(OtherError(r.message))
  {
    match r
    case NetworkFailure(m) => Fail(NetworkError(m))
    case NotOk(statusText, body) => Fail(DeploymentError("Deployment failed: " + statusText + ". " + body))
    case BadJson(m) => Fail(OtherError(m))
    case Good(v) => Ok(v)
  }

  /** One attempt of `checkDeploymentStatus`. */
  function StatusAttempt<T>(r: Response<T>): (a: Attempt<T>)
    ensures a.Ok? <==> r.Good?
    ensures r.NotOk? ==> a == Fail(DeploymentError("Failed to check deployment status: " + r.statusText))
    ensures r.NetworkFailure? ==> a == Fail(NetworkError(r.message))
    ensures r.BadJson? ==> a == Fail(OtherError(r.message))
  {
    match r
    case NetworkFailure(m) => Fail(NetworkError(m))
    case NotOk(statusText, _) => Fail(DeploymentError("Failed to check deployment status: " + statusText))
    case BadJson(m) => Fail(OtherError(m))
    case Good(v) => Ok(v)
  }

  /** The retry condition: a `TypeError`, or a `DeploymentError` whose
      message contains the character '5' anywhere. */
  predicate Retryable(f: Failure) {
    f.NetworkError? || (f.DeploymentError? && '5' in f.message)
  }

  /** The wait before attempt `k + 2`, after attempt `k + 1` failed:
      `1000 * (i + 1)` with `i == k`, linear in the attempt number. */
  function Backoff(k: nat): nat {
    1000 * (k + 1)
  }

  /** What a retrying call did: its result (the response, or what it
      throws), how many attempts it made, and the waits between them. */
  datatype Run<T> = Run(result: Attempt<T>, attempts: nat, waits: seq<nat>)

  /** The message thrown when no attempt is made at all. */
  const ExhaustedStart := "Failed to start deployment after retries"
  const ExhaustedStatus := "Failed to check deployment status after retries"

  /** The loop `for (let i = 0; i < retryCount; i++)` from attempt `i` on:
      a success returns at once; a failure is retried, after the back-off,
      while attempts remain and it is retryable, and thrown otherwise. */
  function RetryFrom<T>(outcomes: seq<Attempt<T>>, retryCount: int, i: nat): (run: Run<T>)
    requires 0 < retryCount <= |outcomes| && i < retryCount
    ensures i < run.attempts <= retryCount
    ensures run.result == outcomes[run.attempts - 1]
    ensures forall k | i <= k < run.attempts - 1 :: outcomes[k].Fail? && Retryable(outcomes[k].failure)
    ensures run.result.Fail? && run.attempts < retryCount ==> !Retryable(run.result.failure)
    ensures |run.waits| == run.attempts - 1 - i
    ensures forall k | 0 <= k < |run.waits| :: run.waits[k] == Backoff(i + k)
    decreases retryCount - i
  {
    match outcomes[i]
    case Ok(_) => Run(outcomes[i], i + 1, [])
    case Fail(f) =>
      if i < retryCount - 1 && Retryable(f) then
        var rest := RetryFrom(outcomes, retryCount, i + 1);
        Run(rest.result, rest.attempts, [Backoff(i)] + rest.waits)
      else Run(outcomes[i], i + 1, [])
  }

  /** `startDeployment` / `checkDeploymentStatus` with a given `retryCount`.
      With no attempt allowed, the fallback error is thrown. */
  function Retry<T>(outcomes: seq<Attempt<T>>, retryCount: int, exhausted: string): (run: Run<T>)
    requires retryCount <= |outcomes|
    ensures retryCount <= 0 ==> run == Run(Fail(DeploymentError(exhausted)), 0, [])
    ensures retryCount > 0 ==>
      && 1 <= run.attempts <= retryCount
      && run.result == outcomes[run.attempts - 1]
      && (forall k | 0 <= k < run.attempts - 1 :: outcomes[k].Fail? && Retryable(outcomes[k].failure))
      && (run.result.Fail? && run.attempts < retryCount ==> !Retryable(run.result.failure))
      && |run.waits| == run.attempts - 1
      && (forall k | 0 <= k < |run.waits| :: run.waits[k] == Backoff(k))
  {
    if retryCount <= 0 then Run(Fail(DeploymentError(exhausted)), 0, [])
    else RetryFrom(outcomes, retryCount, 0)
  }

  /** The loop itself, attempt by attempt, agrees with `Retry`. */
  method RetryLoop<T>(outcomes: seq<Attempt<T>>, retryCount: int, exhausted: string)
    returns (result: Attempt<T>, attempts: nat, waits: seq<nat>)
    requires retryCount <= |outcomes|
    ensures Run(result, attempts, waits) == Retry(outcomes, retryCount, exhausted)
  {
    attempts := 0;
    waits := [];
    var i := 0;
    while i < retryCount
      invariant 0 <= i <= if retryCount < 0 then 0 else retryCount
      invariant attempts == i && |waits| == i
      invariant forall k | 0 <= k < i :: waits[k] == Backoff(k)
      invariant forall k | 0 <= k < i :: outcomes[k].Fail? && Retryable(outcomes[k].failure)
      invariant i > 0 ==> i < retryCount
      decreases retryCount - i
    {
      attempts := i + 1;
      match outcomes[i]
      case Ok(_) =>
        result := outcomes[i];
        RetryAgrees(outcomes, retryCount, i, exhausted);
        return;
      case Fail(f) =>
        if i < retryCount - 1 && Retryable(f) {
          waits := waits + [Backoff(i)];
          i := i + 1;
        } else {
          result := outcomes[i];
          RetryAgrees(outcomes, retryCount, i, exhausted);
          return;
        }
    }
    result := Fail(DeploymentError(exhausted));
  }

  /** When the first `i` attempts were retried, the run is decided by the
      attempt at `i`. */
  lemma {:induction false} RetryAgrees<T>(outcomes: seq<Attempt<T>>, retryCount: int, i: nat, exhausted: string)
    requires 0 <= i < retryCount <= |outcomes|
    requires forall k | 0 <= k < i :: outcomes[k].Fail? && Retryable(outcomes[k].failure)
    requires outcomes[i].Ok? || i == retryCount - 1 || !Retryable(outcomes[i].failure)
    ensures Retry(outcomes, retryCount, exhausted).attempts == i + 1
  {
    var run := Retry(outcomes, retryCount, exhausted);
    assert run.result == outcomes[run.attempts - 1];
  }

  /** The first success is returned with no further attempt. */
  lemma FirstSuccessReturned<T>(outcomes: seq<Attempt<T>>, retryCount: int, exhausted: string, i: nat)
    requires 0 <= i < retryCount <= |outcomes|
    requires outcomes[i].Ok?
    requires forall k | 0 <= k < i :: outcomes[k].Fail? && Retryable(outcomes[k].failure)
    ensures Retry(outcomes, retryCount, exhausted) == Run(outcomes[i], i + 1, seq(i, k requires 0 <= k < i => Backoff(k)))
  {
    RetryAgrees(outcomes, retryCount, i, exhausted);
  }

  /** With the default three attempts, three retryable failures make three
      attempts with waits of one and then two seconds, and the third failure
      is thrown. */
  lemma ThreeFailures<T>(outcomes: seq<Attempt<T>>, exhausted: string)
    requires |outcomes| >= DefaultRetryCount
    requires forall k | 0 <= k < 3 :: outcomes[k].Fail? && Retryable(outcomes[k].failure)
    ensures Retry(outcomes, DefaultRetryCount, exhausted) == Run(outcomes[2], 3, [1000, 2000])
  {
    RetryAgrees(outcomes, DefaultRetryCount, 2, exhausted);
  }

  /** The retry test is on the message text, not on the status code: a
      status check is retried exactly when the status text contains '5',
      so `Service Unavailable` is not retried and `Error 415` is. */
  lemma StatusRetryOnDigit<T>(statusText: string)
    ensures Retryable(StatusAttempt(Response<T>.NotOk(statusText, "")).failure) <==> '5' in statusText
  {
    var prefix := "Failed to check deployment status: ";
    assert '5' !in prefix;
    assert forall c :: c in prefix + statusText <==> c in prefix || c in statusText;
  }

  /** A deployment's failure is retried when either the status text or the
      response body contains '5'. */
  lemma DeployRetryOnDigit<T>(statusText: string, body: string)
    ensures Retryable(DeployAttempt(Response<T>.NotOk(statusText, body)).failure) <==> '5' in statusText || '5' in body
  {
    var prefix := "Deployment failed: ";
    assert '5' !in prefix && '5' !in ". ";
    var m := prefix + statusText + ". " + body;
    assert forall c :: c in m <==> c in prefix || c in statusText || c in ". " || c in body;
  }

  /** What `checkAppExists` gives: the parsed response, or a
      `DeploymentError`. */
  datatype AppCheck = AppCheck(exists_: bool, appId: Option<string>)

  /** `checkAppExists`: one attempt, never retried. A status that is not OK
      throws a `DeploymentError` naming the status text; any other failure
      becomes the generic `DeploymentError`. */
  function CheckAppExists(r: Response<AppCheck>): (a: Attempt<AppCheck>)
    ensures a.Ok? <==> r.Good?
    ensures a.Ok? ==> a.value == r.value
    ensures r.NotOk? ==> a == Fail(DeploymentError("Failed to check app existence: " + r.statusText))
    ensures (r.NetworkFailure? || r.BadJson?) ==> a == Fail(DeploymentError("Failed to check app existence"))
    ensures a.Fail? ==> a.failure.DeploymentError?
  {
    match r
    case Good(v) => Ok(v)
    case NotOk(statusText, _) => Fail(DeploymentError("Failed to check app existence: " + statusText))
    case _ => Fail(DeploymentError("Failed to check app existence"))
  }

  /** `deployment_status`. */
  datatype DeployStatus = Pending | Succeeded | Failed

  /** What one poll's status check gave: a status, or an error (after its
      own retries). */
  datatype Check = Status(status: DeployStatus) | CheckError

  /** What a poll run did: the statuses handed to `onStatusUpdate`, in
      order, whether `onError` was called, and how many checks were made.
      `stillPolling` says the given checks ran out while the status was
      still pending; `waited` is the time spent in the waits between
      checks, in milliseconds. */
  datatype PollRun = PollRun(updates: seq<DeployStatus>, errored: bool, checks: nat, stillPolling: bool, waited: nat)

  /** `pollDeploymentStatus` over the results of its successive checks:
      each status is reported, a pending one schedules the next check after
      `PollingInterval`, anything else stops; an error is reported once and
      stops. */
  function Poll(results: seq<Check>): (run: PollRun)
    ensures run.checks <= |results|
    ensures run.stillPolling <==> run.checks == |results| && forall k | 0 <= k < |results| :: results[k] == Status(Pending)
    ensures forall k | 0 <= k < run.checks - 1 :: results[k] == Status(Pending)
    ensures !run.stillPolling ==> run.checks >= 1 && results[run.checks - 1] != Status(Pending)
    ensures run.errored <==> !run.stillPolling && results[run.checks - 1] == CheckError
    ensures |run.updates| == (if run.errored then run.checks - 1 else run.checks)
    ensures forall k | 0 <= k < |run.updates| :: results[k] == Status(run.updates[k])
    ensures run.waited == PollingInterval * (if run.stillPolling then run.checks else run.checks - 1)
  {
    if |results| == 0 then PollRun([], false, 0, true, 0)
    else
      match results[0]
      case CheckError => PollRun([], true, 1, false, 0)
      case Status(s) =>
        if s != Pending then PollRun([s], false, 1, false, 0)
        else
          var rest := Poll(results[1..]);
          assert forall k | 1 <= k < |results| :: results[k] == results[1..][k - 1];
          PollRun([s] + rest.updates, rest.errored, rest.checks + 1, rest.stillPolling, rest.waited + PollingInterval)
  }

  /** The number of checks is one more than the position of the first
      result that is not pending, and the run stops there. */
  lemma PollStopsAtFirstSettled(results: seq<Check>, i: nat)
    requires i < |results| && results[i] != Status(Pending)
    requires forall k | 0 <= k < i :: results[k] == Status(Pending)
    ensures Poll(results).checks == i + 1 && !Poll(results).stillPolling
    ensures Poll(results).errored <==> results[i] == CheckError
  {
    var run := Poll(results);
    assert !run.stillPolling;
    assert results[run.checks - 1] != Status(Pending);
  }
}

=== FILE: education_editor.dfy ===
/** components/education-editor.tsx: the education validator, saving and
    deleting entries, the display order of the cards, and the index the
    card buttons hand to the save and delete handlers. */
module EducationEditor {
  import opened Wrappers
  import opened Text
  import opened Seqs
  import opened Portfolio
  import opened Forms
  import opened Timeline
  import EducationForm

  const MaxEducation := 5

  /** What `validateEducation` accepts, field by field. */
  predicate Acceptable(e: Education) {
    && !IsBlank(e.degree) && |e.degree| >= 5
    && !IsBlank(e.institution) && |e.institution| >= 2
    && !IsBlank(e.location) && |e.location| >= 2
    && IsFourDigits(e.startYear)
    && (e.isOngoing || e.endYear != "")
    && (e.endYear == "" || IsFourDigits(e.endYear))
    && !IsBlank(e.description) && |e.description| >= 20
  }

  /** The rules of `validateEducation`, in the order it checks them. */
  datatype Rule =
    | DegreeRequired | DegreeTooShort | InstitutionRequired | InstitutionTooShort
    | LocationRequired | LocationTooShort | StartYearRequired | StartYearFormat
    | EndYearRequired | EndYearFormat | DescriptionRequired | DescriptionTooShort

  /** The message each rule shows. */
  function Message(rule: Rule): string {
    match rule
    case DegreeRequired => "Degree is required"
    case DegreeTooShort => "Degree must be at least 5 characters"
    case InstitutionRequired => "Institution is required"
    case InstitutionTooShort => "Institution must be at least 2 characters"
    case LocationRequired => "Location is required"
    case LocationTooShort => "Location must be at least 2 characters"
    case StartYearRequired => "Start year is required"
    case StartYearFormat => "Start year must be a 4-digit number"
    case EndYearRequired => "End year is required when not ongoing"
    case EndYearFormat => "End year must be a 4-digit number"
    case DescriptionRequired => "Description is required"
    case DescriptionTooShort => "Description must be at least 20 characters"
  }

  predicate DegreeOk(e: Education) {
    !IsBlank(e.degree) && |e.degree| >= 5
  }

  predicate InstitutionOk(e: Education) {
    !IsBlank(e.institution) && |e.institution| >= 2
  }

  /** The degree, institution and location rules hold. */
  predicate TextOk(e: Education) {
    DegreeOk(e) && InstitutionOk(e) && !IsBlank(e.location) && |e.location| >= 2
  }

  /** The start and end year rules hold. */
  predicate YearsOk(e: Education) {
    IsFourDigits(e.startYear) && (e.isOngoing || e.endYear != "") && (e.endYear == "" || IsFourDigits(e.endYear))
  }

  /** The first rule an entry breaks: each is reported exactly when every
      rule before it holds and it does not. */
  function FirstBroken(e: Education): (r: Option<Rule>)
    ensures r.None? <==> Acceptable(e)
    ensures r == Some(DegreeRequired) <==> IsBlank(e.degree)
    ensures r == Some(DegreeTooShort) <==> !IsBlank(e.degree) && |e.degree| < 5
    ensures r == Some(InstitutionRequired) <==> DegreeOk(e) && IsBlank(e.institution)
    ensures r == Some(InstitutionTooShort) <==> DegreeOk(e) && !IsBlank(e.institution) && |e.institution| < 2
    ensures r == Some(LocationRequired) <==> DegreeOk(e) && InstitutionOk(e) && IsBlank(e.location)
    ensures r == Some(LocationTooShort) <==>
      DegreeOk(e) && InstitutionOk(e) && !IsBlank(e.location) && |e.location| < 2
    ensures r == Some(StartYearRequired) <==> TextOk(e) && e.startYear == ""
    ensures r == Some(StartYearFormat) <==> TextOk(e) && e.startYear != "" && !IsFourDigits(e.startYear)
    ensures r == Some(EndYearRequired) <==> TextOk(e) && IsFourDigits(e.startYear) && !e.isOngoing && e.endYear == ""
    ensures r == Some(EndYearFormat) <==>
      TextOk(e) && IsFourDigits(e.startYear) && e.endYear != "" && !IsFourDigits(e.endYear)
    ensures r == Some(DescriptionRequired) <==> TextOk(e) && YearsOk(e) && IsBlank(e.description)
    ensures r == Some(DescriptionTooShort) <==>
      TextOk(e) && YearsOk(e) && !IsBlank(e.description) && |e.description| < 20
  {
    if IsBlank(e.degree) then Some(DegreeRequired)
    else if |e.degree| < 5 then Some(DegreeTooShort)
    else if IsBlank(e.institution) then Some(InstitutionRequired)
    else if |e.institution| < 2 then Some(InstitutionTooShort)
    else if IsBlank(e.location) then Some(LocationRequired)
    else if |e.location| < 2 then Some(LocationTooShort)
    else if e.startYear == "" then Some(StartYearRequired)
    else if !IsFourDigits(e.startYear) then Some(StartYearFormat)
    else if !e.isOngoing && e.endYear == "" then Some(EndYearRequired)
    else if e.endYear != "" && !IsFourDigits(e.endYear) then Some(EndYearFormat)
    else if IsBlank(e.description) then Some(DescriptionRequired)
    else if |e.description| < 20 then Some(DescriptionTooShort)
    else None
  }

  /** `validateEducation`: the message of the first rule broken. */
  function ValidateEducation(e: Education): (r: Option<string>)
    ensures r.None? <==> Acceptable(e)
    ensures r.Some? ==> r.value == Message(FirstBroken(e).value)
  {
    match FirstBroken(e)
    case None => None
    case Some(rule) => Some(Message(rule))
  }

  /** When the form enables its save button and the text fields are not
      blank, the editor accepts the entry. The form tests emptiness where the
      editor tests blankness, so a degree of five spaces passes the form and
      is refused here. */
  lemma EnabledFormIsAccepted(e: Education, currentYear: int)
    requires !EducationForm.SaveDisabled(e, currentYear)
    requires !IsBlank(e.degree) && !IsBlank(e.institution) && !IsBlank(e.location) && !IsBlank(e.description)
    ensures ValidateEducation(e).None?
  {
  }

  /** `handleSaveEducation`. */
  function HandleSave(items: seq<Education>, editingIndex: Option<nat>, e: Education): (r: SaveResult<Education>)
    requires editingIndex.Some? ==> editingIndex.value < |items|
    ensures r.Saved? <==> Acceptable(e)
    ensures r.Rejected? ==> ValidateEducation(e) == Some(r.message)
    ensures r.Saved? && editingIndex.None? ==> r.items == items + [e]
    ensures r.Saved? && editingIndex.Some? ==>
      |r.items| == |items| && r.items[editingIndex.value] == e
      && forall k | 0 <= k < |items| && k != editingIndex.value :: r.items[k] == items[k]
  {
    Save(ValidateEducation(e), items, editingIndex, e)
  }

  /** The add button is disabled at five entries, and editing keeps the
      count, so saving never takes the list past five. */
  lemma SaveWithinMaximum(items: seq<Education>, editingIndex: Option<nat>, e: Education)
    requires editingIndex.Some? ==> editingIndex.value < |items|
    requires |items| <= MaxEducation
    requires editingIndex.None? ==> CanAdd(items, MaxEducation)
    ensures HandleSave(items, editingIndex, e).Saved? ==> |HandleSave(items, editingIndex, e).items| <= MaxEducation
  {
  }

  /** Every stored entry has a start year that reads as a number; the
      comparator's order is only consistent then. */
  predicate NumericStartYears(items: seq<Education>) {
    forall k | 0 <= k < |items| :: Text.JsNumber(items[k].startYear).Some?
  }

  /** The comparator's view of one entry. */
  function KeyOf(e: Education): SortKey {
    SortKey(e.isOngoing, JsNumber(e.startYear).GetOr(0))
  }

  /** `sortEducationsByStartYear(experiences)`: the cards as displayed. */
  function Displayed(items: seq<Education>): (view: seq<Education>)
    requires NumericStartYears(items)
    ensures multiset(view) == multiset(items)
    ensures forall i, j | 0 <= i < j < |view| :: !Before(KeyOf(view[j]), KeyOf(view[i]))
  {
    SortedViewPermutes(items, KeyOf);
    SortedView(items, KeyOf)
  }

  /** In display order, ongoing entries come first, and within each group
      the start years do not increase. */
  lemma DisplayedOrder(items: seq<Education>, i: nat, j: nat)
    requires NumericStartYears(items) && i < j < |items|
    ensures var view := Displayed(items);
      && (view[j].isOngoing ==> view[i].isOngoing)
      && (view[i].isOngoing == view[j].isOngoing ==>
            JsNumber(view[i].startYear).value >= JsNumber(view[j].startYear).value)
  {
    var view := Displayed(items);
    assert view[i] in multiset(items) && view[j] in multiset(items);
    assert !Before(KeyOf(view[j]), KeyOf(view[i]));
  }

  /** The stored position of the card displayed at `viewIndex`. */
  function StoredIndex(items: seq<Education>, viewIndex: nat): (i: nat)
    requires NumericStartYears(items) && viewIndex < |items|
    ensures i < |items| && items[i] == Displayed(items)[viewIndex]
  {
    StoredPos(items, KeyOf, viewIndex)
  }

  /** As written: the delete button of the card displayed at `viewIndex`
      sets `deleteIndex` to `viewIndex`, and `handleDeleteEducation` removes
      the stored entry at that position. */
  function DeleteFromView(items: seq<Education>, viewIndex: nat): (r: seq<Education>)
    requires viewIndex < |items|
    ensures multiset(r) + multiset{items[viewIndex]} == multiset(items)
  {
    RemoveAt(items, viewIndex)
  }

  /** As written: the edit button of the card displayed at `viewIndex` sets
      `editingIndex` to `viewIndex`, and the save writes the stored position. */
  function EditFromView(items: seq<Education>, viewIndex: nat, e: Education): (r: SaveResult<Education>)
    requires viewIndex < |items|
    ensures r.Saved? ==> r.items == items[viewIndex := e]
  {
    HandleSave(items, Some(viewIndex), e)
  }

  /** Two entries stored in the wrong display order: `a` first, though `b`
      is displayed first. */
  predicate StoredOutOfOrder(a: Education, b: Education) {
    && JsNumber(a.startYear).Some? && JsNumber(b.startYear).Some?
    && Before(KeyOf(b), KeyOf(a))
  }

  /** The newer entry is displayed first. */
  lemma OutOfOrderSwapped(a: Education, b: Education)
    requires StoredOutOfOrder(a, b)
    ensures NumericStartYears([a, b])
    ensures StoredIndex([a, b], 0) == 1 && StoredIndex([a, b], 1) == 0
  {
    var pair := [a, b];
    forall k | 0 <= k < |pair| ensures JsNumber(pair[k].startYear).Some? {
      if k == 0 {
        assert pair[k] == a;
      } else {
        assert pair[k] == b;
      }
    }
    SwappedPair(pair, KeyOf);
  }

  /** Corrected: delete the stored entry that the card displays. */
  function DeleteDisplayed(items: seq<Education>, viewIndex: nat): (r: seq<Education>)
    requires NumericStartYears(items) && viewIndex < |items|
    ensures |r| == |items| - 1
    ensures multiset(r) + multiset{Displayed(items)[viewIndex]} == multiset(items)
  {
    RemoveAt(items, StoredIndex(items, viewIndex))
  }

  /** Corrected: save over the stored entry that the card displays. */
  function EditDisplayed(items: seq<Education>, viewIndex: nat, e: Education): (r: SaveResult<Education>)
    requires NumericStartYears(items) && viewIndex < |items|
    ensures r.Saved? <==> Acceptable(e)
    ensures r.Saved? ==>
      |r.items| == |items|
      && multiset(r.items) + multiset{Displayed(items)[viewIndex]} == multiset(items) + multiset{e}
  {
    var i := StoredIndex(items, viewIndex);
    ReplaceMultiset(items, i, e);
    HandleSave(items, Some(i), e)
  }

  /** For any two entries stored oldest first (two finished degrees from 2015
      and 2019, say), the first card shows the second entry, yet its delete
      button as written removes the first entry and its edit button
      overwrites the first entry; the corrected handlers act on the entry
      shown. */
  lemma DisplayIndexHitsWrongEntry(a: Education, b: Education, e: Education)
    requires StoredOutOfOrder(a, b)
    ensures NumericStartYears([a, b])
    ensures Displayed([a, b])[0] == b
    ensures DeleteFromView([a, b], 0) == [b]
    ensures DeleteDisplayed([a, b], 0) == [a]
    ensures Acceptable(e) ==> EditFromView([a, b], 0, e) == Saved([e, b])
    ensures Acceptable(e) ==> EditDisplayed([a, b], 0, e) == Saved([a, e])
  {
    OutOfOrderSwapped(a, b);
    DeletesOfPair(a, b);
    if Acceptable(e) {
      EditsOfPair(a, b, e);
    }
  }

  lemma DeletesOfPair(a: Education, b: Education)
    requires StoredOutOfOrder(a, b)
    ensures NumericStartYears([a, b])
    ensures DeleteFromView([a, b], 0) == [b]
    ensures DeleteDisplayed([a, b], 0) == [a]
  {
    OutOfOrderSwapped(a, b);
    RemoveFromPair(a, b);
  }

  lemma EditsOfPair(a: Education, b: Education, e: Education)
    requires StoredOutOfOrder(a, b) && Acceptable(e)
    ensures NumericStartYears([a, b])
    ensures EditFromView([a, b], 0, e) == Saved([e, b])
    ensures EditDisplayed([a, b], 0, e) == Saved([a, e])
  {
    OutOfOrderSwapped(a, b);
    ReplaceInPair(a, b, e);
  }

  /** When the stored list is already in display order, the buttons as
      written act on the card they sit on. */
  lemma SortedListHasNoMismatch(items: seq<Education>, viewIndex: nat)
    requires NumericStartYears(items) && viewIndex < |items|
    requires forall i, j | 0 <= i < j < |items| :: !Before(KeyOf(items[j]), KeyOf(items[i]))
    ensures StoredIndex(items, viewIndex) == viewIndex
    ensures DeleteFromView(items, viewIndex) == DeleteDisplayed(items, viewIndex)
  {
    SortedListStaysPut(items, KeyOf);
  }
}

=== FILE: education_form.dfy ===
/** components/education-form.tsx: the "currently studying here" switch and
    the condition that disables the save button. Its `validateYear` is a copy
    of the experience form's, modelled once as `ExperienceForm.ValidateYear`.

    The clock is a parameter: `currentYear` stands for `new Date().getFullYear()`. */
module EducationForm {
  import opened Portfolio
  import opened ExperienceForm

  const DegreeMinLength := 5
  const InstitutionMinLength := 2
  const LocationMinLength := 2
  const DescriptionMinLength := 20

  /** The "currently studying here" switch: switching on clears the end
      year, switching off keeps it. Nothing else changes. */
  function SetOngoing(education: Education, checked: bool): (r: Education)
    ensures r.isOngoing == checked
    ensures checked ==> r.endYear == ""
    ensures !checked ==> r.endYear == education.endYear
    ensures r.(isOngoing := education.isOngoing, endYear := education.endYear) == education
  {
    education.(isOngoing := checked, endYear := if checked then "" else education.endYear)
  }

  /** The save button's `disabled` condition. */
  predicate SaveDisabled(e: Education, currentYear: int) {
    || e.degree == "" || e.institution == "" || e.location == "" || e.startYear == ""
    || (e.endYear == "" && !e.isOngoing)
    || e.description == ""
    || |e.degree| < DegreeMinLength
    || |e.institution| < InstitutionMinLength
    || |e.location| < LocationMinLength
    || |e.description| < DescriptionMinLength
    || ValidateYear(e.startYear, StartYear, "", currentYear).Some?
    || (e.endYear != "" && ValidateYear(e.endYear, EndYear, e.startYear, currentYear).Some?)
  }

  /** What an enabled save button guarantees: the minimum lengths, an end
      year or the ongoing switch, and years that are four digits, in range
      and in order. */
  lemma EnabledSaveMeans(e: Education, currentYear: int)
    requires !SaveDisabled(e, currentYear)
    ensures |e.degree| >= DegreeMinLength && |e.institution| >= InstitutionMinLength
    ensures |e.location| >= LocationMinLength && |e.description| >= DescriptionMinLength
    ensures e.isOngoing || e.endYear != ""
    ensures Text.IsFourDigits(e.startYear) && 1900 <= Text.DigitsValue(e.startYear) <= currentYear + 10
    ensures e.endYear != "" ==>
      Text.IsFourDigits(e.endYear) && Text.DigitsValue(e.startYear) <= Text.DigitsValue(e.endYear) <= currentYear + 10
  {
    if e.endYear != "" {
      YearsInOrder(e.startYear, e.endYear, currentYear);
    }
  }

  /** Switching "currently studying here" on never leaves the save button
      disabled because of the end year. */
  lemma OngoingSatisfiesEndYear(e: Education, currentYear: int)
    ensures var r := SetOngoing(e, true);
      !(r.endYear == "" && !r.isOngoing)
      && !(r.endYear != "" && ValidateYear(r.endYear, EndYear, r.startYear, currentYear).Some?)
  {
  }
}

=== FILE: experience_editor.dfy ===
/** components/experience-editor.tsx: the experience validator, saving and
    deleting entries, the display order of the cards, and the index the
    card buttons hand to the save and delete handlers. */
module ExperienceEditor {
  import opened Wrappers
  import opened Text
  import opened Seqs
  import opened Portfolio
  import opened Forms
  import opened Timeline
  import ExperienceForm

  const MaxExperiences := 10

  /** What `validateExperience` accepts, field by field. */
  predicate Acceptable(e: Experience) {
    && !IsBlank(e.title) && |e.title| >= 5
    && !IsBlank(e.company) && |e.company| >= 2
    && !IsBlank(e.location) && |e.location| >= 2
    && IsFourDigits(e.startYear)
    && (e.isOngoing || e.endYear != "")
    && (e.endYear == "" || IsFourDigits(e.endYear))
    && |e.description| > 0
  }

  /** The rules of `validateExperience`, in the order it checks them. */
  datatype Rule =
    | TitleRequired | TitleTooShort | CompanyRequired | CompanyTooShort
    | LocationRequired | LocationTooShort | StartYearRequired | StartYearFormat
    | EndYearRequired | EndYearFormat | DescriptionRequired

  /** The message each rule shows. */
  function Message(rule: Rule): string {
    match rule
    case TitleRequired => "Title is required"
    case TitleTooShort => "Title must be at least 5 characters"
    case CompanyRequired => "Company is required"
    case CompanyTooShort => "Company must be at least 2 characters"
    case LocationRequired => "Location is required"
    case LocationTooShort => "Location must be at least 2 characters"
    case StartYearRequired => "Start year is required"
    case StartYearFormat => "Start year must be a 4-digit number"
    case EndYearRequired => "End year is required when not ongoing"
    case EndYearFormat => "End year must be a 4-digit number"
    case DescriptionRequired => "At least one description item is required"
  }

  predicate TitleOk(e: Experience) {
    !IsBlank(e.title) && |e.title| >= 5
  }

  predicate CompanyOk(e: Experience) {
    !IsBlank(e.company) && |e.company| >= 2
  }

  /** The title, company and location rules hold. */
  predicate TextOk(e: Experience) {
    TitleOk(e) && CompanyOk(e) && !IsBlank(e.location) && |e.location| >= 2
  }

  /** The first rule an entry breaks: each is reported exactly when every
      rule before it holds and it does not. */
  function FirstBroken(e: Experience): (r: Option<Rule>)
    ensures r.None? <==> Acceptable(e)
    ensures r == Some(TitleRequired) <==> IsBlank(e.title)
    ensures r == Some(TitleTooShort) <==> !IsBlank(e.title) && |e.title| < 5
    ensures r == Some(CompanyRequired) <==> TitleOk(e) && IsBlank(e.company)
    ensures r == Some(CompanyTooShort) <==> TitleOk(e) && !IsBlank(e.company) && |e.company| < 2
    ensures r == Some(LocationRequired) <==> TitleOk(e) && CompanyOk(e) && IsBlank(e.location)
    ensures r == Some(LocationTooShort) <==> TitleOk(e) && CompanyOk(e) && !IsBlank(e.location) && |e.location| < 2
    ensures r == Some(StartYearRequired) <==> TextOk(e) && e.startYear == ""
    ensures r == Some(StartYearFormat) <==> TextOk(e) && e.startYear != "" && !IsFourDigits(e.startYear)
    ensures r == Some(EndYearRequired) <==> TextOk(e) && IsFourDigits(e.startYear) && !e.isOngoing && e.endYear == ""
    ensures r == Some(EndYearFormat) <==>
      TextOk(e) && IsFourDigits(e.startYear) && e.endYear != "" && !IsFourDigits(e.endYear)
    ensures r == Some(DescriptionRequired) <==>
      TextOk(e) && IsFourDigits(e.startYear) && (e.isOngoing || e.endYear != "")
      && (e.endYear == "" || IsFourDigits(e.endYear)) && |e.description| == 0
  {
    if IsBlank(e.title) then Some(TitleRequired)
    else if |e.title| < 5 then Some(TitleTooShort)
    else if IsBlank(e.company) then Some(CompanyRequired)
    else if |e.company| < 2 then Some(CompanyTooShort)
    else if IsBlank(e.location) then Some(LocationRequired)
    else if |e.location| < 2 then Some(LocationTooShort)
    else if e.startYear == "" then Some(StartYearRequired)
    else if !IsFourDigits(e.startYear) then Some(StartYearFormat)
    else if !e.isOngoing && e.endYear == "" then Some(EndYearRequired)
    else if e.endYear != "" && !IsFourDigits(e.endYear) then Some(EndYearFormat)
    else if |e.description| == 0 then Some(DescriptionRequired)
    else None
  }

  /** `validateExperience`: the message of the first rule broken. */
  function ValidateExperience(e: Experience): (r: Option<string>)
    ensures r.None? <==> Acceptable(e)
    ensures r.Some? ==> r.value == Message(FirstBroken(e).value)
  {
    match FirstBroken(e)
    case None => None
    case Some(rule) => Some(Message(rule))
  }

  /** When the form enables its save button and the text fields are not
      blank, the editor accepts the entry. The form tests emptiness where the
      editor tests blankness, so a title of five spaces passes the form and
      is refused here. */
  lemma EnabledFormIsAccepted(e: Experience, currentYear: int)
    requires !ExperienceForm.SaveDisabled(e, currentYear)
    requires !IsBlank(e.title) && !IsBlank(e.company) && !IsBlank(e.location)
    ensures ValidateExperience(e).None?
  {
  }

  /** `handleSaveExperience`. */
  function HandleSave(items: seq<Experience>, editingIndex: Option<nat>, e: Experience): (r: SaveResult<Experience>)
    requires editingIndex.Some? ==> editingIndex.value < |items|
    ensures r.Saved? <==> Acceptable(e)
    ensures r.Rejected? ==> ValidateExperience(e) == Some(r.message)
    ensures r.Saved? && editingIndex.None? ==> r.items == items + [e]
    ensures r.Saved? && editingIndex.Some? ==>
      |r.items| == |items| && r.items[editingIndex.value] == e
      && forall k | 0 <= k < |items| && k != editingIndex.value :: r.items[k] == items[k]
  {
    Save(ValidateExperience(e), items, editingIndex, e)
  }

  /** The add button is disabled at ten entries, and editing keeps the
      count, so saving never takes the list past ten. */
  lemma SaveWithinMaximum(items: seq<Experience>, editingIndex: Option<nat>, e: Experience)
    requires editingIndex.Some? ==> editingIndex.value < |items|
    requires |items| <= MaxExperiences
    requires editingIndex.None? ==> CanAdd(items, MaxExperiences)
    ensures HandleSave(items, editingIndex, e).Saved? ==> |HandleSave(items, editingIndex, e).items| <= MaxExperiences
  {
  }

  /** Every stored entry has a start year that reads as a number; the
      comparator's order is only consistent then. */
  predicate NumericStartYears(items: seq<Experience>) {
    forall k | 0 <= k < |items| :: Text.JsNumber(items[k].startYear).Some?
  }

  /** The comparator's view of one entry. */
  function KeyOf(e: Experience): SortKey {
    SortKey(e.isOngoing, JsNumber(e.startYear).GetOr(0))
  }

  /** `sortExperiencesByStartYear(experiences)`: the cards as displayed. */
  function Displayed(items: seq<Experience>): (view: seq<Experience>)
    requires NumericStartYears(items)
    ensures multiset(view) == multiset(items)
    ensures forall i, j | 0 <= i < j < |view| :: !Before(KeyOf(view[j]), KeyOf(view[i]))
  {
    SortedViewPermutes(items, KeyOf);
    SortedView(items, KeyOf)
  }

  /** In display order, ongoing entries come first, and within each group
      the start years do not increase. */
  lemma DisplayedOrder(items: seq<Experience>, i: nat, j: nat)
    requires NumericStartYears(items) && i < j < |items|
    ensures var view := Displayed(items);
      && (view[j].isOngoing ==> view[i].isOngoing)
      && (view[i].isOngoing == view[j].isOngoing ==>
            JsNumber(view[i].startYear).value >= JsNumber(view[j].startYear).value)
  {
    var view := Displayed(items);
    assert view[i] in multiset(items) && view[j] in multiset(items);
    assert !Before(KeyOf(view[j]), KeyOf(view[i]));
  }

  /** The stored position of the card displayed at `viewIndex`. */
  function StoredIndex(items: seq<Experience>, viewIndex: nat): (i: nat)
    requires NumericStartYears(items) && viewIndex < |items|
    ensures i < |items| && items[i] == Displayed(items)[viewIndex]
  {
    StoredPos(items, KeyOf, viewIndex)
  }

  /** As written: the delete button of the card displayed at `viewIndex`
      sets `deleteIndex` to `viewIndex`, and `handleDeleteExperience` removes
      the stored entry at that position. */
  function DeleteFromView(items: seq<Experience>, viewIndex: nat): (r: seq<Experience>)
    requires viewIndex < |items|
    ensures multiset(r) + multiset{items[viewIndex]} == multiset(items)
  {
    RemoveAt(items, viewIndex)
  }

  /** As written: the edit button of the card displayed at `viewIndex` sets
      `editingIndex` to `viewIndex`, and the save writes the stored position. */
  function EditFromView(items: seq<Experience>, viewIndex: nat, e: Experience): (r: SaveResult<Experience>)
    requires viewIndex < |items|
    ensures r.Saved? ==> r.items == items[viewIndex := e]
  {
    HandleSave(items, Some(viewIndex), e)
  }

  /** Two entries stored in the wrong display order: `a` first, though `b`
      is displayed first. */
  predicate StoredOutOfOrder(a: Experience, b: Experience) {
    && JsNumber(a.startYear).Some? && JsNumber(b.startYear).Some?
    && Before(KeyOf(b), KeyOf(a))
  }

  /** The newer entry is displayed first. */
  lemma OutOfOrderSwapped(a: Experience, b: Experience)
    requires StoredOutOfOrder(a, b)
    ensures NumericStartYears([a, b])
    ensures StoredIndex([a, b], 0) == 1 && StoredIndex([a, b], 1) == 0
  {
    var pair := [a, b];
    forall k | 0 <= k < |pair| ensures JsNumber(pair[k].startYear).Some? {
      if k == 0 {
        assert pair[k] == a;
      } else {
        assert pair[k] == b;
      }
    }
    SwappedPair(pair, KeyOf);
  }

  /** Corrected: delete the stored entry that the card displays. */
  function DeleteDisplayed(items: seq<Experience>, viewIndex: nat): (r: seq<Experience>)
    requires NumericStartYears(items) && viewIndex < |items|
    ensures |r| == |items| - 1
    ensures multiset(r) + multiset{Displayed(items)[viewIndex]} == multiset(items)
  {
    RemoveAt(items, StoredIndex(items, viewIndex))
  }

  /** Corrected: save over the stored entry that the card displays. */
  function EditDisplayed(items: seq<Experience>, viewIndex: nat, e: Experience): (r: SaveResult<Experience>)
    requires NumericStartYears(items) && viewIndex < |items|
    ensures r.Saved? <==> Acceptable(e)
    ensures r.Saved? ==>
      |r.items| == |items|
      && multiset(r.items) + multiset{Displayed(items)[viewIndex]} == multiset(items) + multiset{e}
  {
    var i := StoredIndex(items, viewIndex);
    ReplaceMultiset(items, i, e);
    HandleSave(items, Some(i), e)
  }

  /** For any two entries stored oldest first (two finished jobs from 2018
      and 2020, say), the first card shows the second entry, yet its delete
      button as written removes the first entry and its edit button
      overwrites the first entry; the corrected handlers act on the entry
      shown. */
  lemma DisplayIndexHitsWrongEntry(a: Experience, b: Experience, e: Experience)
    requires StoredOutOfOrder(a, b)
    ensures NumericStartYears([a, b])
    ensures Displayed([a, b])[0] == b
    ensures DeleteFromView([a, b], 0) == [b]
    ensures DeleteDisplayed([a, b], 0) == [a]
    ensures Acceptable(e) ==> EditFromView([a, b], 0, e) == Saved([e, b])
    ensures Acceptable(e) ==> EditDisplayed([a, b], 0, e) == Saved([a, e])
  {
    OutOfOrderSwapped(a, b);
    DeletesOfPair(a, b);
    if Acceptable(e) {
      EditsOfPair(a, b, e);
    }
  }

  lemma DeletesOfPair(a: Experience, b: Experience)
    requires StoredOutOfOrder(a, b)
    ensures NumericStartYears([a, b])
    ensures DeleteFromView([a, b], 0) == [b]
    ensures DeleteDisplayed([a, b], 0) == [a]
  {
    OutOfOrderSwapped(a, b);
    RemoveFromPair(a, b);
  }

  lemma EditsOfPair(a: Experience, b: Experience, e: Experience)
    requires StoredOutOfOrder(a, b) && Acceptable(e)
    ensures NumericStartYears([a, b])
    ensures EditFromView([a, b], 0, e) == Saved([e, b])
    ensures EditDisplayed([a, b], 0, e) == Saved([a, e])
  {
    OutOfOrderSwapped(a, b);
    ReplaceInPair(a, b, e);
  }

  /** When the stored list is already in display order, the buttons as
      written act on the card they sit on. */
  lemma SortedListHasNoMismatch(items: seq<Experience>, viewIndex: nat)
    requires NumericStartYears(items) && viewIndex < |items|
    requires forall i, j | 0 <= i < j < |items| :: !Before(KeyOf(items[j]), KeyOf(items[i]))
    ensures StoredIndex(items, viewIndex) == viewIndex
    ensures DeleteFromView(items, viewIndex) == DeleteDisplayed(items, viewIndex)
  {
    SortedListStaysPut(items, KeyOf);
  }
}

=== FILE: experience_form.dfy ===
/** components/experience-form.tsx: the year rule shared with the education
    form, the description-item list of one experience, the "currently working
    here" switch, and the condition that disables the save button.

    The clock is a parameter: `currentYear` stands for `new Date().getFullYear()`. */
module ExperienceForm {
  import opened Wrappers
  import opened Text
  import opened Seqs
  import opened Portfolio
  import opened Forms

  const TitleMinLength := 5
  const CompanyMinLength := 2
  const LocationMinLength := 2
  const DescriptionItemMaxLength := 150
  const MaxDescriptionItems := 5

  /** `type` of `validateYear`. */
  datatype YearKind = StartYear | EndYear

  const StartYearRequired := "Start year is required"
  const YearNotFourDigits := "Year must be a 4-digit number"
  const EndBeforeStart := "End year cannot be before start year"
  const ItemTooLong := "Description item must be 150 characters or less"
  const TooManyItems := "Maximum 5 description items allowed"

  /** `Year must be between 1900 and ${currentYear + 10}`. */
  function YearOutOfRange(currentYear: int): (r: string)
    ensures |r| > 0 && r[0] == 'Y' && r != YearNotFourDigits
  {
    "Year must be between 1900 and " + IntToString(currentYear + 10)
  }

  /** The year rule in words: an empty end year is fine; otherwise four
      digits, between 1900 and ten years from now, and an end year no earlier
      than a start year that reads as a number. */
  predicate YearAcceptable(year: string, kind: YearKind, startYear: string, currentYear: int) {
    || (year == "" && kind == EndYear)
    || (&& IsFourDigits(year)
        && 1900 <= DigitsValue(year) <= currentYear + 10
        && (kind == EndYear && startYear != "" && JsNumber(startYear).Some? ==>
              DigitsValue(year) >= JsNumber(startYear).value))
  }

  /** `validateYear`. `Number(startYear)` is `NaN` for a start year that
      is not a number, and a comparison with `NaN` is false, so such a start
      year never makes an end year fail. */
  function ValidateYear(year: string, kind: YearKind, startYear: string, currentYear: int): (r: Option<string>)
    ensures r.None? <==> YearAcceptable(year, kind, startYear, currentYear)
    ensures r == Some(StartYearRequired) <==> year == "" && kind == StartYear
    ensures year != "" ==> (r == Some(YearNotFourDigits) <==> !IsFourDigits(year))
    ensures IsFourDigits(year) && !(1900 <= DigitsValue(year) <= currentYear + 10) ==>
      r == Some(YearOutOfRange(currentYear))
    ensures r == Some(EndBeforeStart) <==>
      && kind == EndYear && IsFourDigits(year) && 1900 <= DigitsValue(year) <= currentYear + 10
      && startYear != "" && JsNumber(startYear).Some? && DigitsValue(year) < JsNumber(startYear).value
  {
    if year == "" && kind == StartYear then Some(StartYearRequired)
    else if year == "" && kind == EndYear then None
    else if !IsFourDigits(year) then Some(YearNotFourDigits)
    else
      var yearNum := DigitsValue(year);
      if yearNum < 1900 || yearNum > currentYear + 10 then Some(YearOutOfRange(currentYear))
      else if kind == EndYear && startYear != "" then
        match JsNumber(startYear)
        case Some(startYearNum) => if yearNum < startYearNum then Some(EndBeforeStart) else None
        case None => None
      else None
  }

  /** A start year and an end year that both pass are in order. */
  lemma YearsInOrder(start: string, end: string, currentYear: int)
    requires ValidateYear(start, StartYear, "", currentYear).None?
    requires end != "" && ValidateYear(end, EndYear, start, currentYear).None?
    ensures IsFourDigits(start) && IsFourDigits(end)
    ensures 1900 <= DigitsValue(start) <= DigitsValue(end) <= currentYear + 10
  {
  }

  /** Items already in the list are non-blank and at most 150 characters,
      and there are at most five of them. */
  predicate ItemsWellFormed(items: seq<string>) {
    && |items| <= MaxDescriptionItems
    && forall k | 0 <= k < |items| :: Trim(items[k]) != "" && |items[k]| <= DescriptionItemMaxLength
  }

  /** `handleAddItem`: blank input does nothing; too long or too many items
      are refused; otherwise the trimmed item is appended. The length limit
      is checked on the untrimmed input. */
  function AddDescriptionItem(experience: Experience, item: string): (r: Step<Experience>)
    ensures r.Ignored? <==> Trim(item) == ""
    ensures r.Accepted? ==>
      r.value == experience.(description := experience.description + [Trim(item)])
      && |item| <= DescriptionItemMaxLength && |experience.description| < MaxDescriptionItems
    ensures Trim(item) != "" && |item| <= DescriptionItemMaxLength && |experience.description| < MaxDescriptionItems ==>
      r.Accepted?
    ensures r == Refused(ItemTooLong) <==> Trim(item) != "" && |item| > DescriptionItemMaxLength
    ensures r == Refused(TooManyItems) <==>
      Trim(item) != "" && |item| <= DescriptionItemMaxLength && |experience.description| >= MaxDescriptionItems
  {
    if Trim(item) == "" then Ignored
    else if |item| > DescriptionItemMaxLength then Refused(ItemTooLong)
    else if |experience.description| >= MaxDescriptionItems then Refused(TooManyItems)
    else Accepted(experience.(description := experience.description + [Trim(item)]))
  }

  /** Adding an item keeps the item list well formed, whatever the input. */
  lemma AddKeepsItemsWellFormed(experience: Experience, item: string)
    requires ItemsWellFormed(experience.description)
    ensures var r := AddDescriptionItem(experience, item);
      r.Accepted? ==> ItemsWellFormed(r.value.description)
  {
    var r := AddDescriptionItem(experience, item);
    if r.Accepted? {
      var t := Trim(item);
      TrimNoop(t);
      var d := experience.description + [t];
      assert r.value.description == d;
      forall k | 0 <= k < |d|
        ensures Trim(d[k]) != "" && |d[k]| <= DescriptionItemMaxLength
      {
        if k < |experience.description| {
          assert d[k] == experience.description[k];
        }
      }
    }
  }

  /** `handleRemoveDescriptionItem`: the item list loses the item at `index`
      (nothing when there is none); the rest of the experience is unchanged. */
  function RemoveDescriptionItem(experience: Experience, index: int): (r: Experience)
    ensures r.(description := experience.description) == experience
    ensures 0 <= index < |experience.description| ==>
      |r.description| == |experience.description| - 1
    ensures !(0 <= index < |experience.description|) ==> r == experience
  {
    experience.(description := RemoveAt(experience.description, index))
  }

  /** Removing an item keeps the item list well formed, and removes exactly
      that item. */
  lemma RemoveKeepsItemsWellFormed(experience: Experience, index: nat)
    requires ItemsWellFormed(experience.description) && index < |experience.description|
    ensures var d := RemoveDescriptionItem(experience, index).description;
      ItemsWellFormed(d)
      && multiset(d) + multiset{experience.description[index]} == multiset(experience.description)
  {
  }

  /** The "currently working here" switch: switching on clears the end year,
      switching off keeps it. Nothing else changes. */
  function SetOngoing(experience: Experience, checked: bool): (r: Experience)
    ensures r.isOngoing == checked
    ensures checked ==> r.endYear == ""
    ensures !checked ==> r.endYear == experience.endYear
    ensures r.(isOngoing := experience.isOngoing, endYear := experience.endYear) == experience
  {
    experience.(isOngoing := checked, endYear := if checked then "" else experience.endYear)
  }

  /** The save button's `disabled` condition. */
  predicate SaveDisabled(e: Experience, currentYear: int) {
    || e.title == "" || e.company == "" || e.location == "" || e.startYear == ""
    || (e.endYear == "" && !e.isOngoing)
    || |e.description| == 0
    || |e.title| < TitleMinLength
    || |e.company| < CompanyMinLength
    || |e.location| < LocationMinLength
    || ValidateYear(e.startYear, StartYear, "", currentYear).Some?
    || (e.endYear != "" && ValidateYear(e.endYear, EndYear, e.startYear, currentYear).Some?)
  }

  /** Switching "currently working here" on never leaves the save button
      disabled because of the end year. */
  lemma OngoingSatisfiesEndYear(e: Experience, currentYear: int)
    ensures var r := SetOngoing(e, true);
      !(r.endYear == "" && !r.isOngoing)
      && !(r.endYear != "" && ValidateYear(r.endYear, EndYear, r.startYear, currentYear).Some?)
  {
  }
}

=== FILE: forms.dfy ===
/** The shapes every editor dialog of the portfolio shares: a form handler
    that ignores the input, accepts it, or refuses it with a message shown
    under the form; and a save handler that validates an entry and then
    replaces the one being edited or appends a new one. */
module Forms {
  import opened Wrappers
  import opened Seqs

  /** The outcome of a form handler: nothing happens (`return` before any
      state change), the new state, or `setError(message)` with the state unchanged. */
  datatype Step<T> = Ignored | Accepted(value: T) | Refused(message: string)

  /** The outcome of an editor's save handler: the new list handed to
      `onChange`, or the validation message shown instead. */
  datatype SaveResult<T> = Saved(items: seq<T>) | Rejected(message: string)

  /** `handleSaveX`: a validation message stops the save; otherwise the
      entry replaces the one at the editing index, or is appended. */
  function Save<T>(validation: Option<string>, items: seq<T>, editingIndex: Option<nat>, x: T): (r: SaveResult<T>)
    requires editingIndex.Some? ==> editingIndex.value < |items|
    ensures r.Rejected? <==> validation.Some?
    ensures r.Rejected? ==> r.message == validation.value
    ensures r.Saved? && editingIndex.None? ==> r.items == items + [x]
    ensures r.Saved? && editingIndex.Some? ==>
      |r.items| == |items| && r.items[editingIndex.value] == x
      && forall k | 0 <= k < |items| && k != editingIndex.value :: r.items[k] == items[k]
  {
    match validation
    case Some(message) => Rejected(message)
    case None => Saved(Upsert(items, editingIndex, x))
  }

  /** The add button is enabled only below the editor's maximum. */
  predicate CanAdd<T>(items: seq<T>, max: nat) {
    |items| < max
  }

  /** Adding through the enabled add button, and editing, never take a list
      above the maximum. */
  lemma SaveKeepsMaximum<T>(validation: Option<string>, items: seq<T>, editingIndex: Option<nat>, x: T, max: nat)
    requires editingIndex.Some? ==> editingIndex.value < |items|
    requires |items| <= max
    requires editingIndex.None? ==> CanAdd(items, max)
    ensures Save(validation, items, editingIndex, x).Saved? ==> |Save(validation, items, editingIndex, x).items| <= max
  {
  }
}

=== FILE: layout.dfy ===
/** app/layout.tsx: the page metadata built from the portfolio data: the
    keyword list, the description, the default title and the Twitter
    creator handle. */
module Layout {
  import opened Wrappers
  import opened Text
  import opened Seqs
  import opened Portfolio

  /** `skills.flatMap((category) => category.items.map((item) => item.name))`. */
  function SkillNames(skills: seq<SkillCategory>): (r: seq<string>)
    ensures NamesAll(skills, r)
    ensures NamesOnly(skills, r)
  {
    if |skills| == 0 then []
    else
      var first := seq(|skills[0].items|, j requires 0 <= j < |skills[0].items| => skills[0].items[j].name);
      var rest := SkillNames(skills[1..]);
      NamesOfTail(skills, first, rest);
      first + rest
  }

  /** Every skill's name is in `r`. */
  predicate NamesAll(skills: seq<SkillCategory>, r: seq<string>) {
    forall k, j | 0 <= k < |skills| && 0 <= j < |skills[k].items| :: skills[k].items[j].name in r
  }

  /** Everything in `r` is some skill's name. */
  predicate NamesOnly(skills: seq<SkillCategory>, r: seq<string>) {
    forall n | n in r :: exists k, j | 0 <= k < |skills| && 0 <= j < |skills[k].items| :: skills[k].items[j].name == n
  }

  /** The first category's names before the names of the others are the
      names of all of them. */
  lemma NamesOfTail(skills: seq<SkillCategory>, first: seq<string>, rest: seq<string>)
    requires |skills| > 0
    requires |first| == |skills[0].items| && forall j | 0 <= j < |first| :: first[j] == skills[0].items[j].name
    requires NamesAll(skills[1..], rest) && NamesOnly(skills[1..], rest)
    ensures NamesAll(skills, first + rest) && NamesOnly(skills, first + rest)
  {
    var r := first + rest;
    forall k, j | 0 <= k < |skills| && 0 <= j < |skills[k].items|
      ensures skills[k].items[j].name in r
    {
      if k == 0 {
        assert r[j] == skills[k].items[j].name;
      } else {
        assert skills[1..][k - 1] == skills[k];
        assert skills[k].items[j].name in rest;
      }
    }
    forall n | n in r
      ensures exists k, j | 0 <= k < |skills| && 0 <= j < |skills[k].items| :: skills[k].items[j].name == n
    {
      if n in first {
        var j :| 0 <= j < |first| && first[j] == n;
        assert skills[0].items[j].name == n;
      } else {
        assert n in rest;
        var k, j :| 0 <= k < |skills[1..]| && 0 <= j < |skills[1..][k].items| && skills[1..][k].items[j].name == n;
        assert skills[k + 1].items[j].name == n;
      }
    }
  }

  /** `projects.flatMap((project) => project.tags)`. */
  function ProjectTags(projects: seq<Project>): (r: seq<string>)
    ensures forall k, j | 0 <= k < |projects| && 0 <= j < |projects[k].tags| :: projects[k].tags[j] in r
    ensures forall t | t in r :: exists k | 0 <= k < |projects| :: t in projects[k].tags
  {
    if |projects| == 0 then []
    else
      var rest := ProjectTags(projects[1..]);
      assert forall k | 1 <= k < |projects| :: projects[k] == projects[1..][k - 1];
      assert forall t | t in rest :: exists k | 0 <= k < |projects| :: t in projects[k].tags by {
        forall t | t in rest
          ensures exists k | 0 <= k < |projects| :: t in projects[k].tags
        {
          var k :| 0 <= k < |projects[1..]| && t in projects[1..][k].tags;
          assert t in projects[k + 1].tags;
        }
      }
      projects[0].tags + rest
  }

  /** `Array.from(new Set([title, ...skillKeywords, ...projectKeywords]))`:
      no keyword twice; the title first; every skill name and project tag
      present, and nothing else. The order of first occurrences is kept
      (`Seqs.DedupKeepsFirstOccurrenceOrder`). */
  function Keywords(info: PersonalInfo, skills: seq<SkillCategory>, projects: seq<Project>): (r: seq<string>)
    ensures NoDup(r)
    ensures |r| > 0 && r[0] == info.title
    ensures forall k, j | 0 <= k < |skills| && 0 <= j < |skills[k].items| :: skills[k].items[j].name in r
    ensures forall k, j | 0 <= k < |projects| && 0 <= j < |projects[k].tags| :: projects[k].tags[j] in r
    ensures forall w | w in r :: w == info.title || w in SkillNames(skills) || w in ProjectTags(projects)
  {
    var all := [info.title] + SkillNames(skills) + ProjectTags(projects);
    DedupHead(all);
    assert forall w | w in all :: w == info.title || w in SkillNames(skills) || w in ProjectTags(projects);
    assert forall w | w in SkillNames(skills) :: w in all;
    assert forall w | w in ProjectTags(projects) :: w in all;
    Dedup(all)
  }

  /** The verb of the description for the latest role. */
  function Verb(isOngoing: bool): string {
    if isOngoing then "working as" else "worked as"
  }

  /** The enhanced description: the bio, then "Currently working as" for an
      ongoing latest role or "Currently worked as" otherwise, the role's
      title and company. `experience[0]` of an empty list is `undefined`,
      and reading its fields throws: `None`. */
  function Description(bio: string, experience: seq<Experience>): (r: Option<string>)
    ensures r.None? <==> |experience| == 0
    ensures r.Some? ==>
      var latest := experience[0];
      var after := bio + " Currently ";
      && StartsWith(r.value, after)
      && (StartsWith(r.value[|after|..], "working as") <==> latest.isOngoing)
      && (StartsWith(r.value[|after|..], "worked as") <==> !latest.isOngoing)
  {
    if |experience| == 0 then None
    else Some(Sentence(bio + " Currently ", experience[0]))
  }

  /** The text after the opening: the verb, the role's title and company. */
  function Sentence(after: string, latest: Experience): (r: string)
    ensures StartsWith(r, after)
    ensures StartsWith(r[|after|..], "working as") <==> latest.isOngoing
    ensures StartsWith(r[|after|..], "worked as") <==> !latest.isOngoing
  {
    var rest := Verb(latest.isOngoing) + (" " + latest.title + " at " + latest.company + ".");
    var text := after + rest;
    assert text[..|after|] == after && text[|after|..] == rest;
    VerbsDiffer(latest.isOngoing, rest);
    text
  }

  /** Neither verb is a prefix of text that starts with the other. */
  lemma VerbsDiffer(isOngoing: bool, text: string)
    requires StartsWith(text, Verb(isOngoing))
    ensures StartsWith(text, "working as") <==> isOngoing
    ensures StartsWith(text, "worked as") <==> !isOngoing
  {
    if isOngoing {
      assert text[4] == 'i';
    } else {
      assert text[4] == 'e';
    }
  }

  /** The default title: the name, " - ", the title. */
  function DefaultTitle(info: PersonalInfo): (r: string)
    ensures |r| == |info.name| + 3 + |info.title|
    ensures r[..|info.name|] == info.name
    ensures r[|info.name|..|info.name| + 3] == " - "
    ensures r[|info.name| + 3..] == info.title
  {
    info.name + " - " + info.title
  }

  /** `socialLinks.find((link) => link.platform === p)`: the first link of
      the platform. */
  function Find(links: seq<SocialLink>, p: Platform): (r: Option<nat>)
    ensures r.Some? ==>
      && r.value < |links| && links[r.value].platform == p
      && forall k | 0 <= k < r.value :: links[k].platform != p
    ensures r.None? ==> forall k | 0 <= k < |links| :: links[k].platform != p
  {
    if |links| == 0 then None
    else if links[0].platform == p then Some(0)
    else
      match Find(links[1..], p)
      case Some(i) =>
        assert forall k | 1 <= k <= i :: links[k] == links[1..][k - 1];
        Some(i + 1)
      case None =>
        assert forall k | 1 <= k < |links| :: links[k] == links[1..][k - 1];
        None
  }

  /** The Twitter creator: `twitterUrl.split("/").pop()` for the first
      Twitter link, when it has a non-empty address. That is the part after
      the last slash: it has no slash, ends the address, and is the whole
      address or follows a slash. No Twitter link, or an empty address,
      gives none. */
  function TwitterCreator(links: seq<SocialLink>): (r: Option<string>)
    ensures r.None? <==> Find(links, Twitter).None? || links[Find(links, Twitter).value].url == ""
    ensures r.Some? ==>
      var url := links[Find(links, Twitter).value].url;
      && '/' !in r.value
      && |r.value| <= |url| && url[|url| - |r.value|..] == r.value
      && (|r.value| < |url| ==> url[|url| - |r.value| - 1] == '/')
  {
    match Find(links, Twitter)
    case None => None
    case Some(i) =>
      if links[i].url == "" then None
      else Some(LastPiece(links[i].url, '/'))
  }
}

=== FILE: page.dfy ===
/** app/page.tsx: saving the edited portfolio, and which navigation links
    the desktop header lists and shows at a given window width. */
module Page {
  import opened Wrappers
  import opened Portfolio
  import opened Utils
  import Validation

  /** The page's state: the published data, the data being edited, and
      whether the editor is open. */
  datatype PageState = PageState(portfolioData: PortfolioData, unsavedData: PortfolioData, isEditing: bool)

  /** The outcome of `handleSave`: the new state and the message of the
      error toast, if one is shown. */
  datatype SaveOutcome = SaveOutcome(state: PageState, toast: Option<string>)

  /** `handleSave`: a portfolio with any error keeps the state and shows the
      first error; a valid one is published and the editor closes. */
  function HandleSave(parse: UrlParser, st: PageState): (r: SaveOutcome)
    ensures r.toast.None? <==> Validation.Valid(parse, st.unsavedData)
    ensures r.toast.Some? ==>
      && r.state == st
      && var errors := Validation.ValidatePortfolioData(parse, st.unsavedData);
         |errors| > 0 && r.toast.value == errors[0].message
    ensures r.toast.None? ==> r.state == st.(portfolioData := st.unsavedData, isEditing := false)
  {
    Validation.NoErrorsIffValid(parse, st.unsavedData);
    var errors := Validation.ValidatePortfolioData(parse, st.unsavedData);
    if |errors| > 0 then SaveOutcome(st, Some(errors[0].message))
    else SaveOutcome(st.(portfolioData := st.unsavedData, isEditing := false), None)
  }

  /** Saving twice publishes nothing new: after a successful save, saving
      again succeeds with the same state. */
  lemma SaveIdempotent(parse: UrlParser, st: PageState)
    requires HandleSave(parse, st).toast.None?
    ensures var once := HandleSave(parse, st).state;
      HandleSave(parse, once) == SaveOutcome(once, None)
  {
  }

  /** The filter of the desktop navigation: Home, About and Contact always;
      a section's link only when the section has entries; any other link
      always. */
  predicate Listed(data: PortfolioData, link: NavLink) {
    if link.name == "Home" || link.name == "About" || link.name == "Contact" then true
    else if link.name == "Projects" then |data.projects| > 0
    else if link.name == "Skills" then |data.skills| > 0
    else if link.name == "Experience" then |data.experience| > 0
    else if link.name == "Education" then |data.education| > 0
    else if link.name == "Certifications" then |data.certifications| > 0
    else true
  }

  /** The section a link stands for, by its name, if it names one. */
  function SectionSize(data: PortfolioData, name: string): Option<nat> {
    if name == "Projects" then Some(|data.projects|)
    else if name == "Skills" then Some(|data.skills|)
    else if name == "Experience" then Some(|data.experience|)
    else if name == "Education" then Some(|data.education|)
    else if name == "Certifications" then Some(|data.certifications|)
    else None
  }

  /** A link naming a section is listed exactly when that section has
      entries; every other link is always listed. */
  lemma ListedIffSectionFilled(data: PortfolioData, link: NavLink)
    ensures SectionSize(data, link.name).Some? ==> (Listed(data, link) <==> SectionSize(data, link.name).value > 0)
    ensures SectionSize(data, link.name).None? ==> Listed(data, link)
  {
  }

  /** `navigationLinks.filter(...)`. */
  function NavFilter(data: PortfolioData, links: seq<NavLink>): (r: seq<NavLink>)
    ensures |r| <= |links|
    ensures forall l :: l in r <==> l in links && Listed(data, l)
  {
    if |links| == 0 then []
    else
      var rest := NavFilter(data, links[1..]);
      assert forall l :: l in links <==> l == links[0] || l in links[1..];
      if Listed(data, links[0]) then [links[0]] + rest else rest
  }

  /** The filter keeps order: filtering two runs is filtering each. */
  lemma {:induction false} NavFilterAppend(data: PortfolioData, a: seq<NavLink>, b: seq<NavLink>)
    ensures NavFilter(data, a + b) == NavFilter(data, a) + NavFilter(data, b)
  {
    if |a| > 0 {
      assert (a + b)[1..] == a[1..] + b;
      NavFilterAppend(data, a[1..], b);
    } else {
      assert a + b == b;
    }
  }

  /** Home, About and Contact pass the filter whatever the data. */
  lemma FixedLinksListed(data: PortfolioData, links: seq<NavLink>, l: NavLink)
    requires l in links && (l.name == "Home" || l.name == "About" || l.name == "Contact")
    ensures l in NavFilter(data, links)
  {
  }

  /** How many leading links fit at a width: two, four from 768 pixels,
      six from 1024, all from 1280. */
  function Capacity(width: int): Option<nat> {
    if width >= 1280 then None
    else if width >= 1024 then Some(6)
    else if width >= 768 then Some(4)
    else Some(2)
  }

  /** `isVisible` of the link at `index` of the filtered list. */
  predicate Visible(index: nat, width: int) {
    || index < 2
    || (index < 4 && width >= 768)
    || (index < 6 && width >= 1024)
    || width >= 1280
  }

  /** A link is shown exactly when it is among the leading links that fit. */
  lemma VisibleIffFits(index: nat, width: int)
    ensures Visible(index, width) <==> Capacity(width).None? || index < Capacity(width).value
  {
  }

  /** The first two links always show, and every link shows at 1280 pixels. */
  lemma AlwaysVisible(index: nat, width: int)
    ensures index < 2 ==> Visible(index, width)
    ensures width >= 1280 ==> Visible(index, width)
  {
  }

  /** Widening the window never hides a link. */
  lemma VisibleMonotone(index: nat, width: int, wider: int)
    requires width <= wider && Visible(index, width)
    ensures Visible(index, wider)
  {
  }
}

=== FILE: portfolio.dfy ===
/** The portfolio's entities, shared by every editor, the validator, the
    metadata builder and the deployment serializer. Optional string fields of
    the source (`resumeUrl?`, an unset `expiryDate`) are the empty string,
    which is how the source's truthiness checks treat them. */
module Portfolio {

  /** `SocialPlatform` of lib/social-utils.ts. */
  datatype Platform = Github | Linkedin | Twitter | Email | Custom

  /** The icon components the site references by name. */
  datatype Icon = GithubIcon | LinkedinIcon | TwitterIcon | MailIcon | GlobeIcon

  /** The icon a social platform shows: each platform its own, the globe
      for a custom link. */
  predicate IconFor(platform: Platform, icon: Icon) {
    && (icon == GithubIcon <==> platform == Github)
    && (icon == LinkedinIcon <==> platform == Linkedin)
    && (icon == TwitterIcon <==> platform == Twitter)
    && (icon == MailIcon <==> platform == Email)
    && (icon == GlobeIcon <==> platform == Custom)
  }

  datatype SocialLink = SocialLink(platform: Platform, url: string, icon: Icon)

  datatype ProjectLink = ProjectLink(name: string, url: string, icon: Icon)

  datatype Project = Project(
    title: string,
    description: string,
    tags: seq<string>,
    links: seq<ProjectLink>,
    inDevelopment: bool)

  datatype Skill = Skill(name: string, icon: string)

  datatype SkillCategory = SkillCategory(category: string, items: seq<Skill>)

  datatype Experience = Experience(
    title: string,
    company: string,
    location: string,
    startYear: string,
    endYear: string,
    isOngoing: bool,
    description: seq<string>)

  datatype Education = Education(
    degree: string,
    institution: string,
    location: string,
    startYear: string,
    endYear: string,
    isOngoing: bool,
    description: string)

  datatype Certification = Certification(
    title: string,
    issuer: string,
    issueDate: string,
    expiryDate: string,
    credentialId: string,
    credentialUrl: string,
    badgeUrl: string,
    description: string)

  datatype PersonalInfo = PersonalInfo(
    name: string,
    title: string,
    bio: string,
    location: string,
    resumeUrl: string,
    imageUrl: string)

  datatype NavLink = NavLink(name: string, href: string)

  datatype PortfolioData = PortfolioData(
    navigationLinks: seq<NavLink>,
    socialLinks: seq<SocialLink>,
    personalInfo: PersonalInfo,
    projects: seq<Project>,
    skills: seq<SkillCategory>,
    experience: seq<Experience>,
    education: seq<Education>,
    certifications: seq<Certification>)
}

=== FILE: project_editor.dfy ===
/** components/project-editor.tsx: the project validator, saving and
    deleting projects, and the cap on the number of projects. */
module ProjectEditor {
  import opened Wrappers
  import opened Text
  import opened Seqs
  import opened Portfolio
  import opened Forms
  import ProjectForm

  const MaxProjects := 12

  /** What `validateProject` accepts. Links are required but not checked. */
  predicate Acceptable(p: Project) {
    && !IsBlank(p.title) && |p.title| >= 5
    && !IsBlank(p.description) && |p.description| >= 20
    && |p.tags| > 0
    && |p.links| > 0
  }

  /** `validateProject`: the first rule that fails names the problem. */
  function ValidateProject(p: Project): (r: Option<string>)
    ensures r.None? <==> Acceptable(p)
    ensures r == Some("Title is required") <==> IsBlank(p.title)
    ensures r == Some("Title must be at least 5 characters") <==> !IsBlank(p.title) && |p.title| < 5
    ensures r == Some("Description is required") <==> !IsBlank(p.title) && |p.title| >= 5 && IsBlank(p.description)
    ensures r == Some("Description must be at least 20 characters") <==>
      !IsBlank(p.title) && |p.title| >= 5 && !IsBlank(p.description) && |p.description| < 20
    ensures r == Some("At least one tag is required") <==>
      !IsBlank(p.title) && |p.title| >= 5 && !IsBlank(p.description) && |p.description| >= 20 && |p.tags| == 0
    ensures r == Some("At least one link is required") <==>
      !IsBlank(p.title) && |p.title| >= 5 && !IsBlank(p.description) && |p.description| >= 20
      && |p.tags| > 0 && |p.links| == 0
  {
    if IsBlank(p.title) then Some("Title is required")
    else if |p.title| < 5 then Some("Title must be at least 5 characters")
    else if IsBlank(p.description) then Some("Description is required")
    else if |p.description| < 20 then Some("Description must be at least 20 characters")
    else if |p.tags| == 0 then Some("At least one tag is required")
    else if |p.links| == 0 then Some("At least one link is required")
    else None
  }

  /** When the form enables its save button and the title and description
      are not blank, the editor accepts the project. */
  lemma EnabledFormIsAccepted(p: Project)
    requires ProjectForm.SaveEnabled(p)
    requires !IsBlank(p.title) && !IsBlank(p.description)
    ensures ValidateProject(p).None?
  {
  }

  /** `handleSaveProject`: a refused project leaves the list as it was; an
      accepted one replaces the one being edited, or is appended. */
  function HandleSave(items: seq<Project>, editingIndex: Option<nat>, p: Project): (r: SaveResult<Project>)
    requires editingIndex.Some? ==> editingIndex.value < |items|
    ensures r.Saved? <==> Acceptable(p)
    ensures r.Rejected? ==> ValidateProject(p) == Some(r.message)
    ensures r.Saved? && editingIndex.None? ==> r.items == items + [p]
    ensures r.Saved? && editingIndex.Some? ==>
      |r.items| == |items| && r.items[editingIndex.value] == p
      && forall k | 0 <= k < |items| && k != editingIndex.value :: r.items[k] == items[k]
  {
    Save(ValidateProject(p), items, editingIndex, p)
  }

  /** `handleDeleteProject`: the project at the index goes, the others keep
      their order. */
  function DeleteProject(items: seq<Project>, index: nat): (r: seq<Project>)
    ensures index < |items| ==> multiset(r) + multiset{items[index]} == multiset(items)
    ensures index < |items| ==> r == items[..index] + items[index + 1..]
    ensures index >= |items| ==> r == items
  {
    RemoveAt(items, index)
  }

  /** Deleting the project just added gives the list back. */
  lemma AddThenDeleteProject(items: seq<Project>, p: Project)
    requires Acceptable(p)
    ensures DeleteProject(HandleSave(items, None, p).items, |items|) == items
  {
    assert (items + [p])[..|items|] == items;
  }

  /** The add button is disabled at twelve projects and editing keeps the
      count, so saving never takes the list past twelve. The save handler
      itself does not check the cap. */
  lemma SaveWithinMaximum(items: seq<Project>, editingIndex: Option<nat>, p: Project)
    requires editingIndex.Some? ==> editingIndex.value < |items|
    requires |items| <= MaxProjects
    requires editingIndex.None? ==> CanAdd(items, MaxProjects)
    ensures HandleSave(items, editingIndex, p).Saved? ==> |HandleSave(items, editingIndex, p).items| <= MaxProjects
  {
  }

  /** Without the button, the handler appends past the cap. */
  lemma SaveIgnoresMaximum(items: seq<Project>, p: Project)
    requires |items| == MaxProjects && Acceptable(p)
    ensures |HandleSave(items, None, p).items| == MaxProjects + 1
  {
  }
}

=== FILE: project_form.dfy ===
/** components/project-form.tsx: adding and removing the tags and links of
    one project, and the condition that disables the save button.

    An accepted step also empties the input field it came from and clears
    the error line; a refused step leaves the project as it was and shows
    the message. */
module ProjectForm {
  import opened Wrappers
  import opened Text
  import opened Seqs
  import opened Portfolio
  import opened Forms
  import opened Utils

  const TagMaxLength := 20
  const MaxTags := 6
  const LinkNameMaxLength := 30
  const MaxLinks := 3
  const TitleMinLength := 5
  const DescriptionMinLength := 20
  const TagMinLength := 2
  const LinkNameMinLength := 2

  const TagTooLong := "Tag must be 20 characters or less"
  const TagTooShort := "Tag must be at least 2 characters"
  const TooManyTags := "Maximum 6 tags allowed"
  const DuplicateTag := "Tag already exists"

  /** `handleAddTag`. The length checks read the untrimmed input; the
      duplicate check and the stored tag use the trimmed one. */
  function AddTag(project: Project, newTag: string): (r: Step<Project>)
    ensures r.Ignored? <==> IsBlank(newTag)
    ensures r.Accepted? ==> r.value == project.(tags := project.tags + [Trim(newTag)])
    ensures r == Refused(TagTooLong) <==> !IsBlank(newTag) && |newTag| > TagMaxLength
    ensures r == Refused(TagTooShort) <==> !IsBlank(newTag) && |newTag| < TagMinLength
    ensures r == Refused(TooManyTags) <==>
      !IsBlank(newTag) && TagMinLength <= |newTag| <= TagMaxLength && |project.tags| >= MaxTags
    ensures r == Refused(DuplicateTag) <==>
      && !IsBlank(newTag) && TagMinLength <= |newTag| <= TagMaxLength && |project.tags| < MaxTags
      && Trim(newTag) in project.tags
    ensures (!IsBlank(newTag) && TagMinLength <= |newTag| <= TagMaxLength && |project.tags| < MaxTags && Trim(newTag) !in project.tags) ==> r.Accepted?
  {
    if IsBlank(newTag) then Ignored
    else if |newTag| > TagMaxLength then Refused(TagTooLong)
    else if |newTag| < TagMinLength then Refused(TagTooShort)
    else if |project.tags| >= MaxTags then Refused(TooManyTags)
    else if Trim(newTag) in project.tags then Refused(DuplicateTag)
    else Accepted(project.(tags := project.tags + [Trim(newTag)]))
  }

  /** The tags of a project built with the form: at most six, no two equal,
      none blank or longer than twenty characters, none with whitespace
      around it. */
  predicate TagsWellFormed(tags: seq<string>) {
    && |tags| <= MaxTags
    && NoDup(tags)
    && forall k | 0 <= k < |tags| :: !IsBlank(tags[k]) && |tags[k]| <= TagMaxLength && Trim(tags[k]) == tags[k]
  }

  /** A trimmed non-blank input is non-blank, no longer, and trims to itself. */
  lemma TrimmedInput(s: string)
    requires !IsBlank(s)
    ensures var t := Trim(s); !IsBlank(t) && |t| <= |s| && Trim(t) == t
  {
    TrimEmptyIffBlank(s);
    var t := Trim(s);
    assert !IsWhitespace(t[0]);
    TrimNoop(t);
  }

  /** Adding a tag keeps the tags well formed, whatever the input. */
  lemma AddTagKeepsTagsWellFormed(project: Project, newTag: string)
    requires TagsWellFormed(project.tags)
    ensures var r := AddTag(project, newTag);
      r.Accepted? ==> TagsWellFormed(r.value.tags)
  {
    var r := AddTag(project, newTag);
    if r.Accepted? {
      var t := Trim(newTag);
      TrimmedInput(newTag);
      var tags := project.tags + [t];
      assert r.value.tags == tags;
      assert t !in project.tags;
      forall i, j | 0 <= i < j < |tags|
        ensures tags[i] != tags[j]
      {
        assert tags[i] == project.tags[i];
        if j < |tags| - 1 {
          assert tags[j] == project.tags[j];
        }
      }
      forall k | 0 <= k < |tags|
        ensures !IsBlank(tags[k]) && |tags[k]| <= TagMaxLength && Trim(tags[k]) == tags[k]
      {
        if k < |tags| - 1 {
          assert tags[k] == project.tags[k];
        }
      }
    }
  }

  /** `handleRemoveTag`: the tag at `index` goes, the others keep their order,
      nothing else changes. */
  function RemoveTag(project: Project, index: int): (r: Project)
    ensures r.(tags := project.tags) == project
    ensures r.tags == RemoveAt(project.tags, index)
  {
    project.(tags := RemoveAt(project.tags, index))
  }

  /** Removing a tag keeps the tags well formed. */
  lemma RemoveTagKeepsTagsWellFormed(project: Project, index: int)
    requires TagsWellFormed(project.tags)
    ensures TagsWellFormed(RemoveTag(project, index).tags)
  {
    var tags := project.tags;
    var r := RemoveTag(project, index).tags;
    RemoveAtKeepsNoDup(tags, index);
    forall k | 0 <= k < |r|
      ensures !IsBlank(r[k]) && |r[k]| <= TagMaxLength && Trim(r[k]) == r[k]
    {
      assert r[k] in tags;
    }
  }

  const LinkNameTooLong := "Link name must be 30 characters or less"
  const LinkNameTooShort := "Link name must be at least 2 characters"
  const TooManyLinks := "Maximum 3 links allowed"
  const InvalidLinkUrl := "Please enter a valid URL"

  /** `handleAddLink`. The stored link keeps the name as typed and the
      completed address, with the GitHub icon exactly when the completed
      address mentions `github.com`. */
  function AddLink(parse: UrlParser, project: Project, name: string, url: string): (r: Step<Project>)
    ensures r.Ignored? <==> IsBlank(name) || IsBlank(url)
    ensures r.Accepted? ==>
      && ValidateUrl(parse, url) && |project.links| < MaxLinks
      && LinkNameMinLength <= |name| <= LinkNameMaxLength
      && r.value == project.(links := project.links + [ProjectLink(name, FormatUrl(url), SerializedProjectIcon(FormatUrl(url)))])
    ensures r == Refused(LinkNameTooLong) <==> !IsBlank(name) && !IsBlank(url) && |name| > LinkNameMaxLength
    ensures r == Refused(LinkNameTooShort) <==> !IsBlank(name) && !IsBlank(url) && |name| < LinkNameMinLength
    ensures r == Refused(TooManyLinks) <==>
      !IsBlank(name) && !IsBlank(url) && LinkNameMinLength <= |name| <= LinkNameMaxLength
      && |project.links| >= MaxLinks
    ensures r == Refused(InvalidLinkUrl) <==>
      !IsBlank(name) && !IsBlank(url) && LinkNameMinLength <= |name| <= LinkNameMaxLength
      && |project.links| < MaxLinks && !ValidateUrl(parse, url)
    ensures (!IsBlank(name) && !IsBlank(url) && LinkNameMinLength <= |name| <= LinkNameMaxLength && |project.links| < MaxLinks && ValidateUrl(parse, url)) ==> r.Accepted?
  {
    if IsBlank(name) || IsBlank(url) then Ignored
    else if |name| > LinkNameMaxLength then Refused(LinkNameTooLong)
    else if |name| < LinkNameMinLength then Refused(LinkNameTooShort)
    else if |project.links| >= MaxLinks then Refused(TooManyLinks)
    else if !ValidateUrl(parse, url) then Refused(InvalidLinkUrl)
    else
      var formattedUrl := FormatUrl(url);
      var icon := SerializedProjectIcon(formattedUrl);
      Accepted(project.(links := project.links + [ProjectLink(name, formattedUrl, icon)]))
  }

  /** The links of a project built with the form: at most three, each with a
      name of two to thirty characters, a completed address, and the icon
      its address calls for. */
  predicate LinksWellFormed(links: seq<ProjectLink>) {
    && |links| <= MaxLinks
    && forall k | 0 <= k < |links| ::
      && LinkNameMinLength <= |links[k].name| <= LinkNameMaxLength
      && StartsWith(links[k].url, "http")
      && (links[k].icon == GithubIcon <==> Contains(links[k].url, "github.com"))
  }

  /** Adding a link keeps the links well formed, whatever the input. */
  lemma AddLinkKeepsLinksWellFormed(parse: UrlParser, project: Project, name: string, url: string)
    requires LinksWellFormed(project.links)
    ensures var r := AddLink(parse, project, name, url);
      r.Accepted? ==> LinksWellFormed(r.value.links)
  {
    var r := AddLink(parse, project, name, url);
    if r.Accepted? {
      var links := r.value.links;
      assert links[|links| - 1].url == FormatUrl(url);
      forall k | 0 <= k < |links| - 1
        ensures links[k] == project.links[k]
      {
      }
    }
  }

  /** `handleRemoveLink`: the link at `index` goes, the others keep their
      order, nothing else changes. */
  function RemoveLink(project: Project, index: int): (r: Project)
    ensures r.(links := project.links) == project
    ensures r.links == RemoveAt(project.links, index)
  {
    project.(links := RemoveAt(project.links, index))
  }

  /** Removing a link keeps the links well formed. */
  lemma RemoveLinkKeepsLinksWellFormed(project: Project, index: int)
    requires LinksWellFormed(project.links)
    ensures LinksWellFormed(RemoveLink(project, index).links)
  {
  }

  /** The save button's `disabled` condition, negated. */
  predicate SaveEnabled(p: Project) {
    && p.title != "" && p.description != ""
    && |p.tags| > 0 && |p.links| > 0
    && |p.title| >= TitleMinLength
    && |p.description| >= DescriptionMinLength
  }
}

=== FILE: seqs.dfy ===
/** The list operations every editor of the portfolio repeats: remove by
    index (`filter((_, i) => i !== index)`), replace at an index, append,
    the add-or-replace step of a save handler, and `Array.from(new Set(xs))`. */
module Seqs {
  import opened Wrappers

  /** `xs.filter((_, i) => i !== index)`: exactly the element at `index` goes,
      the others keep their order; an index outside the list removes nothing. */
  function RemoveAt<T>(xs: seq<T>, index: int): (r: seq<T>)
    ensures 0 <= index < |xs| ==>
      && |r| == |xs| - 1
      && (forall k | 0 <= k < index :: r[k] == xs[k])
      && (forall k | index <= k < |r| :: r[k] == xs[k + 1])
      && multiset(r) + multiset{xs[index]} == multiset(xs)
    ensures !(0 <= index < |xs|) ==> r == xs
  {
    if 0 <= index < |xs| then
      assert xs == xs[..index] + [xs[index]] + xs[index + 1..];
      xs[..index] + xs[index + 1..]
    else xs
  }

  /** `copy[index] = x` on a copy of the list: one slot changes, the length does not. */
  function ReplaceAt<T>(xs: seq<T>, index: nat, x: T): (r: seq<T>)
    requires index < |xs|
    ensures |r| == |xs| && r[index] == x
    ensures forall k | 0 <= k < |xs| && k != index :: r[k] == xs[k]
  {
    xs[index := x]
  }

  /** Replacing one element trades it for the new one in the multiset of elements. */
  lemma ReplaceMultiset<T>(xs: seq<T>, index: nat, x: T)
    requires index < |xs|
    ensures multiset(xs[index := x]) + multiset{xs[index]} == multiset(xs) + multiset{x}
  {
    assert xs == xs[..index] + [xs[index]] + xs[index + 1..];
    assert xs[index := x] == xs[..index] + [x] + xs[index + 1..];
  }

  /** The list half of every editor's save handler: replace at the editing
      index when there is one, append otherwise. */
  function Upsert<T>(xs: seq<T>, editingIndex: Option<nat>, x: T): (r: seq<T>)
    requires editingIndex.Some? ==> editingIndex.value < |xs|
    ensures editingIndex.Some? ==>
      |r| == |xs| && r[editingIndex.value] == x
      && forall k | 0 <= k < |xs| && k != editingIndex.value :: r[k] == xs[k]
    ensures editingIndex.None? ==> |r| == |xs| + 1 && r[..|xs|] == xs && r[|xs|] == x
  {
    match editingIndex
    case Some(i) => ReplaceAt(xs, i, x)
    case None => xs + [x]
  }

  /** Removing either element of a pair leaves the other. */
  lemma RemoveFromPair<T>(a: T, b: T)
    ensures RemoveAt([a, b], 0) == [b] && RemoveAt([a, b], 1) == [a]
  {
    var pair := [a, b];
    var first, second := RemoveAt(pair, 0), RemoveAt(pair, 1);
    assert first[0] == b && second[0] == a;
  }

  /** Replacing either element of a pair. */
  lemma ReplaceInPair<T>(a: T, b: T, x: T)
    ensures Upsert([a, b], Some(0), x) == [x, b] && Upsert([a, b], Some(1), x) == [a, x]
  {
    var pair := [a, b];
    var first, second := Upsert(pair, Some(0), x), Upsert(pair, Some(1), x);
    assert first[0] == x && first[1] == b && second[0] == a && second[1] == x;
  }

  predicate NoDup<T(==)>(xs: seq<T>) {
    forall i, j | 0 <= i < j < |xs| :: xs[i] != xs[j]
  }

  /** Removing an element keeps the rest distinct, and every element left
      was there before. */
  lemma RemoveAtKeepsNoDup<T>(xs: seq<T>, index: int)
    requires NoDup(xs)
    ensures NoDup(RemoveAt(xs, index))
    ensures forall k | 0 <= k < |RemoveAt(xs, index)| :: RemoveAt(xs, index)[k] in xs
  {
    var r := RemoveAt(xs, index);
    if 0 <= index < |xs| {
      forall i, j | 0 <= i < j < |r|
        ensures r[i] != r[j]
      {
        var i' := if i < index then i else i + 1;
        var j' := if j < index then j else j + 1;
        assert r[i] == xs[i'] && r[j] == xs[j'];
      }
      forall k | 0 <= k < |r| ensures r[k] in xs {
        var k' := if k < index then k else k + 1;
        assert r[k] == xs[k'];
      }
    }
  }

  /** The position of the first occurrence of `x`. */
  function FirstIndex<T(==)>(xs: seq<T>, x: T): (r: nat)
    requires x in xs
    ensures r < |xs| && xs[r] == x && x !in xs[..r]
  {
    if xs[0] == x then 0
    else
      var r := 1 + FirstIndex(xs[1..], x);
      assert xs[..r] == [xs[0]] + xs[1..][..r - 1];
      r
  }

  /** `Array.from(new Set(xs))`: each value once, at the place of its first occurrence. */
  function Dedup<T(==)>(xs: seq<T>): (r: seq<T>)
    ensures NoDup(r)
    ensures forall k | 0 <= k < |xs| :: xs[k] in r
    ensures forall k | 0 <= k < |r| :: r[k] in xs
    ensures |r| <= |xs|
  {
    if |xs| == 0 then []
    else
      var init := xs[..|xs| - 1];
      var last := xs[|xs| - 1];
      assert xs == init + [last];
      if last in init then Dedup(init) else Dedup(init) + [last]
  }

  /** `Dedup` keeps first-occurrence order: earlier in the result means first
      seen earlier in the input. */
  lemma {:induction false} DedupKeepsFirstOccurrenceOrder<T>(xs: seq<T>, i: nat, j: nat)
    requires i < j < |Dedup(xs)|
    ensures Dedup(xs)[i] in xs && Dedup(xs)[j] in xs
    ensures FirstIndex(xs, Dedup(xs)[i]) < FirstIndex(xs, Dedup(xs)[j])
  {
    var init := xs[..|xs| - 1];
    var last := xs[|xs| - 1];
    assert xs == init + [last];
    var r := Dedup(xs);
    FirstIndexOfPrefix(init, last, r[i]);
    FirstIndexOfPrefix(init, last, r[j]);
    if j < |Dedup(init)| {
      assert r[i] == Dedup(init)[i] && r[j] == Dedup(init)[j];
      DedupKeepsFirstOccurrenceOrder(init, i, j);
    } else {
      assert last !in init && r[j] == last;
      assert r[i] == Dedup(init)[i] && r[i] in init;
    }
  }

  /** Appending an element does not move the first occurrence of a value already present. */
  lemma FirstIndexOfPrefix<T>(init: seq<T>, last: T, x: T)
    requires x in init + [last]
    ensures x in init ==> FirstIndex(init + [last], x) == FirstIndex(init, x)
    ensures x !in init ==> FirstIndex(init + [last], x) == |init|
  {
    var xs := init + [last];
    if x in init {
      var m := FirstIndex(init, x);
      assert xs[m] == x && xs[..m] == init[..m];
    }
  }

  /** `Dedup` keeps the first element first. */
  lemma {:induction false} DedupHead<T>(xs: seq<T>)
    requires |xs| > 0
    ensures |Dedup(xs)| > 0 && Dedup(xs)[0] == xs[0]
  {
    if |xs| > 1 {
      var init := xs[..|xs| - 1];
      DedupHead(init);
      assert xs == init + [xs[|xs| - 1]];
    }
  }
}

=== FILE: skill_category_form.dfy ===
/** components/skill-category-form.tsx: the category name rule and the
    form's save handler. */
module SkillCategoryForm {
  import opened Wrappers
  import opened Portfolio
  import opened Forms

  const CategoryMin := 3
  const CategoryMax := 50

  const CategoryTooShort := "Category name must be at least 3 characters"
  const CategoryTooLong := "Category name must be 50 characters or less"

  /** `validateCategory`: the name's length, nothing else (a name of three
      spaces passes). */
  function ValidateCategory(name: string): (r: Option<string>)
    ensures r.None? <==> CategoryMin <= |name| <= CategoryMax
    ensures r == Some(CategoryTooShort) <==> |name| < CategoryMin
    ensures r == Some(CategoryTooLong) <==> |name| > CategoryMax
  {
    if |name| < CategoryMin then Some(CategoryTooShort)
    else if |name| > CategoryMax then Some(CategoryTooLong)
    else None
  }

  /** `handleSave`: a category whose name passes is handed on unchanged,
      skills included; otherwise the message is shown. */
  function HandleSave(category: SkillCategory): (r: Step<SkillCategory>)
    ensures !r.Ignored?
    ensures r.Accepted? <==> CategoryMin <= |category.category| <= CategoryMax
    ensures r.Accepted? ==> r.value == category
    ensures r.Refused? ==> ValidateCategory(category.category) == Some(r.message)
  {
    match ValidateCategory(category.category)
    case Some(message) => Refused(message)
    case None => Accepted(category)
  }
}

=== FILE: skill_form.dfy ===
/** components/skill-form.tsx: searching the skill catalogue, picking a
    result, and the two ways of saving a skill (a catalogue pick, or a custom
    name and icon address). */
module SkillForm {
  import opened Wrappers
  import opened Text
  import opened Portfolio
  import opened Forms
  import opened Utils

  const NameMin := 2
  const NameMax := 30

  const NameTooShort := "Skill name must be at least 2 characters"
  const NameTooLong := "Skill name must be 30 characters or less"
  const IconRequired := "Icon URL is required"
  const InvalidIcon := "Please enter a valid icon URL"
  const NothingSelected := "Please select a skill"

  /** The two tabs of the form. */
  datatype Mode = SearchTab | CustomTab

  /** A skill matches a query when its name, lower-cased, contains the
      query, lower-cased. */
  predicate Matches(s: Skill, query: string) {
    Contains(Lower(s.name), Lower(query))
  }

  /** The skill named `name`'s category lists `s`. */
  predicate Listed(catalogue: seq<SkillCategory>, name: string, s: Skill) {
    exists c | c in catalogue :: c.category == name && s in c.items
  }

  /** `items.filter(...)`: the matching skills, in catalogue order. */
  function MatchingSkills(items: seq<Skill>, query: string): (r: seq<Skill>)
    ensures |r| <= |items|
    ensures forall s :: s in r <==> s in items && Matches(s, query)
    ensures |items| == 1 ==> r == (if Matches(items[0], query) then items else [])
  {
    if |items| == 0 then []
    else
      var rest := MatchingSkills(items[1..], query);
      assert forall s :: s in items <==> s == items[0] || s in items[1..];
      if Matches(items[0], query) then [items[0]] + rest else rest
  }

  /** Filtering works skill by skill: the matches of two lists joined are
      the matches of each, joined in the same order. */
  lemma {:induction false} MatchingSkillsAppend(a: seq<Skill>, b: seq<Skill>, query: string)
    ensures MatchingSkills(a + b, query) == MatchingSkills(a, query) + MatchingSkills(b, query)
    decreases |a|
  {
    if |a| > 0 {
      assert (a + b)[1..] == a[1..] + b;
      MatchingSkillsAppend(a[1..], b, query);
    } else {
      assert a + b == b;
    }
  }

  /** Every skill of a category matches: the filter keeps the whole list. */
  lemma {:induction false} AllMatchingKept(items: seq<Skill>, query: string)
    requires forall k | 0 <= k < |items| :: Matches(items[k], query)
    ensures MatchingSkills(items, query) == items
  {
    if |items| > 0 {
      AllMatchingKept(items[1..], query);
      assert items == [items[0]] + items[1..];
    }
  }

  /** The `.map(...).filter(...)` over the categories: each category narrowed
      to its matching skills, and the categories left empty dropped. */
  function MatchingCategories(catalogue: seq<SkillCategory>, query: string): (r: seq<SkillCategory>)
    ensures |r| <= |catalogue|
    ensures forall c | c in r :: |c.items| > 0
    ensures forall name, s :: Listed(r, name, s) <==> Listed(catalogue, name, s) && Matches(s, query)
  {
    if |catalogue| == 0 then []
    else
      var first := catalogue[0];
      var narrowed := SkillCategory(first.category, MatchingSkills(first.items, query));
      var rest := MatchingCategories(catalogue[1..], query);
      assert catalogue == [first] + catalogue[1..];
      ListedCons(first, catalogue[1..]);
      ListedCons(narrowed, rest);
      if |narrowed.items| > 0 then [narrowed] + rest else rest
  }

  /** Narrowing works category by category: the result for two catalogues
      joined is the result for each, joined in the same order. */
  lemma {:induction false} MatchingCategoriesAppend(a: seq<SkillCategory>, b: seq<SkillCategory>, query: string)
    ensures MatchingCategories(a + b, query) == MatchingCategories(a, query) + MatchingCategories(b, query)
    decreases |a|
  {
    if |a| > 0 {
      assert (a + b)[0] == a[0];
      assert (a + b)[1..] == a[1..] + b;
      MatchingCategoriesAppend(a[1..], b, query);
    } else {
      assert a + b == b;
    }
  }

  /** One category: kept under its own name with its matching skills, or
      dropped when none match. With the lemma above this fixes the result. */
  lemma MatchingCategoriesOne(c: SkillCategory, query: string)
    ensures MatchingCategories([c], query) ==
      (if |MatchingSkills(c.items, query)| > 0 then [SkillCategory(c.category, MatchingSkills(c.items, query))] else [])
  {
    assert [c][1..] == [];
  }

  /** A skill is listed by a catalogue exactly when its first category or
      the rest lists it. */
  lemma ListedCons(c: SkillCategory, cs: seq<SkillCategory>)
    ensures forall name, s :: Listed([c] + cs, name, s) <==> (c.category == name && s in c.items) || Listed(cs, name, s)
  {
    forall name, s
      ensures Listed([c] + cs, name, s) <==> (c.category == name && s in c.items) || Listed(cs, name, s)
    {
      if Listed([c] + cs, name, s) {
        var d :| d in [c] + cs && d.category == name && s in d.items;
        assert d == c || d in cs;
      }
      if Listed(cs, name, s) {
        var d :| d in cs && d.category == name && s in d.items;
        assert d in [c] + cs;
      }
      if c.category == name && s in c.items {
        assert c in [c] + cs;
      }
    }
  }

  /** `filteredSkills`: nothing for an empty query; otherwise the catalogue
      narrowed to the skills whose names contain the query, ignoring case,
      with empty categories dropped. */
  function SearchResults(catalogue: seq<SkillCategory>, query: string): (r: seq<SkillCategory>)
    ensures query == "" ==> r == []
    ensures forall c | c in r :: |c.items| > 0
    ensures query != "" ==>
      forall name, s :: Listed(r, name, s) <==> Listed(catalogue, name, s) && Matches(s, query)
  {
    if query == "" then [] else MatchingCategories(catalogue, query)
  }

  /** The state the form keeps: the tab, the search text and the skill being edited. */
  datatype State = State(mode: Mode, query: string, skill: Skill, error: Option<string>)

  /** `handleSelect`: the picked skill becomes the skill being edited, the
      search text is cleared, and so is the error. */
  function HandleSelect(st: State, picked: Skill): (r: State)
    ensures r.skill == picked && r.mode == st.mode
    ensures r.error.None?
  {
    st.(skill := picked, query := "", error := None)
  }

  /** Picking a result closes the result list. */
  lemma SelectClearsResults(catalogue: seq<SkillCategory>, st: State, picked: Skill)
    ensures SearchResults(catalogue, HandleSelect(st, picked).query) == []
  {
  }

  /** What `validateCustomSkill` accepts. */
  predicate CustomAcceptable(parse: UrlParser, name: string, icon: string) {
    NameMin <= |name| <= NameMax && ValidateUrl(parse, icon)
  }

  /** `validateCustomSkill`: the first rule that fails names the problem. */
  function ValidateCustomSkill(parse: UrlParser, name: string, icon: string): (r: Option<string>)
    ensures r.None? <==> CustomAcceptable(parse, name, icon)
    ensures r == Some(NameTooShort) <==> |name| < NameMin
    ensures r == Some(NameTooLong) <==> |name| > NameMax
    ensures r == Some(IconRequired) <==> NameMin <= |name| <= NameMax && icon == ""
    ensures r == Some(InvalidIcon) <==> NameMin <= |name| <= NameMax && icon != "" && !ValidateUrl(parse, icon)
  {
    if |name| < NameMin then Some(NameTooShort)
    else if |name| > NameMax then Some(NameTooLong)
    else if icon == "" then Some(IconRequired)
    else if !ValidateUrl(parse, icon) then Some(InvalidIcon)
    else None
  }

  /** `handleSave`: in the search tab any skill with a name and an icon is
      handed on; in the custom tab the custom rules apply. An accepted skill
      is handed on unchanged. */
  function HandleSave(parse: UrlParser, mode: Mode, skill: Skill): (r: Step<Skill>)
    ensures !r.Ignored?
    ensures r.Accepted? ==> r.value == skill
    ensures mode == SearchTab ==> (r.Accepted? <==> skill.name != "" && skill.icon != "")
    ensures mode == SearchTab && r.Refused? ==> r.message == NothingSelected
    ensures mode == CustomTab ==> (r.Accepted? <==> CustomAcceptable(parse, skill.name, skill.icon))
    ensures mode == CustomTab && r.Refused? ==> Some(r.message) == ValidateCustomSkill(parse, skill.name, skill.icon)
  {
    match mode
    case SearchTab =>
      if skill.name == "" || skill.icon == "" then Refused(NothingSelected) else Accepted(skill)
    case CustomTab =>
      match ValidateCustomSkill(parse, skill.name, skill.icon)
      case Some(message) => Refused(message)
      case None => Accepted(skill)
  }

  /** The custom tab is the stricter one: a skill it accepts, the search tab
      accepts too. */
  lemma CustomStricterThanSearch(parse: UrlParser, skill: Skill)
    requires HandleSave(parse, CustomTab, skill).Accepted?
    ensures HandleSave(parse, SearchTab, skill).Accepted?
  {
  }

  /** A catalogue entry with a name and an icon, picked from the results, is
      saved as picked. */
  lemma PickedIsSaved(parse: UrlParser, catalogue: seq<SkillCategory>, st: State, name: string, picked: Skill)
    requires st.query != "" && Listed(SearchResults(catalogue, st.query), name, picked)
    requires picked.name != "" && picked.icon != ""
    ensures Listed(catalogue, name, picked)
    ensures HandleSave(parse, SearchTab, HandleSelect(st, picked).skill) == Accepted(picked)
  {
  }
}

=== FILE: skill_icons.dfy ===
/** lib/skill-icons.ts: the catalogue of known skills offered by the skill
    form's search, and the formatter that turns the catalogue's keys
    (`versionControl`, `react_native`) into display names.

    `formatCategoryName` and `formatSkillName` have the same body and are
    modelled once, as `FormatName`. The icon tables themselves are data and
    enter as a parameter. */
module SkillIcons {
  import opened Text
  import opened Portfolio

  /** Neither an underscore nor an upper-case letter: a run of such
      characters never splits. */
  predicate Plain(s: string) {
    forall i | 0 <= i < |s| :: s[i] != '_' && !IsUpper(s[i])
  }

  /** A piece of the split: no underscore, and upper case at most at its start. */
  predicate IsPiece(w: string) {
    '_' !in w && (|w| > 0 ==> Plain(w[1..]))
  }

  /** The pieces run together. */
  function Concat(parts: seq<string>): string {
    if |parts| == 0 then "" else parts[0] + Concat(parts[1..])
  }

  /** `s` without its underscores. */
  function DropUnderscores(s: string): (r: string)
    ensures '_' !in r
  {
    if |s| == 0 then ""
    else if s[0] == '_' then DropUnderscores(s[1..])
    else [s[0]] + DropUnderscores(s[1..])
  }

  /** The scan behind `split(/(?=[A-Z])|_/)`, with `cur` the piece read so
      far: an underscore always ends the piece and is dropped; an upper-case
      letter ends a piece that is not empty (the look-ahead matches with zero
      width, and ECMAScript's split ignores an empty match at the start of a
      piece) and starts the next one. */
  function Scan(rest: string, cur: string): (parts: seq<string>)
    ensures |parts| >= 1
    decreases |rest|
  {
    if |rest| == 0 then [cur]
    else if rest[0] == '_' then [cur] + Scan(rest[1..], "")
    else if IsUpper(rest[0]) && cur != "" then [cur] + Scan(rest[1..], [rest[0]])
    else Scan(rest[1..], cur + [rest[0]])
  }

  /** Every piece of the scan is a piece: no underscore survives, and upper
      case only ever starts a piece. */
  lemma {:induction false} ScanPieces(rest: string, cur: string)
    requires IsPiece(cur)
    ensures forall k | 0 <= k < |Scan(rest, cur)| :: IsPiece(Scan(rest, cur)[k])
    decreases |rest|
  {
    if |rest| == 0 {
    } else if rest[0] == '_' {
      ScanPieces(rest[1..], "");
    } else if IsUpper(rest[0]) && cur != "" {
      assert IsPiece([rest[0]]);
      ScanPieces(rest[1..], [rest[0]]);
    } else {
      var next := cur + [rest[0]];
      assert next[1..] == if |cur| == 0 then [] else cur[1..] + [rest[0]];
      ScanPieces(rest[1..], next);
    }
  }

  /** The scan loses nothing but underscores. */
  lemma {:induction false} ScanConcat(rest: string, cur: string)
    ensures Concat(Scan(rest, cur)) == cur + DropUnderscores(rest)
    decreases |rest|
  {
    if |rest| == 0 {
      assert Concat([cur]) == cur + Concat([]);
    } else if rest[0] == '_' {
      ScanConcat(rest[1..], "");
      ScanConcatStep(rest, cur, Scan(rest[1..], ""), DropUnderscores(rest[1..]));
    } else if IsUpper(rest[0]) && cur != "" {
      ScanConcat(rest[1..], [rest[0]]);
      ScanConcatStep(rest, cur, Scan(rest[1..], [rest[0]]), [rest[0]] + DropUnderscores(rest[1..]));
    } else {
      ScanConcat(rest[1..], cur + [rest[0]]);
      assert (cur + [rest[0]]) + DropUnderscores(rest[1..]) == cur + ([rest[0]] + DropUnderscores(rest[1..]));
    }
  }

  /** A step of `ScanConcat` that ends the current piece. */
  lemma ScanConcatStep(rest: string, cur: string, later: seq<string>, dropped: string)
    requires |rest| > 0 && (rest[0] == '_' || (IsUpper(rest[0]) && cur != ""))
    requires Scan(rest, cur) == [cur] + later
    requires Concat(later) == dropped
    requires DropUnderscores(rest) == dropped
    ensures Concat(Scan(rest, cur)) == cur + DropUnderscores(rest)
  {
    assert ([cur] + later)[1..] == later;
  }

  /** `name.split(/(?=[A-Z])|_/)`: at least one piece; every piece free of
      underscores with upper case only at its start; and the pieces run
      together give the name back without its underscores. */
  function Words(name: string): (parts: seq<string>)
    ensures |parts| >= 1
    ensures forall k | 0 <= k < |parts| :: IsPiece(parts[k])
    ensures Concat(parts) == DropUnderscores(name)
  {
    ScanPieces(name, "");
    ScanConcat(name, "");
    Scan(name, "")
  }

  /** `word.charAt(0).toUpperCase() + word.slice(1).toLowerCase()`. */
  function Capitalize(word: string): (r: string)
    ensures |r| == |word|
    ensures |word| > 0 ==> r[0] == UpperChar(word[0]) && r[1..] == Lower(word[1..])
  {
    if |word| == 0 then "" else [UpperChar(word[0])] + Lower(word[1..])
  }

  /** `formatCategoryName` / `formatSkillName`: the pieces, each capitalised,
      joined with single spaces. */
  function FormatName(name: string): (r: string)
  {
    Join(CapitalizeAll(Words(name)), ' ')
  }

  /** The name shown is as long as the key without its underscores, plus
      one space between each two pieces. */
  lemma FormatNameLength(name: string)
    ensures |FormatName(name)| == |DropUnderscores(name)| + |Words(name)| - 1
  {
    var words := Words(name);
    CapitalizedLength(words);
    JoinLength(CapitalizeAll(words), ' ');
  }

  /** Joining adds one separator between each two parts. */
  lemma {:induction false} JoinLength(parts: seq<string>, sep: char)
    requires |parts| >= 1
    ensures |Join(parts, sep)| == |Concat(parts)| + |parts| - 1
    decreases |parts|
  {
    if |parts| > 1 {
      JoinLength(parts[1..], sep);
    }
  }

  /** Capitalising keeps the total length of the pieces. */
  lemma {:induction false} CapitalizedLength(words: seq<string>)
    ensures |Concat(CapitalizeAll(words))| == |Concat(words)|
    decreases |words|
  {
    if |words| > 0 {
      CapitalizedLength(words[1..]);
      assert CapitalizeAll(words)[1..] == CapitalizeAll(words[1..]);
    }
  }

  /** `words.map(capitalize)`. */
  function CapitalizeAll(words: seq<string>): (r: seq<string>)
    ensures |r| == |words|
    ensures forall k | 0 <= k < |words| :: r[k] == Capitalize(words[k])
  {
    seq(|words|, k requires 0 <= k < |words| => Capitalize(words[k]))
  }

  /** Plain characters never end a piece. */
  lemma {:induction false} ScanPlain(w: string, rest: string, cur: string)
    requires Plain(w)
    ensures Scan(w + rest, cur) == Scan(rest, cur + w)
  {
    if |w| == 0 {
      assert w + rest == rest;
      assert cur + w == cur;
    } else {
      var next := cur + [w[0]];
      assert (w + rest)[0] == w[0] && w[0] != '_' && !IsUpper(w[0]);
      assert (w + rest)[1..] == w[1..] + rest;
      assert Plain(w[1..]);
      assert Scan(w + rest, cur) == Scan(w[1..] + rest, next);
      ScanPlain(w[1..], rest, next);
      assert next + w[1..] == cur + w;
    }
  }

  /** A camel-case piece: an upper-case letter followed by plain characters. */
  predicate Hump(p: string) {
    |p| > 0 && IsUpper(p[0]) && Plain(p[1..])
  }

  lemma {:induction false} ScanHumps(humps: seq<string>, cur: string)
    requires cur != ""
    requires forall k | 0 <= k < |humps| :: Hump(humps[k])
    ensures Scan(Concat(humps), cur) == [cur] + humps
  {
    if |humps| > 0 {
      var p := humps[0];
      var tail := Concat(humps[1..]);
      assert Concat(humps) == [p[0]] + (p[1..] + tail);
      ScanPlain(p[1..], tail, [p[0]]);
      assert [p[0]] + p[1..] == p;
      ScanHumps(humps[1..], p);
      assert humps == [p] + humps[1..];
    }
  }

  /** A camel-case key splits into its humps: a plain first word, then each
      word that starts with an upper-case letter. */
  lemma CamelCaseWords(first: string, humps: seq<string>)
    requires first != "" && Plain(first)
    requires forall k | 0 <= k < |humps| :: Hump(humps[k])
    ensures Words(first + Concat(humps)) == [first] + humps
  {
    ScanPlain(first, Concat(humps), "");
    assert "" + first == first;
    ScanHumps(humps, first);
  }

  lemma {:induction false} ScanSnake(pieces: seq<string>, cur: string)
    requires |pieces| >= 1
    requires forall k | 0 <= k < |pieces| :: Plain(pieces[k])
    ensures Scan(Join(pieces, '_'), cur) == [cur + pieces[0]] + pieces[1..]
  {
    if |pieces| == 1 {
      ScanPlain(pieces[0], "", cur);
      assert pieces[0] + "" == pieces[0];
    } else {
      var tail := Join(pieces[1..], '_');
      assert Join(pieces, '_') == pieces[0] + (['_'] + tail);
      ScanPlain(pieces[0], ['_'] + tail, cur);
      assert (['_'] + tail)[1..] == tail;
      ScanSnake(pieces[1..], "");
      assert "" + pieces[1] == pieces[1];
      assert pieces[1..] == [pieces[1]] + pieces[2..];
    }
  }

  /** A snake-case key splits at its underscores, and only there. */
  lemma SnakeCaseWords(pieces: seq<string>)
    requires |pieces| >= 1
    requires forall k | 0 <= k < |pieces| :: Plain(pieces[k])
    ensures Words(Join(pieces, '_')) == pieces
  {
    ScanSnake(pieces, "");
    assert "" + pieces[0] == pieces[0];
    assert pieces == [pieces[0]] + pieces[1..];
  }

  /** A key with neither underscores nor upper-case letters stays one word,
      capitalised. */
  lemma PlainKeyIsOneWord(name: string)
    requires name != "" && Plain(name)
    ensures Words(name) == [name]
    ensures FormatName(name) == Capitalize(name)
  {
    CamelCaseWords(name, []);
    assert name + Concat([]) == name;
  }

  /** Capitalising a piece only touches its first character: the rest has
      no upper-case letter to lower. */
  lemma CapitalizePiece(w: string)
    requires w != "" && IsPiece(w)
    ensures Capitalize(w) == [UpperChar(w[0])] + w[1..]
  {
    assert Lower(w[1..]) == w[1..];
  }

  /** A two-word camel-case key is displayed as its two words, each
      capitalised, with one space between them. */
  lemma TwoWordName(first: string, hump: string)
    requires first != "" && Plain(first) && Hump(hump)
    ensures FormatName(first + hump) == Capitalize(first) + " " + Capitalize(hump)
  {
    CamelCaseWords(first, [hump]);
    assert first + Concat([hump]) == first + hump;
    var caps := CapitalizeAll(Words(first + hump));
    assert caps == [Capitalize(first), Capitalize(hump)];
    assert caps[1..] == [Capitalize(hump)];
    assert Join(caps[1..], ' ') == Capitalize(hump);
    assert Join(caps, ' ') == Capitalize(first) + [' '] + Capitalize(hump);
  }

  /** `versionControl` is displayed as `Version Control`. */
  lemma VersionControl(name: string)
    requires name == "versionControl"
    ensures FormatName(name) == "Version Control"
  {
    var first, hump := "version", "Control";
    assert first + hump == name;
    VersionWord(first);
    ControlWord(hump);
    TwoWordName(first, hump);
  }

  lemma VersionWord(w: string)
    requires w == "version"
    ensures Plain(w) && Capitalize(w) == "Version"
  {
    CapitalizePiece(w);
    assert UpperChar('v') == 'V';
  }

  lemma ControlWord(w: string)
    requires w == "Control"
    ensures Hump(w) && Capitalize(w) == "Control"
  {
    CapitalizePiece(w);
    assert UpperChar('C') == 'C';
  }

  /** One entry of an icon table: the key and the icon address. */
  datatype IconEntry = IconEntry(key: string, url: string)

  /** One table of `icons`: its key and its entries, in insertion order. */
  datatype IconTable = IconTable(key: string, entries: seq<IconEntry>)

  /** `getAllSkills`: one category per table, in order, named after the
      table's key; one skill per entry, named after the entry's key, with the
      icon address unchanged. */
  function AllSkills(tables: seq<IconTable>): (r: seq<SkillCategory>)
    ensures |r| == |tables|
    ensures forall k | 0 <= k < |tables| ::
      && r[k].category == FormatName(tables[k].key)
      && |r[k].items| == |tables[k].entries|
      && forall j | 0 <= j < |tables[k].entries| ::
           r[k].items[j] == Skill(FormatName(tables[k].entries[j].key), tables[k].entries[j].url)
  {
    seq(|tables|, k requires 0 <= k < |tables| =>
      var entries := tables[k].entries;
      SkillCategory(FormatName(tables[k].key),
        seq(|entries|, j requires 0 <= j < |entries| => Skill(FormatName(entries[j].key), entries[j].url))))
  }
}

=== FILE: skills_editor.dfy ===
/** components/skills-editor.tsx: saving and deleting skill categories and
    the skills inside them, the delete confirmation, and the category dialog's
    state as the buttons drive it.

    The source edits a shallow copy of the list, so the category objects (and
    their skill arrays) are shared with the previous list and mutated in
    place; the model builds new values and describes the list handed to
    `onChange`. */
module SkillsEditor {
  import opened Wrappers
  import opened Seqs
  import opened Portfolio
  import opened Forms
  import opened Text
  import SkillCategoryForm

  /** `handleSaveCategory`: replace the category being edited, or append.
      `updatedSkills[i] = c` with `i` equal to the length appends too; an
      index past the length would leave holes in the array, which a list of
      categories cannot hold (see `Step`). */
  function SaveCategory(skills: seq<SkillCategory>, editingIndex: Option<nat>, c: SkillCategory): (r: seq<SkillCategory>)
    requires editingIndex.Some? ==> editingIndex.value <= |skills|
    ensures editingIndex.None? || editingIndex == Some(|skills|) ==> r == skills + [c]
    ensures editingIndex.Some? && editingIndex.value < |skills| ==>
      |r| == |skills| && r[editingIndex.value] == c
      && forall k | 0 <= k < |skills| && k != editingIndex.value :: r[k] == skills[k]
  {
    if editingIndex == Some(|skills|) then skills + [c] else Upsert(skills, editingIndex, c)
  }

  /** `handleDeleteCategory`: the category at the index goes, the others keep
      their order. */
  function DeleteCategory(skills: seq<SkillCategory>, index: nat): (r: seq<SkillCategory>)
    ensures index < |skills| ==> multiset(r) + multiset{skills[index]} == multiset(skills)
    ensures index < |skills| ==> r == skills[..index] + skills[index + 1..]
    ensures index >= |skills| ==> r == skills
  {
    RemoveAt(skills, index)
  }

  /** Deleting the category just added gives the list back. */
  lemma AddThenDeleteCategory(skills: seq<SkillCategory>, c: SkillCategory)
    ensures DeleteCategory(SaveCategory(skills, None, c), |skills|) == skills
  {
    assert (skills + [c])[..|skills|] == skills;
  }

  /** `handleSaveSkill`: without a selected category nothing happens;
      otherwise, inside the selected category only, the skill replaces the
      one being edited or is appended. Every other category, and the selected
      category's name, are unchanged. */
  function SaveSkill(skills: seq<SkillCategory>, selected: Option<nat>, editingIndex: Option<nat>, s: Skill): (r: seq<SkillCategory>)
    requires selected.Some? ==> selected.value < |skills|
    requires selected.Some? && editingIndex.Some? ==> editingIndex.value < |skills[selected.value].items|
    ensures selected.None? ==> r == skills
    ensures |r| == |skills|
    ensures forall k | 0 <= k < |skills| :: r[k].category == skills[k].category
    ensures forall k | 0 <= k < |skills| && selected != Some(k) :: r[k] == skills[k]
    ensures selected.Some? && editingIndex.None? ==> r[selected.value].items == skills[selected.value].items + [s]
    ensures selected.Some? && editingIndex.Some? ==>
      var items := skills[selected.value].items;
      |r[selected.value].items| == |items| && r[selected.value].items[editingIndex.value] == s
      && forall j | 0 <= j < |items| && j != editingIndex.value :: r[selected.value].items[j] == items[j]
  {
    match selected
    case None => skills
    case Some(ci) =>
      var c := skills[ci];
      skills[ci := c.(items := Upsert(c.items, editingIndex, s))]
  }

  /** `handleDeleteSkill`: inside the given category only, the skill at the
      index goes; every other category is unchanged. */
  function DeleteSkill(skills: seq<SkillCategory>, categoryIndex: nat, skillIndex: nat): (r: seq<SkillCategory>)
    requires categoryIndex < |skills|
    ensures |r| == |skills|
    ensures r[categoryIndex] == skills[categoryIndex].(items := RemoveAt(skills[categoryIndex].items, skillIndex))
    ensures forall k | 0 <= k < |skills| && k != categoryIndex :: r[k] == skills[k]
  {
    var c := skills[categoryIndex];
    skills[categoryIndex := c.(items := RemoveAt(c.items, skillIndex))]
  }

  /** Deleting the skill just added to a category gives the list back. */
  lemma AddThenDeleteSkill(skills: seq<SkillCategory>, categoryIndex: nat, s: Skill)
    requires categoryIndex < |skills|
    ensures var added := SaveSkill(skills, Some(categoryIndex), None, s);
      DeleteSkill(added, categoryIndex, |skills[categoryIndex].items|) == skills
  {
    var items := skills[categoryIndex].items;
    assert (items + [s])[..|items|] == items;
    var added := SaveSkill(skills, Some(categoryIndex), None, s);
    var back := DeleteSkill(added, categoryIndex, |items|);
    assert back[categoryIndex] == skills[categoryIndex];
    assert forall k | 0 <= k < |skills| :: back[k] == skills[k];
  }

  /** What the delete confirmation was opened for. */
  datatype DeleteKind = CategoryDelete | SkillDelete

  /** The skill a confirmation was opened for: its category and its place there. */
  datatype SkillRef = SkillRef(category: nat, skill: nat)

  /** The Delete button of the confirmation: a category delete needs its
      index, a skill delete its pair of indices; anything else deletes nothing. */
  function ConfirmDelete(skills: seq<SkillCategory>, kind: Option<DeleteKind>,
                         categoryIndex: Option<nat>, skillRef: Option<SkillRef>): (r: seq<SkillCategory>)
    requires kind == Some(SkillDelete) && skillRef.Some? ==> skillRef.value.category < |skills|
    ensures kind == Some(CategoryDelete) && categoryIndex.Some? ==> r == DeleteCategory(skills, categoryIndex.value)
    ensures kind == Some(SkillDelete) && skillRef.Some? ==>
      r == DeleteSkill(skills, skillRef.value.category, skillRef.value.skill)
    ensures (|| kind.None?
             || (kind == Some(CategoryDelete) && categoryIndex.None?)
             || (kind == Some(SkillDelete) && skillRef.None?)) ==> r == skills
  {
    if kind == Some(CategoryDelete) && categoryIndex.Some? then
      DeleteCategory(skills, categoryIndex.value)
    else if kind == Some(SkillDelete) && skillRef.Some? then
      DeleteSkill(skills, skillRef.value.category, skillRef.value.skill)
    else skills
  }

  /** The category dialog's state: open or not, the category in the form
      (`null` until something is typed or an edit is started), the index
      being edited, and the message under the form. */
  datatype CategoryDialog = CategoryDialog(
    open: bool,
    editing: Option<SkillCategory>,
    editingIndex: Option<nat>,
    error: Option<string>)

  /** The list and the category dialog together. */
  datatype Editor = Editor(skills: seq<SkillCategory>, dialog: CategoryDialog)

  /** What the user does around the category dialog: the Add Category
      button, a category's edit button, the Delete button of a category's
      delete confirmation, closing the dialog by clicking outside it or
      pressing Escape, the Cancel button, typing a name, the Save button. */
  datatype CategoryEvent =
    | AddPressed
    | EditPressed(index: nat)
    | CategoryDeleted(index: nat)
    | Dismissed
    | Cancelled
    | NameTyped(name: string)
    | SavePressed

  /** The events that come from inside the open dialog. */
  predicate InDialog(ev: CategoryEvent) {
    ev.Dismissed? || ev.Cancelled? || ev.NameTyped? || ev.SavePressed?
  }

  /** The form accepts the name: 3 to 50 characters. */
  predicate NameInRange(name: string) {
    SkillCategoryForm.CategoryMin <= |name| <= SkillCategoryForm.CategoryMax
  }

  /** While the dialog is open, the index being edited points into the list. */
  predicate WellFormed(ed: Editor) {
    ed.dialog.open && ed.dialog.editingIndex.Some? ==> ed.dialog.editingIndex.value < |ed.skills|
  }

  /** An event the page can produce: the dialog is modal, so its own events
      happen exactly while it is open and the page's buttons exactly while
      it is closed; edit and delete buttons belong to a category that is
      shown; and the Save button is disabled while the name is blank. */
  predicate Possible(ed: Editor, ev: CategoryEvent) {
    && (InDialog(ev) <==> ed.dialog.open)
    && (ev.EditPressed? ==> ev.index < |ed.skills|)
    && (ev.CategoryDeleted? ==> ev.index < |ed.skills|)
    && (ev.SavePressed? ==> !IsBlank(Shown(ed.dialog).category))
  }

  /** The category the form shows: `editingCategory || { category: "", items: [] }`. */
  function Shown(d: CategoryDialog): (c: SkillCategory)
    ensures d.editing.Some? ==> c == d.editing.value
    ensures d.editing.None? ==> c == SkillCategory("", [])
  {
    d.editing.GetOr(SkillCategory("", []))
  }

  /** The dialog as written. The Add Category button only opens the dialog:
      the category and index left behind by an edit that was dismissed
      rather than cancelled are still there, and deleting a category does
      not touch them either. A save whose index has fallen past the end of
      the list would give JavaScript an array with holes; the model answers
      None for it. */
  function Step(ed: Editor, ev: CategoryEvent): (r: Option<Editor>)
    requires Possible(ed, ev)
    ensures r.None? <==>
      && ev.SavePressed? && NameInRange(Shown(ed.dialog).category)
      && ed.dialog.editingIndex.Some? && ed.dialog.editingIndex.value > |ed.skills|
    ensures r.Some? && !ev.SavePressed? && !ev.CategoryDeleted? ==> r.value.skills == ed.skills
    ensures ev.CategoryDeleted? ==> r == Some(ed.(skills := DeleteCategory(ed.skills, ev.index)))
    ensures ev == AddPressed ==> r == Some(ed.(dialog := ed.dialog.(open := true)))
    ensures ev.EditPressed? ==> r == Some(ed.(dialog := CategoryDialog(true, Some(ed.skills[ev.index]), Some(ev.index), None)))
    ensures ev == Dismissed ==> r == Some(ed.(dialog := ed.dialog.(open := false)))
    ensures ev == Cancelled ==> r == Some(ed.(dialog := CategoryDialog(false, None, None, ed.dialog.error)))
    ensures ev.NameTyped? ==>
      && r.Some? && Shown(r.value.dialog).category == ev.name && r.value.dialog.error.None?
      && r.value.dialog.open && r.value.dialog.editingIndex == ed.dialog.editingIndex
    ensures ev.SavePressed? && !NameInRange(Shown(ed.dialog).category) ==>
      r == Some(ed.(dialog := ed.dialog.(error := SkillCategoryForm.ValidateCategory(Shown(ed.dialog).category))))
    ensures ev.SavePressed? && NameInRange(Shown(ed.dialog).category) && r.Some? ==>
      && r.value.skills == SaveCategory(ed.skills, ed.dialog.editingIndex, Shown(ed.dialog))
      && r.value.dialog == CategoryDialog(false, None, None, None)
  {
    var d := ed.dialog;
    match ev
    case AddPressed => Some(ed.(dialog := d.(open := true)))
    case EditPressed(i) => Some(ed.(dialog := CategoryDialog(true, Some(ed.skills[i]), Some(i), None)))
    case CategoryDeleted(i) => Some(ed.(skills := DeleteCategory(ed.skills, i)))
    case Dismissed => Some(ed.(dialog := d.(open := false)))
    case Cancelled => Some(ed.(dialog := CategoryDialog(false, None, None, d.error)))
    case NameTyped(name) => Some(ed.(dialog := d.(editing := Some(Shown(d).(category := name)), error := None)))
    case SavePressed =>
      match SkillCategoryForm.HandleSave(Shown(d))
      case Accepted(_) =>
        (match d.editing
         case Some(c) =>
           if d.editingIndex.Some? && d.editingIndex.value > |ed.skills| then None
           else Some(Editor(SaveCategory(ed.skills, d.editingIndex, c), CategoryDialog(false, None, None, None)))
         case None => Some(ed))
      case Refused(message) => Some(ed.(dialog := d.(error := Some(message))))
      case Ignored => Some(ed)
  }

  /** Corrected: the Add Category button starts from an empty form and no
      editing index, as the Add Skill button already does for skills. Then
      the index is only ever used while it points into the list, and no save
      is lost. */
  function StepCorrected(ed: Editor, ev: CategoryEvent): (r: Option<Editor>)
    requires WellFormed(ed) && Possible(ed, ev)
    ensures r.Some? && WellFormed(r.value)
    ensures !ev.SavePressed? && !ev.CategoryDeleted? ==> r.value.skills == ed.skills
    ensures ev == AddPressed ==> r == Some(ed.(dialog := CategoryDialog(true, None, None, ed.dialog.error)))
    ensures ev != AddPressed ==> r == Step(ed, ev)
  {
    if ev == AddPressed then Some(ed.(dialog := CategoryDialog(true, None, None, ed.dialog.error)))
    else Step(ed, ev)
  }

  /** As written: edit the first category, dismiss the dialog, press Add
      Category, type a valid name and save. The first category is renamed
      (keeping its skills) and nothing is added. */
  lemma AddAfterDismissedEditOverwrites(ed: Editor, name: string)
    requires !ed.dialog.open && |ed.skills| >= 1
    requires NameInRange(name) && !IsBlank(name)
    ensures var e1 := Step(ed, EditPressed(0)).value;
      var e2 := Step(e1, Dismissed).value;
      var e3 := Step(e2, AddPressed).value;
      var e4 := Step(e3, NameTyped(name)).value;
      var e5 := Step(e4, SavePressed);
      && e5.Some?
      && |e5.value.skills| == |ed.skills|
      && e5.value.skills[0] == SkillCategory(name, ed.skills[0].items)
      && e5.value.skills[1..] == ed.skills[1..]
  {
    var e1 := Step(ed, EditPressed(0)).value;
    var e2 := Step(e1, Dismissed).value;
    var e3 := Step(e2, AddPressed).value;
    var e4 := Step(e3, NameTyped(name)).value;
    assert e4.dialog.editing == Some(SkillCategory(name, ed.skills[0].items));
    assert e4.dialog.editingIndex == Some(0);
  }

  /** As written: edit the first of at least two categories, dismiss the
      dialog, delete that category, press Add Category, type a valid name
      and save. The stale index now points at what was the second category:
      it is overwritten by the deleted one's skills under the new name. */
  lemma DeleteAfterDismissedEditOverwritesNext(ed: Editor, name: string)
    requires !ed.dialog.open && |ed.skills| >= 2
    requires NameInRange(name) && !IsBlank(name)
    ensures var e1 := Step(ed, EditPressed(0)).value;
      var e2 := Step(e1, Dismissed).value;
      var e3 := Step(e2, CategoryDeleted(0)).value;
      var e4 := Step(e3, AddPressed).value;
      var e5 := Step(e4, NameTyped(name)).value;
      Step(e5, SavePressed) == Some(Editor([SkillCategory(name, ed.skills[0].items)] + ed.skills[2..], CategoryDialog(false, None, None, None)))
  {
    var e1 := Step(ed, EditPressed(0)).value;
    var e2 := Step(e1, Dismissed).value;
    var e3 := Step(e2, CategoryDeleted(0)).value;
    assert e3.skills == ed.skills[1..];
    var e4 := Step(e3, AddPressed).value;
    var e5 := Step(e4, NameTyped(name)).value;
    assert e5.dialog.editing == Some(SkillCategory(name, ed.skills[0].items));
    assert e5.dialog.editingIndex == Some(0);
    assert Step(e5, SavePressed).value.skills == ed.skills[1..][0 := SkillCategory(name, ed.skills[0].items)];
    assert ed.skills[1..][0 := SkillCategory(name, ed.skills[0].items)] == [SkillCategory(name, ed.skills[0].items)] + ed.skills[2..];
  }

  /** As written: edit the last category, dismiss the dialog, delete that
      category, press Add Category, type a valid name and save. The stale
      index equals the new length, so the save appends: the deleted
      category's skills come back under the new name. */
  lemma DeletedCategoryComesBack(ed: Editor, name: string)
    requires !ed.dialog.open && |ed.skills| >= 1
    requires NameInRange(name) && !IsBlank(name)
    ensures var i := |ed.skills| - 1;
      var e1 := Step(ed, EditPressed(i)).value;
      var e2 := Step(e1, Dismissed).value;
      var e3 := Step(e2, CategoryDeleted(i)).value;
      var e4 := Step(e3, AddPressed).value;
      var e5 := Step(e4, NameTyped(name)).value;
      Step(e5, SavePressed) == Some(Editor(ed.skills[..i] + [SkillCategory(name, ed.skills[i].items)], CategoryDialog(false, None, None, None)))
  {
    var i := |ed.skills| - 1;
    var e1 := Step(ed, EditPressed(i)).value;
    var e2 := Step(e1, Dismissed).value;
    var e3 := Step(e2, CategoryDeleted(i)).value;
    assert e3.skills == ed.skills[..i];
    var e4 := Step(e3, AddPressed).value;
    var e5 := Step(e4, NameTyped(name)).value;
    assert e5.dialog.editing == Some(SkillCategory(name, ed.skills[i].items));
    assert e5.dialog.editingIndex == Some(|e5.skills|);
  }

  /** As written: edit the last of at least two categories, dismiss the
      dialog, delete the first category twice, press Add Category, type a
      valid name and save. The stale index is past the end of the list, so
      the array handed on would have a hole. */
  lemma DeletesLeaveIndexPastEnd(ed: Editor, name: string)
    requires !ed.dialog.open && |ed.skills| >= 2
    requires NameInRange(name) && !IsBlank(name)
    ensures var i := |ed.skills| - 1;
      var e1 := Step(ed, EditPressed(i)).value;
      var e2 := Step(e1, Dismissed).value;
      var e3 := Step(e2, CategoryDeleted(0)).value;
      var e4 := Step(e3, CategoryDeleted(0)).value;
      var e5 := Step(e4, AddPressed).value;
      var e6 := Step(e5, NameTyped(name)).value;
      Step(e6, SavePressed).None?
  {
    var i := |ed.skills| - 1;
    var e1 := Step(ed, EditPressed(i)).value;
    var e2 := Step(e1, Dismissed).value;
    var e3 := Step(e2, CategoryDeleted(0)).value;
    assert |e3.skills| == i;
    var e4 := Step(e3, CategoryDeleted(0)).value;
    assert |e4.skills| == i - 1;
    var e5 := Step(e4, AddPressed).value;
    var e6 := Step(e5, NameTyped(name)).value;
    assert e6.dialog.editingIndex == Some(i);
  }

  /** Corrected: whatever state the closed dialog was left in, Add Category,
      a valid name and Save append one empty category with that name. */
  lemma AddAppends(ed: Editor, name: string)
    requires WellFormed(ed) && !ed.dialog.open
    requires NameInRange(name) && !IsBlank(name)
    ensures var e1 := StepCorrected(ed, AddPressed).value;
      var e2 := StepCorrected(e1, NameTyped(name)).value;
      StepCorrected(e2, SavePressed).value.skills == ed.skills + [SkillCategory(name, [])]
  {
    var e1 := StepCorrected(ed, AddPressed).value;
    var e2 := StepCorrected(e1, NameTyped(name)).value;
    assert e2.dialog.editing == Some(SkillCategory(name, []));
    assert e2.dialog.editingIndex.None?;
  }

  /** Corrected, the run of `DeleteAfterDismissedEditOverwritesNext`: the
      first category is deleted and a new empty one is appended; the second
      one is kept. */
  lemma DeleteAfterDismissedEditAppends(ed: Editor, name: string)
    requires !ed.dialog.open && |ed.skills| >= 2
    requires NameInRange(name) && !IsBlank(name)
    ensures var e1 := StepCorrected(ed, EditPressed(0)).value;
      var e2 := StepCorrected(e1, Dismissed).value;
      var e3 := StepCorrected(e2, CategoryDeleted(0)).value;
      var e4 := StepCorrected(e3, AddPressed).value;
      var e5 := StepCorrected(e4, NameTyped(name)).value;
      StepCorrected(e5, SavePressed).value.skills == ed.skills[1..] + [SkillCategory(name, [])]
  {
    var e1 := StepCorrected(ed, EditPressed(0)).value;
    var e2 := StepCorrected(e1, Dismissed).value;
    var e3 := StepCorrected(e2, CategoryDeleted(0)).value;
    assert e3.skills == ed.skills[1..];
    AddAppends(e3, name);
  }

  /** In either version a name the form refuses (one not blank, since Save
      is disabled for a blank name) changes nothing in the list, keeps the
      dialog as it was and shows the form's message. */
  lemma RefusedNameKeepsList(ed: Editor)
    requires WellFormed(ed) && Possible(ed, SavePressed)
    requires !NameInRange(Shown(ed.dialog).category)
    ensures Step(ed, SavePressed).value.skills == ed.skills
    ensures StepCorrected(ed, SavePressed).value.skills == ed.skills
    ensures Step(ed, SavePressed).value.dialog == ed.dialog.(error := SkillCategoryForm.ValidateCategory(Shown(ed.dialog).category))
    ensures Step(ed, SavePressed).value.dialog.error.Some?
  {
  }

  /** Typing after a refused save clears the message. */
  lemma TypingClearsMessage(ed: Editor, name: string)
    requires Possible(ed, SavePressed)
    requires !NameInRange(Shown(ed.dialog).category)
    ensures var e1 := Step(ed, SavePressed).value;
      var e2 := Step(e1, NameTyped(name)).value;
      e1.dialog.error.Some? && e2.dialog.error.None? && Shown(e2.dialog).category == name
  {
  }
}

=== FILE: social.dfy ===
/** lib/social-utils.ts: recognising the platform of a social address,
    its icon, completing it, and checking it. */
module Social {
  import opened Wrappers
  import opened Text
  import opened Portfolio
  import opened Utils

  /** A non-empty run matched by `[^\s@]+`. */
  predicate Plain(s: string) {
    |s| > 0 && forall i | 0 <= i < |s| :: !IsWhitespace(s[i]) && s[i] != '@'
  }

  /** One way the regular expression `^[^\s@]+@[^\s@]+\.[^\s@]+$` can match:
      the `@` at `at` and the literal dot at `dot`. */
  predicate EmailMatchAt(s: string, at: int, dot: int) {
    && 0 < at < dot < |s|
    && s[at] == '@' && s[dot] == '.'
    && Plain(s[..at]) && Plain(s[at + 1..dot]) && Plain(s[dot + 1..])
  }

  /** `/^[^\s@]+@[^\s@]+\.[^\s@]+$/.test(s)`: some choice of the `@` and the
      dot makes the three runs match (the engine backtracks over the dot). */
  predicate IsEmail(s: string) {
    exists at, dot | 0 < at < dot < |s| :: EmailMatchAt(s, at, dot)
  }

  /** The same language described without the regular expression: no
      whitespace, exactly one `@` and not at the start, and a dot after it
      with at least one character on each side. */
  predicate EmailShape(s: string) {
    && (forall i | 0 <= i < |s| :: !IsWhitespace(s[i]))
    && '@' in s
    && var at := IndexOf(s, '@');
      && at > 0
      && '@' !in s[at + 1..]
      && exists d | at + 1 < d < |s| - 1 :: s[d] == '.'
  }

  /** The regular expression accepts exactly the strings of `EmailShape`. */
  lemma EmailIffShape(s: string)
    ensures IsEmail(s) <==> EmailShape(s)
  {
    if IsEmail(s) {
      EmailHasShape(s);
    }
    if EmailShape(s) {
      ShapeIsEmail(s);
    }
  }

  lemma EmailHasShape(s: string)
    requires IsEmail(s)
    ensures EmailShape(s)
  {
    var at, dot :| 0 < at < dot < |s| && EmailMatchAt(s, at, dot);
    var user, domain, top := s[..at], s[at + 1..dot], s[dot + 1..];
    forall i | 0 <= i < |s|
      ensures !IsWhitespace(s[i]) && (i != at ==> s[i] != '@')
    {
      if i < at {
        assert s[i] == user[i];
      } else if at < i < dot {
        assert s[i] == domain[i - at - 1];
      } else if dot < i {
        assert s[i] == top[i - dot - 1];
      }
    }
    IndexOfUnique(s, '@', at);
    var afterAt := s[at + 1..];
    assert forall j | 0 <= j < |afterAt| :: afterAt[j] == s[at + 1 + j];
    assert |domain| > 0 && |top| > 0;
  }

  lemma ShapeIsEmail(s: string)
    requires EmailShape(s)
    ensures IsEmail(s)
  {
    var at := IndexOf(s, '@');
    var d :| at + 1 < d < |s| - 1 && s[d] == '.';
    assert forall i | at < i < |s| :: s[i] == s[at + 1..][i - at - 1];
    assert EmailMatchAt(s, at, d);
  }

  /** `detectPlatform`: when the constructor accepts the address, its lower-cased
      host decides GitHub, LinkedIn or Twitter; otherwise, or when no host
      name matches, the email pattern decides between email and custom. */
  function DetectPlatform(parse: UrlParser, url: string): (r: Platform)
    ensures r == Email ==> IsEmail(url)
    ensures r in {Github, Linkedin, Twitter} ==> parse(url).Some?
    ensures r == Github <==> parse(url).Some? && Contains(Lower(parse(url).value), "github.com")
    ensures r == Linkedin <==>
      && parse(url).Some? && !Contains(Lower(parse(url).value), "github.com")
      && Contains(Lower(parse(url).value), "linkedin.com")
    ensures r == Twitter <==>
      && parse(url).Some? && !Contains(Lower(parse(url).value), "github.com")
      && !Contains(Lower(parse(url).value), "linkedin.com") && Contains(Lower(parse(url).value), "twitter.com")
    ensures parse(url).Some? ==>
      (r == Email <==>
        && !Contains(Lower(parse(url).value), "github.com") && !Contains(Lower(parse(url).value), "linkedin.com")
        && !Contains(Lower(parse(url).value), "twitter.com") && IsEmail(url))
    ensures parse(url).None? ==> (r == Email <==> IsEmail(url)) && r in {Email, Custom}
  {
    match parse(url)
    case Some(hostname) =>
      var domain := Lower(hostname);
      if Contains(domain, "github.com") then Github
      else if Contains(domain, "linkedin.com") then Linkedin
      else if Contains(domain, "twitter.com") then Twitter
      else if IsEmail(url) then Email
      else Custom
    case None =>
      if IsEmail(url) then Email else Custom
  }

  /** `getPlatformIcon`. */
  function PlatformIcon(platform: Platform): (icon: Icon)
    ensures IconFor(platform, icon)
  {
    match platform
    case Github => GithubIcon
    case Linkedin => LinkedinIcon
    case Twitter => TwitterIcon
    case Email => MailIcon
    case Custom => GlobeIcon
  }

  /** The icon chosen in the editor and the icon name written to the data
      file always agree, so a saved portfolio shows the same icons. */
  lemma IconAgreesWithSerializer(platform: Platform)
    ensures PlatformIcon(platform) == SerializedSocialIcon(platform)
  {
  }

  /** Distinct platforms get distinct icons. */
  lemma PlatformIconInjective(p: Platform, q: Platform)
    requires PlatformIcon(p) == PlatformIcon(q)
    ensures p == q
  {
  }

  /** `formatSocialUrl`: an email address gets `mailto:` in front; any other
      address that starts with neither `http` nor `mailto:` gets `https://`. */
  function FormatSocialUrl(url: string, platform: Platform): (r: string)
    ensures platform == Email ==> StartsWith(r, "mailto:")
    ensures platform != Email ==> StartsWith(r, "http") || StartsWith(r, "mailto:")
    ensures |url| <= |r| && r[|r| - |url|..] == url
    ensures r == url <==> StartsWith(url, "mailto:") || (platform != Email && StartsWith(url, "http"))
    ensures r != url ==> |r| == |url| + if platform == Email then 7 else 8
    ensures platform == Email && !StartsWith(url, "mailto:") ==> r == "mailto:" + url
    ensures platform != Email && !StartsWith(url, "http") && !StartsWith(url, "mailto:") ==> r == "https://" + url
  {
    if platform == Email && !StartsWith(url, "mailto:") then "mailto:" + url
    else if !StartsWith(url, "http") && !StartsWith(url, "mailto:") then "https://" + url
    else url
  }

  /** Completing a social address twice is the same as completing it once. */
  lemma FormatSocialUrlIdempotent(url: string, platform: Platform)
    ensures FormatSocialUrl(FormatSocialUrl(url, platform), platform) == FormatSocialUrl(url, platform)
  {
    var r := FormatSocialUrl(url, platform);
    if platform == Email && !StartsWith(url, "mailto:") {
      assert r[..7] == "mailto:";
    } else if !StartsWith(url, "http") && !StartsWith(url, "mailto:") {
      assert r[..4] == "http";
    }
  }

  /** `validateSocialUrl`: email addresses are checked against the email
      pattern; anything else against the URL constructor after `https://` is
      added to an address that does not start with `http`. */
  function ValidateSocialUrl(parse: UrlParser, url: string, platform: Platform): (ok: bool)
    ensures platform == Email ==> (ok <==> EmailShape(url))
  {
    EmailIffShape(url);
    if platform == Email then IsEmail(url)
    else
      var withWww := if StartsWith(url, "www.") then "https://" + url else url;
      parse(if StartsWith(withWww, "http") then withWww else "https://" + withWww).Some?
  }

  /** For a non-empty address on any platform but email, the social check
      and the general `validateUrl` agree. */
  lemma SocialCheckIsUrlCheck(parse: UrlParser, url: string, platform: Platform)
    requires url != "" && platform != Email
    ensures ValidateSocialUrl(parse, url, platform) == ValidateUrl(parse, url)
  {
  }

  /** An email address that passes the check still passes it once `mailto:`
      is put in front, which is the form the editor stores. */
  lemma MailtoKeepsEmail(url: string)
    requires IsEmail(url)
    ensures IsEmail(FormatSocialUrl(url, Email))
  {
    if !StartsWith(url, "mailto:") {
      var at, dot :| 0 < at < dot < |url| && EmailMatchAt(url, at, dot);
      var pre := "mailto:";
      assert Plain(pre);
      PrefixKeepsMatch(pre, url, at, dot);
    }
  }

  /** Text without `@` or whitespace, put in front of an address, joins its
      first run: the same `@` and dot still match. */
  lemma PrefixKeepsMatch(pre: string, s: string, at: int, dot: int)
    requires Plain(pre) && EmailMatchAt(s, at, dot)
    ensures EmailMatchAt(pre + s, at + |pre|, dot + |pre|)
  {
    var r := pre + s;
    assert r[..at + |pre|] == pre + s[..at];
    assert r[at + |pre| + 1..dot + |pre|] == s[at + 1..dot];
    assert r[dot + |pre| + 1..] == s[dot + 1..];
  }

  /** A bare email address is never taken for GitHub, LinkedIn or Twitter by
      a constructor that rejects it. */
  lemma DetectBareEmail(parse: UrlParser, url: string)
    requires parse(url).None? && IsEmail(url)
    ensures DetectPlatform(parse, url) == Email
  {
  }
}

=== FILE: social_links_editor.dfy ===
/** components/social-links-editor.tsx: adding, editing and removing the
    owner's social links, one link per platform, at most five links.

    `detectPlatform` always answers a platform (an unrecognised address is
    `custom`), so the editors' "Invalid URL" branches for a missing platform
    are never taken and are not modelled. */
module SocialLinksEditor {
  import opened Wrappers
  import opened Text
  import opened Seqs
  import opened Portfolio
  import opened Forms
  import opened Utils
  import opened Social

  const MaxLinks := 5

  const InvalidAddress := "Please enter a valid URL or email address."

  /** The platform's name as the source spells it in messages. */
  function PlatformName(p: Platform): string {
    match p
    case Github => "github"
    case Linkedin => "linkedin"
    case Twitter => "twitter"
    case Email => "email"
    case Custom => "custom"
  }

  function AlreadyExists(p: Platform): string {
    "A " + PlatformName(p) + " link already exists. Please remove it first to add a new one."
  }

  function WrongPlatform(p: Platform): string {
    "Please enter a valid " + PlatformName(p) + " URL."
  }

  /** `usedPlatforms` contains `p`. */
  predicate Used(links: seq<SocialLink>, p: Platform) {
    exists k | 0 <= k < |links| :: links[k].platform == p
  }

  /** The editor's invariant: no platform twice, and every icon the one of its platform. */
  predicate WellFormed(links: seq<SocialLink>) {
    && (forall i, j | 0 <= i < j < |links| :: links[i].platform != links[j].platform)
    && (forall k | 0 <= k < |links| :: links[k].icon == PlatformIcon(links[k].platform))
  }

  /** `AVAILABLE_PLATFORMS`, in the order the dialog lists them. */
  const BuiltIn: seq<Platform> := [Github, Linkedin, Twitter, Email]

  /** `platforms.filter((platform) => !usedPlatforms.includes(platform))`. */
  function Unused(platforms: seq<Platform>, links: seq<SocialLink>): (r: seq<Platform>)
    ensures |r| <= |platforms|
    ensures forall p :: p in r <==> p in platforms && !Used(links, p)
  {
    if |platforms| == 0 then []
    else
      var rest := Unused(platforms[1..], links);
      assert forall p :: p in platforms <==> p == platforms[0] || p in platforms[1..];
      if Used(links, platforms[0]) then rest else [platforms[0]] + rest
  }

  /** Filtering works platform by platform: the unused platforms of two
      lists joined are those of each, joined in the same order. */
  lemma {:induction false} UnusedAppend(a: seq<Platform>, b: seq<Platform>, links: seq<SocialLink>)
    ensures Unused(a + b, links) == Unused(a, links) + Unused(b, links)
    decreases |a|
  {
    if |a| > 0 {
      assert (a + b)[0] == a[0];
      assert (a + b)[1..] == a[1..] + b;
      UnusedAppend(a[1..], b, links);
    } else {
      assert a + b == b;
    }
  }

  /** One platform: kept exactly when no link uses it. With the lemma above
      this fixes the result, order and multiplicity included. */
  lemma UnusedOne(p: Platform, links: seq<SocialLink>)
    ensures Unused([p], links) == if Used(links, p) then [] else [p]
  {
    assert [p][1..] == [];
  }

  /** `availablePlatforms`: the four built-in platforms that no link uses. */
  function AvailablePlatforms(links: seq<SocialLink>): (r: seq<Platform>)
    ensures forall p :: p in r <==> p != Custom && !Used(links, p)
  {
    BuiltInMembers();
    Unused(BuiltIn, links)
  }

  /** Every platform but custom is built in. */
  lemma BuiltInMembers()
    ensures forall p :: p in BuiltIn <==> p != Custom
  {
    forall p ensures p in BuiltIn <==> p != Custom {
      match p
      case Github => assert BuiltIn[0] == p;
      case Linkedin => assert BuiltIn[1] == p;
      case Twitter => assert BuiltIn[2] == p;
      case Email => assert BuiltIn[3] == p;
      case Custom =>
    }
  }

  /** Nothing filtered out: the built-ins in their own order. */
  lemma {:induction false} UnusedKeepsOrder(platforms: seq<Platform>, links: seq<SocialLink>)
    requires forall k | 0 <= k < |platforms| :: !Used(links, platforms[k])
    ensures Unused(platforms, links) == platforms
  {
    if |platforms| > 0 {
      UnusedKeepsOrder(platforms[1..], links);
      assert platforms == [platforms[0]] + platforms[1..];
    }
  }

  /** With no links every built-in platform is offered, in the fixed order. */
  lemma NoLinksAllAvailable()
    ensures AvailablePlatforms([]) == BuiltIn
  {
    UnusedKeepsOrder(BuiltIn, []);
  }

  /** The link stored for an address on a platform: completed, with the platform's icon. */
  function NewLink(url: string, p: Platform): (l: SocialLink)
    ensures l.platform == p && l.icon == PlatformIcon(p)
    ensures l.url == FormatSocialUrl(url, p)
  {
    SocialLink(p, FormatSocialUrl(url, p), PlatformIcon(p))
  }

  /** `handleAddLink`: a platform already in the list is refused, so is an
      address its platform's check rejects; otherwise the completed link is
      appended. */
  function AddLink(parse: UrlParser, links: seq<SocialLink>, url: string): (r: Step<seq<SocialLink>>)
    ensures !r.Ignored?
    ensures var p := DetectPlatform(parse, url);
      && (r.Accepted? <==> !Used(links, p) && ValidateSocialUrl(parse, url, p))
      && (r.Accepted? ==> r.value == links + [NewLink(url, p)])
      && (r == Refused(AlreadyExists(p)) <==> Used(links, p))
  {
    var p := DetectPlatform(parse, url);
    if Used(links, p) then Refused(AlreadyExists(p))
    else if !ValidateSocialUrl(parse, url, p) then Refused(InvalidAddress)
    else Accepted(links + [NewLink(url, p)])
  }

  lemma AddKeepsWellFormed(parse: UrlParser, links: seq<SocialLink>, url: string)
    requires WellFormed(links)
    requires AddLink(parse, links, url).Accepted?
    ensures WellFormed(AddLink(parse, links, url).value)
  {
    var p := DetectPlatform(parse, url);
    assert AddLink(parse, links, url).value == links + [NewLink(url, p)] && !Used(links, p);
    AppendUnusedWellFormed(links, NewLink(url, p));
  }

  /** Appending a link of an unused platform, with its platform's icon,
      keeps a list well formed. */
  lemma AppendUnusedWellFormed(links: seq<SocialLink>, l: SocialLink)
    requires WellFormed(links) && !Used(links, l.platform) && l.icon == PlatformIcon(l.platform)
    ensures WellFormed(links + [l])
  {
    var r := links + [l];
    forall i, j | 0 <= i < j < |r|
      ensures r[i].platform != r[j].platform
    {
      if j == |links| {
        assert links[i].platform != l.platform;
      }
    }
  }

  /** The platforms a list uses. */
  function Platforms(links: seq<SocialLink>): set<Platform> {
    if |links| == 0 then {} else {links[0].platform} + Platforms(links[1..])
  }

  /** A platform is in the set exactly when some link uses it. */
  lemma {:induction false} PlatformsUsed(links: seq<SocialLink>, p: Platform)
    ensures p in Platforms(links) <==> Used(links, p)
  {
    if |links| > 0 {
      PlatformsUsed(links[1..], p);
      if Used(links, p) && links[0].platform != p {
        var k :| 0 <= k < |links| && links[k].platform == p;
        assert links[1..][k - 1] == links[k];
      }
      if Used(links[1..], p) {
        var k :| 0 <= k < |links| - 1 && links[1..][k].platform == p;
        assert links[k + 1] == links[1..][k];
      }
    }
  }

  /** One link per platform: as many platforms as links. */
  lemma {:induction false} PlatformsCount(links: seq<SocialLink>)
    requires WellFormed(links)
    ensures |Platforms(links)| == |links|
  {
    if |links| > 0 {
      var tail := links[1..];
      WellFormedTail(links);
      PlatformsCount(tail);
      PlatformsUsed(tail, links[0].platform);
    }
  }

  /** Past its first link a well-formed list is well formed, and does not
      use the first link's platform again. */
  lemma WellFormedTail(links: seq<SocialLink>)
    requires WellFormed(links) && |links| > 0
    ensures WellFormed(links[1..]) && !Used(links[1..], links[0].platform)
  {
    var tail := links[1..];
    assert forall k | 0 <= k < |tail| :: tail[k] == links[k + 1];
  }

  /** The five-link cap is also the number of platforms: a list that keeps
      one link per platform never exceeds it, with or without the add
      button's check. */
  lemma WellFormedWithinMaximum(links: seq<SocialLink>)
    requires WellFormed(links)
    ensures |links| <= MaxLinks
  {
    PlatformsCount(links);
    var all: set<Platform> := {Github, Linkedin, Twitter, Email, Custom};
    assert Platforms(links) <= all by {
      forall p | p in Platforms(links) ensures p in all {
        match p
        case Github =>
        case Linkedin =>
        case Twitter =>
        case Email =>
        case Custom =>
      }
    }
    assert |all| == 5;
    SubsetCard(Platforms(links), all);
  }

  lemma SubsetCard<T>(a: set<T>, b: set<T>)
    requires a <= b
    ensures |a| <= |b|
  {
    assert b == a + (b - a);
  }

  /** `handleEditLink`: nothing without a link being edited; the address
      must be recognised as the same platform and pass its check; then every
      link of that platform gets the completed address, and nothing else
      changes. */
  function EditLink(parse: UrlParser, links: seq<SocialLink>, editing: Option<SocialLink>, url: string): (r: Step<seq<SocialLink>>)
    ensures r.Ignored? <==> editing.None?
    ensures editing.Some? ==>
      var p := editing.value.platform;
      && (r.Accepted? <==> DetectPlatform(parse, url) == p && ValidateSocialUrl(parse, url, p))
      && (r == Refused(WrongPlatform(p)) <==> DetectPlatform(parse, url) != p)
      && (r.Accepted? ==>
            && |r.value| == |links|
            && forall k | 0 <= k < |links| ::
                 r.value[k] == if links[k].platform == p then links[k].(url := FormatSocialUrl(url, p)) else links[k])
  {
    match editing
    case None => Ignored
    case Some(link) =>
      var p := DetectPlatform(parse, url);
      if p != link.platform then Refused(WrongPlatform(link.platform))
      else if !ValidateSocialUrl(parse, url, p) then Refused(InvalidAddress)
      else
        Accepted(seq(|links|, k requires 0 <= k < |links| =>
          if links[k].platform == p then links[k].(url := FormatSocialUrl(url, p)) else links[k]))
  }

  /** In a well-formed list, editing a link changes that link's address and
      nothing else, and the list stays well formed. */
  lemma EditChangesOnlyThatLink(parse: UrlParser, links: seq<SocialLink>, i: nat, url: string)
    requires WellFormed(links) && i < |links|
    requires EditLink(parse, links, Some(links[i]), url).Accepted?
    ensures var r := EditLink(parse, links, Some(links[i]), url).value;
      && r == links[i := links[i].(url := FormatSocialUrl(url, links[i].platform))]
      && WellFormed(r)
  {
    var p := links[i].platform;
    var edited := links[i].(url := FormatSocialUrl(url, p));
    var r := EditLink(parse, links, Some(links[i]), url).value;
    var expected := links[i := edited];
    forall k | 0 <= k < |links|
      ensures r[k] == expected[k]
    {
      if k != i {
        assert links[k].platform != p;
      }
    }
    assert r == expected;
    ReplaceKeepsWellFormed(links, i, edited);
  }

  /** Replacing a link by one of the same platform and icon keeps the list
      well formed. */
  lemma ReplaceKeepsWellFormed(links: seq<SocialLink>, i: nat, l: SocialLink)
    requires WellFormed(links) && i < |links|
    requires l.platform == links[i].platform && l.icon == links[i].icon
    ensures WellFormed(links[i := l])
  {
    var r := links[i := l];
    assert forall k | 0 <= k < |r| :: r[k].platform == links[k].platform && r[k].icon == links[k].icon;
  }

  /** `openEditDialog`'s address field: `link.url.replace("mailto:", "")`,
      the address with its first `mailto:` taken out. */
  function EditAddress(url: string): (r: string)
    ensures StartsWith(url, "mailto:") ==> r == url[7..]
    ensures !Contains(url, "mailto:") ==> r == url
    ensures Contains(url, "mailto:") ==> |r| == |url| - 7
  {
    if |url| < 7 then url
    else if StartsWith(url, "mailto:") then
      StartsWithContains(url, "mailto:");
      url[7..]
    else
      ContainsPastHead(url, "mailto:");
      assert [url[0]] + url[1..] == url;
      [url[0]] + EditAddress(url[1..])
  }

  /** The occurrence `EditAddress` takes out is the first one: with the
      first `mailto:` at `i`, the result is the text before it followed by
      the text after it. */
  lemma {:induction false} EditAddressRemovesFirst(url: string, i: nat)
    requires OccursAt(url, "mailto:", i)
    requires forall j | 0 <= j < i :: !OccursAt(url, "mailto:", j)
    ensures EditAddress(url) == url[..i] + url[i + 7..]
    decreases i
  {
    if i > 0 {
      FirstOccurrenceInTail(url, "mailto:", i);
      var tail := url[1..];
      EditAddressRemovesFirst(tail, i - 1);
      assert [url[0]] + tail[..i - 1] == url[..i];
      assert tail[i - 1 + 7..] == url[i + 7..];
    }
  }

  /** The first occurrence of `sub` past the head of `s` is the first
      occurrence in its tail, one place earlier. */
  lemma FirstOccurrenceInTail(s: string, sub: string, i: nat)
    requires 0 < i && OccursAt(s, sub, i)
    requires forall j | 0 <= j < i :: !OccursAt(s, sub, j)
    ensures !StartsWith(s, sub)
    ensures OccursAt(s[1..], sub, i - 1)
    ensures forall j | 0 <= j < i - 1 :: !OccursAt(s[1..], sub, j)
  {
    assert !OccursAt(s, sub, 0);
    assert s[1..][i - 1..i - 1 + |sub|] == s[i..i + |sub|];
    forall j | 0 <= j < i - 1
      ensures !OccursAt(s[1..], sub, j)
    {
      assert !OccursAt(s, sub, j + 1);
      assert s[1..][j..j + |sub|] == s[j + 1..j + 1 + |sub|];
    }
  }

  /** A string that does not start with `sub` contains it exactly when its
      tail does. */
  lemma ContainsPastHead(s: string, sub: string)
    requires |s| > 0 && !StartsWith(s, sub)
    ensures Contains(s, sub) <==> Contains(s[1..], sub)
  {
    if Contains(s, sub) {
      var i :| 0 <= i <= |s| - |sub| && OccursAt(s, sub, i);
      assert i != 0;
      assert s[1..][i - 1..i - 1 + |sub|] == s[i..i + |sub|];
      ContainsAt(s[1..], sub, i - 1);
    }
    if Contains(s[1..], sub) {
      ContainsAfterPrefix([s[0]], s[1..], sub);
      assert [s[0]] + s[1..] == s;
    }
  }

  /** Reopening an email link and saving its address unchanged gives the
      same link address back, unless the address repeats `mailto:`. */
  lemma ReopenedEmailKeepsAddress(url: string)
    requires StartsWith(url, "mailto:") && !StartsWith(url[7..], "mailto:")
    ensures FormatSocialUrl(EditAddress(url), Email) == url
  {
    assert "mailto:" + url[7..] == url;
  }

  /** Reopening a web link and saving its address unchanged gives the same
      link address back. */
  lemma ReopenedWebLinkKeepsAddress(url: string, p: Platform)
    requires p != Email && StartsWith(url, "http") && !Contains(url, "mailto:")
    ensures FormatSocialUrl(EditAddress(url), p) == url
  {
  }

  /** `handleRemoveLink`: `links.filter((link) => link.url !== url)`. */
  function RemoveLink(links: seq<SocialLink>, url: string): (r: seq<SocialLink>)
    ensures |r| <= |links|
    ensures |links| == 1 ==> r == (if links[0].url == url then [] else links)
  {
    if |links| == 0 then []
    else if links[0].url == url then RemoveLink(links[1..], url)
    else [links[0]] + RemoveLink(links[1..], url)
  }

  /** Removing works link by link: removing from two lists joined is
      removing from each and joining the results. */
  lemma {:induction false} RemoveLinkAppend(a: seq<SocialLink>, b: seq<SocialLink>, url: string)
    ensures RemoveLink(a + b, url) == RemoveLink(a, url) + RemoveLink(b, url)
    decreases |a|
  {
    if |a| > 0 {
      assert (a + b)[1..] == a[1..] + b;
      RemoveLinkAppend(a[1..], b, url);
    } else {
      assert a + b == b;
    }
  }

  /** Exactly the links with another address are kept. */
  lemma {:induction false} RemoveLinkMembers(links: seq<SocialLink>, url: string)
    ensures forall l :: l in RemoveLink(links, url) <==> l in links && l.url != url
  {
    if |links| > 0 {
      RemoveLinkMembers(links[1..], url);
      assert forall l :: l in links <==> l == links[0] || l in links[1..];
    }
  }

  /** Removing keeps the remaining links in order: when only the link at
      `i` has the address, the result is the list without that link. */
  lemma {:induction false} RemoveKeepsOrder(links: seq<SocialLink>, url: string, i: nat)
    requires i < |links| && links[i].url == url
    requires forall k | 0 <= k < |links| && k != i :: links[k].url != url
    ensures RemoveLink(links, url) == links[..i] + links[i + 1..]
  {
    var tail := links[1..];
    if i > 0 {
      assert forall k | 0 <= k < |tail| :: tail[k] == links[k + 1];
      RemoveKeepsOrder(tail, url, i - 1);
      var before, after := links[1..i], links[i + 1..];
      assert tail[..i - 1] == before && tail[i..] == after;
      assert links[..i] == [links[0]] + before;
    } else {
      assert forall k | 0 <= k < |tail| :: tail[k] == links[k + 1];
      RemoveNone(tail, url);
    }
  }

  lemma {:induction false} RemoveNone(links: seq<SocialLink>, url: string)
    requires forall k | 0 <= k < |links| :: links[k].url != url
    ensures RemoveLink(links, url) == links
  {
    if |links| > 0 {
      var tail := links[1..];
      assert forall k | 0 <= k < |tail| :: tail[k] == links[k + 1];
      RemoveNone(tail, url);
      assert links == [links[0]] + tail;
    }
  }

  /** The remove button of one link takes every link with the same address
      with it. */
  lemma RemoveTakesSharedAddress(links: seq<SocialLink>, i: nat, j: nat)
    requires i < |links| && j < |links| && links[i].url == links[j].url
    ensures links[i] !in RemoveLink(links, links[i].url)
    ensures links[j] !in RemoveLink(links, links[i].url)
  {
    RemoveLinkMembers(links, links[i].url);
  }

  /** Removing never breaks the one-link-per-platform rule. */
  lemma {:induction false} RemoveKeepsWellFormed(links: seq<SocialLink>, url: string)
    requires WellFormed(links)
    ensures WellFormed(RemoveLink(links, url))
  {
    if |links| > 0 {
      var tail := links[1..];
      WellFormedTail(links);
      RemoveKeepsWellFormed(tail, url);
      if links[0].url != url {
        var rest := RemoveLink(tail, url);
        RemoveLinkMembers(tail, url);
        UnusedByMembers(rest, tail, links[0].platform);
        ConsWellFormed(links[0], rest);
      }
    }
  }

  /** A platform that a list does not use is not used by any list of its
      members. */
  lemma UnusedByMembers(sub: seq<SocialLink>, sup: seq<SocialLink>, p: Platform)
    requires forall l | l in sub :: l in sup
    requires !Used(sup, p)
    ensures !Used(sub, p)
  {
    forall k | 0 <= k < |sub| ensures sub[k].platform != p {
      assert sub[k] in sup;
    }
  }

  /** A link with its platform's icon, put before a well-formed list that
      does not use its platform, gives a well-formed list. */
  lemma ConsWellFormed(l: SocialLink, rest: seq<SocialLink>)
    requires WellFormed(rest) && l.icon == PlatformIcon(l.platform) && !Used(rest, l.platform)
    ensures WellFormed([l] + rest)
  {
    var r := [l] + rest;
    assert forall k | 1 <= k < |r| :: r[k] == rest[k - 1];
  }
}

=== FILE: text.dfy ===
/** The JavaScript string primitives the portfolio's rules are written with:
    `trim`, `startsWith`, `includes`, ASCII case mapping, `split` on one
    character, the `/^\d{4}$/` year pattern, `Number(...)`, `parseInt(...)`,
    and the decimal rendering used inside error messages. */
module Text {
  import opened Wrappers

  /** The characters matched by `\s` in an ECMAScript regular expression,
      which are also the characters `String.prototype.trim` removes. */
  predicate IsWhitespace(c: char) {
    || c == ' ' || c == '\t' || c == '\n' || c == '\U{B}' || c == '\U{C}' || c == '\r'
    || c == '\U{A0}' || c == '\U{1680}' || ('\U{2000}' <= c <= '\U{200A}')
    || c == '\U{2028}' || c == '\U{2029}' || c == '\U{202F}' || c == '\U{205F}'
    || c == '\U{3000}' || c == '\U{FEFF}'
  }

  /** `!s.trim()`: the string is empty or made of whitespace only. */
  predicate IsBlank(s: string) {
    forall i | 0 <= i < |s| :: IsWhitespace(s[i])
  }

  function TrimStart(s: string): (r: string)
    ensures |r| <= |s| && r == s[|s| - |r|..]
    ensures forall k | 0 <= k < |s| - |r| :: IsWhitespace(s[k])
    ensures |r| > 0 ==> !IsWhitespace(r[0])
  {
    if |s| > 0 && IsWhitespace(s[0]) then
      var r := TrimStart(s[1..]);
      assert forall k | 1 <= k < |s| :: s[k] == s[1..][k - 1];
      r
    else s
  }

  function TrimEnd(s: string): (r: string)
    ensures |r| <= |s| && r == s[..|r|]
    ensures forall k | |r| <= k < |s| :: IsWhitespace(s[k])
    ensures |r| > 0 ==> !IsWhitespace(r[|r| - 1])
  {
    if |s| > 0 && IsWhitespace(s[|s| - 1]) then
      var r := TrimEnd(s[..|s| - 1]);
      assert forall k | 0 <= k < |s| - 1 :: s[k] == s[..|s| - 1][k];
      r
    else s
  }

  /** `String.prototype.trim`. */
  function Trim(s: string): (r: string)
    ensures |r| <= |s|
    ensures |r| > 0 ==> !IsWhitespace(r[0]) && !IsWhitespace(r[|r| - 1])
  {
    TrimEnd(TrimStart(s))
  }

  /** A string trims to "" exactly when it is blank, so `!s.trim()` is `IsBlank(s)`. */
  lemma TrimEmptyIffBlank(s: string)
    ensures Trim(s) == "" <==> IsBlank(s)
  {
    var t := TrimStart(s);
    if Trim(s) != "" {
      assert !IsWhitespace(Trim(s)[0]);
      assert Trim(s)[0] == t[0] == s[|s| - |t|];
    }
  }

  /** Trimming a string that neither starts nor ends with whitespace changes nothing. */
  lemma TrimNoop(s: string)
    requires |s| > 0 ==> !IsWhitespace(s[0]) && !IsWhitespace(s[|s| - 1])
    ensures Trim(s) == s
  {
  }

  predicate StartsWith(s: string, prefix: string) {
    |prefix| <= |s| && s[..|prefix|] == prefix
  }

  /** `String.prototype.includes` with a string argument. */
  predicate Contains(s: string, sub: string) {
    exists i | 0 <= i <= |s| - |sub| :: OccursAt(s, sub, i)
  }

  predicate OccursAt(s: string, sub: string, i: int) {
    0 <= i <= |s| - |sub| && s[i..i + |sub|] == sub
  }

  lemma ContainsAt(s: string, sub: string, i: int)
    requires OccursAt(s, sub, i)
    ensures Contains(s, sub)
  {
  }

  /** A string that starts with `p` contains `p`. */
  lemma StartsWithContains(s: string, p: string)
    requires StartsWith(s, p)
    ensures Contains(s, p)
  {
    ContainsAt(s, p, 0);
  }

  /** Appending in front keeps an occurrence. */
  lemma ContainsAfterPrefix(prefix: string, s: string, sub: string)
    requires Contains(s, sub)
    ensures Contains(prefix + s, sub)
  {
    var i :| 0 <= i <= |s| - |sub| && OccursAt(s, sub, i);
    assert (prefix + s)[|prefix| + i..|prefix| + i + |sub|] == s[i..i + |sub|];
    ContainsAt(prefix + s, sub, |prefix| + i);
  }

  function LowerChar(c: char): char {
    if 'A' <= c <= 'Z' then (c as int + 32) as char else c
  }

  function UpperChar(c: char): char {
    if 'a' <= c <= 'z' then (c as int - 32) as char else c
  }

  predicate IsUpper(c: char) {
    'A' <= c <= 'Z'
  }

  /** `toLowerCase`, restricted to the ASCII letters. */
  function Lower(s: string): (r: string)
    ensures |r| == |s|
    ensures forall i | 0 <= i < |s| :: r[i] == LowerChar(s[i])
  {
    seq(|s|, i requires 0 <= i < |s| => LowerChar(s[i]))
  }

  /** `toUpperCase`, restricted to the ASCII letters. */
  function Upper(s: string): (r: string)
    ensures |r| == |s|
    ensures forall i | 0 <= i < |s| :: r[i] == UpperChar(s[i])
  {
    seq(|s|, i requires 0 <= i < |s| => UpperChar(s[i]))
  }

  /** The index of the first occurrence of `c`. */
  function IndexOf(s: string, c: char): (r: nat)
    requires c in s
    ensures r < |s| && s[r] == c && c !in s[..r]
  {
    if s[0] == c then 0
    else
      var r := 1 + IndexOf(s[1..], c);
      assert s[..r] == [s[0]] + s[1..][..r - 1];
      r
  }

  /** The only position of `c` before which `c` does not occur is its first. */
  lemma IndexOfUnique(s: string, c: char, i: nat)
    requires i < |s| && s[i] == c
    requires forall j | 0 <= j < i :: s[j] != c
    ensures c in s && IndexOf(s, c) == i
  {
    var first := IndexOf(s, c);
    assert forall j | 0 <= j < first :: s[..first][j] == s[j];
  }

  /** `parts.join(sep)` with a one-character separator. */
  function Join(parts: seq<string>, sep: char): string
    requires |parts| >= 1
  {
    if |parts| == 1 then parts[0] else parts[0] + [sep] + Join(parts[1..], sep)
  }

  /** `s.split(sep)` with a one-character separator: every occurrence of the
      separator cuts, so empty pieces are kept and there is always one piece. */
  function Split(s: string, sep: char): (parts: seq<string>)
    ensures |parts| >= 1
    ensures forall k | 0 <= k < |parts| :: sep !in parts[k]
    decreases |s|
  {
    if sep in s then
      var i := IndexOf(s, sep);
      var rest := Split(s[i + 1..], sep);
      [s[..i]] + rest
    else [s]
  }

  /** Joining the pieces gives the text back. */
  lemma {:induction false} JoinSplit(s: string, sep: char)
    ensures Join(Split(s, sep), sep) == s
    decreases |s|
  {
    if sep in s {
      var i := IndexOf(s, sep);
      var rest := Split(s[i + 1..], sep);
      JoinSplit(s[i + 1..], sep);
      assert Split(s, sep) == [s[..i]] + rest;
      assert s == s[..i] + [sep] + s[i + 1..];
    }
  }

  /** Splitting undoes joining pieces that do not contain the separator. */
  lemma {:induction false} SplitJoin(parts: seq<string>, sep: char)
    requires |parts| >= 1
    requires forall k | 0 <= k < |parts| :: sep !in parts[k]
    ensures Split(Join(parts, sep), sep) == parts
  {
    if |parts| > 1 {
      var s := Join(parts, sep);
      var tail := Join(parts[1..], sep);
      assert s == parts[0] + [sep] + tail;
      assert s[|parts[0]|] == sep;
      assert s[..|parts[0]|] == parts[0];
      assert IndexOf(s, sep) == |parts[0]|;
      assert s[|parts[0]| + 1..] == tail;
      SplitJoin(parts[1..], sep);
      assert parts == [parts[0]] + parts[1..];
    }
  }

  /** The text after the last occurrence of `c` (all of `s` when there is none). */
  function AfterLast(s: string, c: char): (r: string)
    ensures |r| <= |s| && r == s[|s| - |r|..] && c !in r
    ensures |r| < |s| ==> s[|s| - |r| - 1] == c
  {
    if |s| == 0 || s[|s| - 1] == c then ""
    else
      var r := AfterLast(s[..|s| - 1], c) + [s[|s| - 1]];
      assert s[..|s| - 1][|s| - 1 - (|r| - 1)..] + [s[|s| - 1]] == s[|s| - |r|..];
      r
  }

  /** A suffix without `c` that is all of `s` or follows a `c` is the text after the last `c`. */
  lemma {:induction false} AfterLastUnique(s: string, c: char, p: string)
    requires |p| <= |s| && p == s[|s| - |p|..] && c !in p
    requires |p| < |s| ==> s[|s| - |p| - 1] == c
    ensures p == AfterLast(s, c)
    decreases |s|
  {
    if |s| > 0 && s[|s| - 1] != c {
      assert |p| > 0;
      var init := s[..|s| - 1];
      var q := p[..|p| - 1];
      assert p == q + [s[|s| - 1]];
      assert q == init[|init| - |q|..];
      assert |q| < |init| ==> init[|init| - |q| - 1] == s[|s| - |p| - 1];
      AfterLastUnique(init, c, q);
    }
  }

  /** The first piece of `s.split(sep)` is the text before the first separator,
      and there is more than one piece exactly when the separator occurs. */
  lemma SplitFirst(s: string, sep: char)
    ensures Split(s, sep)[0] == if sep in s then s[..IndexOf(s, sep)] else s
    ensures |Split(s, sep)| > 1 <==> sep in s
  {
  }

  /** A suffix of the text after a separator, either all of it or itself
      preceded by a separator, is a suffix of the whole text preceded by a
      separator. */
  lemma SuffixAfterSeparator(s: string, sep: char, i: nat, p: string, whole: bool)
    requires i < |s| && s[i] == sep
    requires var t := s[i + 1..];
      && |p| <= |t| && p == t[|t| - |p|..]
      && (whole ==> p == t)
      && (!whole ==> |p| < |t| && t[|t| - |p| - 1] == sep)
    ensures |p| < |s| && p == s[|s| - |p|..] && s[|s| - |p| - 1] == sep
  {
    var t := s[i + 1..];
    assert s[|s| - |p|..] == t[|t| - |p|..];
    if !whole {
      assert s[|s| - |p| - 1] == t[|t| - |p| - 1];
    }
  }

  /** The text after the last separator is the same in `s` and in what
      follows any one of its separators. */
  lemma AfterLastAfterSeparator(s: string, sep: char, i: nat)
    requires i < |s| && s[i] == sep
    ensures AfterLast(s[i + 1..], sep) == AfterLast(s, sep)
  {
    var t := s[i + 1..];
    var r := AfterLast(t, sep);
    assert |r| == |t| ==> r == t;
    SuffixAfterSeparator(s, sep, i, r, |r| == |t|);
    AfterLastUnique(s, sep, r);
  }

  /** `s.split(sep).pop()`: the last piece, which is the text after the
      last separator. */
  function LastPiece(s: string, sep: char): (r: string)
    ensures r == AfterLast(s, sep)
  {
    SplitLast(s, sep);
    var parts := Split(s, sep);
    parts[|parts| - 1]
  }

  /** The last piece of `s.split(sep)` is the text after the last separator. */
  lemma {:induction false} SplitLast(s: string, sep: char)
    ensures Split(s, sep)[|Split(s, sep)| - 1] == AfterLast(s, sep)
    decreases |s|
  {
    if sep in s {
      var i := IndexOf(s, sep);
      var rest := Split(s[i + 1..], sep);
      var parts := Split(s, sep);
      assert parts == [s[..i]] + rest;
      assert parts[|parts| - 1] == rest[|rest| - 1];
      SplitLast(s[i + 1..], sep);
      AfterLastAfterSeparator(s, sep, i);
    } else {
      assert Split(s, sep) == [s];
      assert s[|s| - |s|..] == s;
      AfterLastUnique(s, sep, s);
    }
  }

  predicate IsDigit(c: char) {
    '0' <= c <= '9'
  }

  predicate AllDigits(s: string) {
    forall i | 0 <= i < |s| :: IsDigit(s[i])
  }

  /** The regular expression `/^\d{4}$/`. */
  predicate IsFourDigits(s: string) {
    |s| == 4 && AllDigits(s)
  }

  function DigitValue(c: char): nat
    requires IsDigit(c)
  {
    c as int - '0' as int
  }

  function Pow10(k: nat): (p: nat)
    ensures p >= 1
  {
    if k == 0 then 1 else 10 * Pow10(k - 1)
  }

  /** The decimal value of a string of digits. */
  function DigitsValue(s: string): (n: nat)
    requires AllDigits(s)
    ensures n < Pow10(|s|)
  {
    if |s| == 0 then 0 else DigitsValue(s[..|s| - 1]) * 10 + DigitValue(s[|s| - 1])
  }

  /** `Number(s)` for the strings this model needs: after trimming, the empty
      string is 0 and a run of decimal digits is its value; everything else
      is `NaN`, written `None`. */
  function JsNumber(s: string): (r: Option<int>)
    ensures AllDigits(s) && |s| > 0 ==> r == Some(DigitsValue(s))
  {
    var t := Trim(s);
    if t == "" then Some(0)
    else if AllDigits(t) then Some(DigitsValue(t))
    else None
  }

  /** The longest prefix of decimal digits. */
  function LeadingDigits(s: string): (r: string)
    ensures |r| <= |s| && r == s[..|r|] && AllDigits(r)
    ensures |r| < |s| ==> !IsDigit(s[|r|])
    ensures AllDigits(s) ==> r == s
  {
    if |s| > 0 && IsDigit(s[0]) then
      var r := [s[0]] + LeadingDigits(s[1..]);
      assert r == s[..|r|];
      r
    else ""
  }

  /** `Number.parseInt(s)` with radix 10: leading whitespace, an optional sign,
      then the longest run of digits; `NaN` (`None`) when there is no digit. */
  function ParseInt(s: string): (r: Option<int>)
    ensures AllDigits(s) && |s| > 0 ==> r == Some(DigitsValue(s))
  {
    var t := TrimStart(s);
    var negative := |t| > 0 && t[0] == '-';
    var body := if |t| > 0 && (t[0] == '-' || t[0] == '+') then t[1..] else t;
    var digits := LeadingDigits(body);
    var value: int := if digits == "" then 0 else DigitsValue(digits);
    if digits == "" then None
    else if negative then Some(-value)
    else Some(value)
  }

  function DigitChar(d: nat): (c: char)
    requires d < 10
    ensures IsDigit(c) && DigitValue(c) == d
  {
    ('0' as int + d) as char
  }

  /** The decimal rendering JavaScript gives a non-negative integer. */
  function NatToString(n: nat): (s: string)
    ensures |s| > 0 && AllDigits(s)
    ensures n == 0 ==> s == "0"
    ensures n > 0 ==> s[0] != '0'
  {
    if n < 10 then [DigitChar(n)] else NatToString(n / 10) + [DigitChar(n % 10)]
  }

  /** The decimal rendering JavaScript gives an integer in a template string. */
  function IntToString(n: int): string {
    if n < 0 then "-" + NatToString(-n) else NatToString(n)
  }

  /** Reading back the decimal rendering gives the number. */
  lemma {:induction false} NatToStringRoundTrip(n: nat)
    ensures DigitsValue(NatToString(n)) == n
  {
    if n >= 10 {
      var s := NatToString(n);
      NatToStringRoundTrip(n / 10);
      assert s[..|s| - 1] == NatToString(n / 10);
    }
  }
}

=== FILE: timeline.dfy ===
/** The display order of the experience and education editors
    (`sortExperiencesByStartYear`, `sortEducationByStartYear`): ongoing
    entries first, then by start year, latest first, with `Array.prototype.sort`,
    which is stable.

    The order is computed as a permutation of positions, so that a position in
    the displayed list can be traced back to a position in the stored list. */
module Timeline {

  /** What the comparator reads from an entry: whether it is ongoing, and
      `Number(startYear)`. */
  datatype SortKey = SortKey(ongoing: bool, start: int)

  /** The comparator's return value. */
  function Compare(a: SortKey, b: SortKey): int {
    if a.ongoing && !b.ongoing then -1
    else if !a.ongoing && b.ongoing then 1
    else b.start - a.start
  }

  /** `a` is placed strictly before `b`: ongoing before finished, then the
      later start year first. */
  predicate Before(a: SortKey, b: SortKey) {
    (a.ongoing && !b.ongoing) || (a.ongoing == b.ongoing && a.start > b.start)
  }

  /** The comparator puts `a` first exactly when `Before(a, b)`, and puts
      `b` first exactly when `Before(b, a)`; it is consistent, so the sort's
      result is fully determined. */
  lemma CompareIsBefore(a: SortKey, b: SortKey)
    ensures Compare(a, b) < 0 <==> Before(a, b)
    ensures Compare(a, b) > 0 <==> Before(b, a)
    ensures Compare(a, b) == -Compare(b, a)
  {
  }

  /** `perm` lists each of the positions `0 .. n-1` exactly once. */
  predicate IsPermutation(perm: seq<nat>, n: nat) {
    && |perm| == n
    && (forall k | 0 <= k < |perm| :: perm[k] < n)
    && (forall i, j | 0 <= i < j < |perm| :: perm[i] != perm[j])
  }

  /** No entry is placed after one it should come before. */
  predicate SortedBy(keys: seq<SortKey>, perm: seq<nat>)
    requires forall k | 0 <= k < |perm| :: perm[k] < |keys|
  {
    forall i, j | 0 <= i < j < |perm| :: !Before(keys[perm[j]], keys[perm[i]])
  }

  /** Two entries only swap their stored order when the comparator orders
      them: entries the comparator finds equal keep their stored order. */
  predicate Stable(keys: seq<SortKey>, perm: seq<nat>)
    requires forall k | 0 <= k < |perm| :: perm[k] < |keys|
  {
    forall i, j | 0 <= i < j < |perm| && perm[i] > perm[j] :: Before(keys[perm[i]], keys[perm[j]])
  }

  /** Where insertion sort puts `x`: after every entry it does not come before. */
  function InsertPos(keys: seq<SortKey>, perm: seq<nat>, x: nat): (p: nat)
    requires x < |keys| && forall k | 0 <= k < |perm| :: perm[k] < |keys|
    ensures p <= |perm|
    ensures forall k | 0 <= k < p :: !Before(keys[x], keys[perm[k]])
    ensures p < |perm| ==> Before(keys[x], keys[perm[p]])
  {
    if |perm| == 0 || Before(keys[x], keys[perm[0]]) then 0
    else 1 + InsertPos(keys, perm[1..], x)
  }

  /** The pair of display positions `i < j` is in order and, when the pair
      is inverted with respect to the stored order, the comparator demands it. */
  predicate PairOk(keys: seq<SortKey>, perm: seq<nat>, i: nat, j: nat)
    requires i < j < |perm| && forall k | 0 <= k < |perm| :: perm[k] < |keys|
  {
    && !Before(keys[perm[j]], keys[perm[i]])
    && (perm[i] > perm[j] ==> Before(keys[perm[i]], keys[perm[j]]))
  }

  lemma PairsOk(keys: seq<SortKey>, perm: seq<nat>)
    requires forall k | 0 <= k < |perm| :: perm[k] < |keys|
    requires forall i, j | 0 <= i < j < |perm| :: PairOk(keys, perm, i, j)
    ensures SortedBy(keys, perm) && Stable(keys, perm)
  {
    forall i, j | 0 <= i < j < |perm|
      ensures !Before(keys[perm[j]], keys[perm[i]])
      ensures perm[i] > perm[j] ==> Before(keys[perm[i]], keys[perm[j]])
    {
      assert PairOk(keys, perm, i, j);
    }
  }

  /** `prev` with `x` inserted at position `p`. */
  function InsertAt(prev: seq<nat>, p: nat, x: nat): (r: seq<nat>)
    requires p <= |prev|
    ensures |r| == |prev| + 1
    ensures forall k | 0 <= k < p :: r[k] == prev[k]
    ensures r[p] == x
    ensures forall k | p < k < |r| :: r[k] == prev[k - 1]
  {
    prev[..p] + [x] + prev[p..]
  }

  /** Inserting the next position into a permutation gives a permutation. */
  lemma InsertPermutation(prev: seq<nat>, p: nat, x: nat)
    requires IsPermutation(prev, x) && p <= x
    ensures IsPermutation(InsertAt(prev, p, x), x + 1)
  {
    var r := InsertAt(prev, p, x);
    forall i, j | 0 <= i < j < |r|
      ensures r[i] != r[j]
    {
      if j < p {
        assert r[i] == prev[i] && r[j] == prev[j];
      } else if i > p {
        assert r[i] == prev[i - 1] && r[j] == prev[j - 1];
      } else if i < p < j {
        assert r[i] == prev[i] && r[j] == prev[j - 1];
      }
    }
  }

  /** One pair of the order after inserting `x`, the largest stored position
      yet, at `InsertPos`. */
  lemma InsertPair(keys: seq<SortKey>, prev: seq<nat>, x: nat, i: nat, j: nat)
    requires x < |keys|
    requires forall k | 0 <= k < |prev| :: prev[k] < x
    requires SortedBy(keys, prev) && Stable(keys, prev)
    requires i < j <= |prev|
    ensures PairOk(keys, InsertAt(prev, InsertPos(keys, prev, x), x), i, j)
  {
    var p := InsertPos(keys, prev, x);
    var r := InsertAt(prev, p, x);
    if j < p {
      assert r[i] == prev[i] && r[j] == prev[j];
      assert PairOk(keys, prev, i, j);
    } else if i > p {
      assert r[i] == prev[i - 1] && r[j] == prev[j - 1];
      assert PairOk(keys, prev, i - 1, j - 1);
    } else if i < p < j {
      assert r[i] == prev[i] && r[j] == prev[j - 1];
      assert PairOk(keys, prev, i, j - 1);
    } else if j == p {
      assert r[i] == prev[i] && r[j] == x;
    } else {
      assert r[i] == x && r[j] == prev[j - 1];
      assert Before(keys[x], keys[prev[p]]);
      if j - 1 > p {
        assert PairOk(keys, prev, p, j - 1);
      }
    }
  }

  /** Inserting the next stored position at `InsertPos` keeps the order a
      permutation, sorted and stable. */
  lemma InsertKeepsOrder(keys: seq<SortKey>, prev: seq<nat>, x: nat)
    requires x < |keys|
    requires IsPermutation(prev, x)
    requires SortedBy(keys, prev) && Stable(keys, prev)
    ensures var r := InsertAt(prev, InsertPos(keys, prev, x), x);
      && IsPermutation(r, x + 1)
      && SortedBy(keys, r) && Stable(keys, r)
  {
    var r := InsertAt(prev, InsertPos(keys, prev, x), x);
    InsertPermutation(prev, InsertPos(keys, prev, x), x);
    forall i, j | 0 <= i < j < |r|
      ensures PairOk(keys, r, i, j)
    {
      InsertPair(keys, prev, x, i, j);
    }
    PairsOk(keys, r);
  }

  /** The display order of the first `n` stored entries: insertion sort, one
      stored position at a time. */
  function SortOrder(keys: seq<SortKey>, n: nat): (perm: seq<nat>)
    requires n <= |keys|
    ensures IsPermutation(perm, n)
    ensures SortedBy(keys, perm)
    ensures Stable(keys, perm)
  {
    if n == 0 then [] else InsertNext(keys, SortOrder(keys, n - 1), n - 1)
  }

  /** One step of the insertion sort: the stored position `x` inserted
      into the order of the entries before it. */
  function InsertNext(keys: seq<SortKey>, prev: seq<nat>, x: nat): (r: seq<nat>)
    requires x < |keys|
    requires IsPermutation(prev, x)
    requires SortedBy(keys, prev) && Stable(keys, prev)
    ensures IsPermutation(r, x + 1)
    ensures SortedBy(keys, r) && Stable(keys, r)
  {
    InsertKeepsOrder(keys, prev, x);
    InsertAt(prev, InsertPos(keys, prev, x), x)
  }

  /** The comparator's view of every stored entry. */
  function KeysOf<T>(items: seq<T>, key: T -> SortKey): (keys: seq<SortKey>)
    ensures |keys| == |items|
    ensures forall k | 0 <= k < |items| :: keys[k] == key(items[k])
  {
    seq(|items|, k requires 0 <= k < |items| => key(items[k]))
  }

  /** The stored position of the entry displayed at `viewIndex`. */
  function StoredPos<T>(items: seq<T>, key: T -> SortKey, viewIndex: nat): (i: nat)
    requires viewIndex < |items|
    ensures i < |items|
  {
    SortOrder(KeysOf(items, key), |items|)[viewIndex]
  }

  /** `[...items].sort(comparator)`: the entries in display order, each
      displayed entry being the stored one at `StoredPos`; no entry comes
      after one it should precede. */
  function SortedView<T>(items: seq<T>, key: T -> SortKey): (view: seq<T>)
    ensures |view| == |items|
    ensures forall k | 0 <= k < |items| :: view[k] == items[StoredPos(items, key, k)]
    ensures forall i, j | 0 <= i < j < |view| :: !Before(key(view[j]), key(view[i]))
  {
    var keys := KeysOf(items, key);
    var perm := SortOrder(keys, |items|);
    var view := seq(|items|, k requires 0 <= k < |items| => items[perm[k]]);
    forall i, j | 0 <= i < j < |view|
      ensures !Before(key(view[j]), key(view[i]))
    {
      assert keys[perm[i]] == key(view[i]) && keys[perm[j]] == key(view[j]);
    }
    view
  }

  /** The entries at the positions `perm`, in that order. */
  function Pick<T>(items: seq<T>, perm: seq<nat>): (r: seq<T>)
    requires forall k | 0 <= k < |perm| :: perm[k] < |items|
    ensures |r| == |perm|
    ensures forall k | 0 <= k < |perm| :: r[k] == items[perm[k]]
  {
    seq(|perm|, k requires 0 <= k < |perm| => items[perm[k]])
  }

  /** Picking after an insertion inserts the picked entry. */
  lemma PickInsert<T>(items: seq<T>, prev: seq<nat>, p: nat, x: nat)
    requires forall k | 0 <= k < |prev| :: prev[k] < |items|
    requires p <= |prev| && x < |items|
    ensures multiset(Pick(items, InsertAt(prev, p, x))) == multiset(Pick(items, prev)) + multiset{items[x]}
  {
    var before := Pick(items, prev);
    var after := Pick(items, InsertAt(prev, p, x));
    assert after == before[..p] + [items[x]] + before[p..];
    assert before == before[..p] + before[p..];
  }

  /** One step of the insertion sort. */
  lemma SortOrderStep(keys: seq<SortKey>, n: nat)
    requires 0 < n <= |keys|
    ensures var prev := SortOrder(keys, n - 1);
      SortOrder(keys, n) == InsertAt(prev, InsertPos(keys, prev, n - 1), n - 1)
  {
  }

  /** The first `n` stored entries, in display order, are the first `n`
      stored entries rearranged. */
  lemma {:induction false} SortOrderPermutes<T>(items: seq<T>, keys: seq<SortKey>, n: nat)
    requires |keys| == |items| && n <= |items|
    ensures multiset(Pick(items, SortOrder(keys, n))) == multiset(items[..n])
  {
    if n > 0 {
      SortOrderPermutes(items, keys, n - 1);
      var prev := SortOrder(keys, n - 1);
      SortOrderStep(keys, n);
      PickStep(items, prev, InsertPos(keys, prev, n - 1), n);
    }
  }

  /** Inserting the next stored position extends the picked entries by the
      next stored entry. */
  lemma PickStep<T>(items: seq<T>, prev: seq<nat>, p: nat, n: nat)
    requires 0 < n <= |items| && p <= |prev|
    requires forall k | 0 <= k < |prev| :: prev[k] < |items|
    requires multiset(Pick(items, prev)) == multiset(items[..n - 1])
    ensures multiset(Pick(items, InsertAt(prev, p, n - 1))) == multiset(items[..n])
  {
    PickInsert(items, prev, p, n - 1);
    assert items[..n] == items[..n - 1] + [items[n - 1]];
  }

  /** Displaying is a rearrangement: every stored entry is shown exactly once. */
  lemma SortedViewPermutes<T>(items: seq<T>, key: T -> SortKey)
    ensures multiset(SortedView(items, key)) == multiset(items)
  {
    var keys := KeysOf(items, key);
    SortOrderPermutes(items, keys, |items|);
    assert SortedView(items, key) == Pick(items, SortOrder(keys, |items|));
    assert items[..|items|] == items;
  }

  /** Two entries stored in the wrong order are displayed swapped. */
  lemma SwapTwo(keys: seq<SortKey>)
    requires |keys| == 2 && Before(keys[1], keys[0])
    ensures SortOrder(keys, 2) == [1, 0]
  {
    var perm := SortOrder(keys, 2);
    assert perm[0] == 1 by {
      assert !Before(keys[perm[1]], keys[perm[0]]);
    }
  }

  /** Two entries stored in the wrong display order are each displayed at
      the other's position. */
  lemma SwappedPair<T>(pair: seq<T>, key: T -> SortKey)
    requires |pair| == 2 && Before(key(pair[1]), key(pair[0]))
    ensures StoredPos(pair, key, 0) == 1 && StoredPos(pair, key, 1) == 0
  {
    SwapTwo(KeysOf(pair, key));
  }

  /** A list already in display order is displayed as stored. */
  lemma {:induction false} SortedStaysPut(keys: seq<SortKey>, n: nat)
    requires n <= |keys|
    requires forall i, j | 0 <= i < j < n :: !Before(keys[j], keys[i])
    ensures forall k | 0 <= k < n :: SortOrder(keys, n)[k] == k
  {
    if n > 0 {
      SortedStaysPut(keys, n - 1);
      var prev := SortOrder(keys, n - 1);
      assert InsertPos(keys, prev, n - 1) == n - 1;
    }
  }

  /** A list already in display order is displayed as stored, position for
      position. */
  lemma SortedListStaysPut<T>(items: seq<T>, key: T -> SortKey)
    requires forall i, j | 0 <= i < j < |items| :: !Before(key(items[j]), key(items[i]))
    ensures forall k | 0 <= k < |items| :: StoredPos(items, key, k) == k
    ensures SortedView(items, key) == items
  {
    SortedStaysPut(KeysOf(items, key), |items|);
  }
}

=== FILE: utils.dfy ===
/** lib/utils.ts: URL checking and completion, the logo text built from the
    owner's name, and the icon names the data-file serializer writes back.

    The browser's `URL` constructor is not modelled; every member that calls
    it takes a `UrlParser`, a total function that answers `None` where the
    constructor throws and the parsed host name where it succeeds. */
module Utils {
  import opened Wrappers
  import opened Text
  import opened Portfolio

  /** `new URL(text)`: `None` when the constructor throws, the host name otherwise. */
  type UrlParser = string -> Option<string>

  /** `validateUrl`: the empty string is rejected; anything else is accepted
      exactly when the constructor accepts it with a scheme added. The `www.`
      branch of the source adds the same `https://` the general branch would. */
  function ValidateUrl(parse: UrlParser, url: string): (ok: bool)
    ensures ok <==> url != "" && parse(FormatUrl(url)).Some?
  {
    if url == "" then false
    else
      var withWww := if StartsWith(url, "www.") then "https://" + url else url;
      parse(if StartsWith(withWww, "http") then withWww else "https://" + withWww).Some?
  }

  /** `formatUrl`: the empty string stays empty; anything not starting with
      `http` gets `https://` in front (both arms of the source's `www.` test
      produce the same text). */
  function FormatUrl(url: string): (r: string)
    ensures url == "" ==> r == ""
    ensures url != "" ==> StartsWith(r, "http") && Contains(r, url)
    ensures StartsWith(url, "http") ==> r == url
    ensures url != "" && !StartsWith(url, "http") ==> r == "https://" + url
  {
    if url == "" then url
    else if !StartsWith(url, "http") then
      var r := "https://" + url;
      assert OccursAt(r, url, 8);
      r
    else
      assert OccursAt(url, url, 0);
      url
  }

  /** Completing an address twice is the same as completing it once. */
  lemma FormatUrlIdempotent(url: string)
    ensures FormatUrl(FormatUrl(url)) == FormatUrl(url)
  {
  }

  /** A URL that is accepted stays accepted once it is completed, so the
      editors may store `formatUrl(url)` after `validateUrl(url)`. */
  lemma ValidateFormatted(parse: UrlParser, url: string)
    requires ValidateUrl(parse, url)
    ensures ValidateUrl(parse, FormatUrl(url))
  {
    FormatUrlIdempotent(url);
  }

  /** `LogoFormat`; `Unlisted` stands for a stored value outside the four the
      type names, which the `default` arm of the switch handles. */
  datatype LogoFormat = Initials | FirstTwo | FirstThree | InitialPlusTwo | Unlisted

  /** What `formatLogo` produces: a string, `undefined` (rendered as nothing),
      or a `TypeError` thrown by `undefined.toUpperCase()`. */
  datatype Logo = Logo(text: string) | Undefined | Throws

  /** The text before the first space. */
  function FirstWord(name: string): string {
    if ' ' in name then name[..IndexOf(name, ' ')] else name
  }

  /** The text after the last space, or "" when there is no space. */
  function LastWord(name: string): string {
    if ' ' in name then AfterLast(name, ' ') else ""
  }

  /** `${s[0]}` inside a template string: a missing character prints "undefined". */
  function FirstCharText(s: string): (r: string)
    ensures |s| > 0 ==> r == [s[0]]
  {
    if |s| > 0 then [s[0]] else "undefined"
  }

  /** `s.slice(0, n)`. */
  function Take(s: string, n: nat): (r: string)
    ensures |r| == if n < |s| then n else |s|
    ensures r == s[..|r|]
  {
    if n < |s| then s[..n] else s
  }

  /** `formatLogo`, computed with `name.split(" ")` as the source does. */
  function FormatLogo(name: string, format: LogoFormat): (r: Logo)
  {
    var names := Split(name, ' ');
    var firstName := names[0];
    var lastName := if |names| > 1 then names[|names| - 1] else "";
    match format
    case Initials =>
      if lastName != "" then Logo(Upper(FirstCharText(firstName) + [lastName[0]]))
      else if firstName != "" then Logo(Upper([firstName[0]]))
      else Throws
    case FirstTwo => Logo(Take(firstName, 2))
    case FirstThree => Logo(Take(firstName, 3))
    case InitialPlusTwo =>
      if lastName != "" then Logo(FirstCharText(firstName) + Take(lastName, 2))
      else if firstName != "" then Logo([firstName[0]])
      else Undefined
    case Unlisted => Logo(firstName)
  }

  /** The logo in terms of the first and last words of the name: the result
      of `split` is the text before the first space and after the last one. */
  lemma FormatLogoWords(name: string, format: LogoFormat)
    ensures var first := FirstWord(name); var last := LastWord(name);
      FormatLogo(name, format) == match format
        case Initials =>
          if last != "" then Logo(Upper(FirstCharText(first) + [last[0]]))
          else if first != "" then Logo(Upper([first[0]]))
          else Throws
        case FirstTwo => Logo(Take(first, 2))
        case FirstThree => Logo(Take(first, 3))
        case InitialPlusTwo =>
          if last != "" then Logo(FirstCharText(first) + Take(last, 2))
          else if first != "" then Logo([first[0]])
          else Undefined
        case Unlisted => Logo(first)
  {
    SplitFirst(name, ' ');
    SplitLast(name, ' ');
  }

  /** For a name of two non-empty words the initials are the two upper-cased
      first letters, and initial-plus-two is at most three characters. */
  lemma LogoOfFullName(first: string, last: string)
    requires first != "" && last != "" && ' ' !in first && ' ' !in last
    ensures FormatLogo(first + " " + last, Initials) == Logo([UpperChar(first[0]), UpperChar(last[0])])
    ensures FormatLogo(first + " " + last, InitialPlusTwo).Logo?
    ensures var t := FormatLogo(first + " " + last, InitialPlusTwo).text;
      2 <= |t| <= 3 && t[0] == first[0] && t[1] == last[0]
  {
    var name := first + " " + last;
    SplitJoin([first, last], ' ');
    assert Join([first, last], ' ') == name;
  }

  /** A one-word name has no initial-plus-two logo when empty, and its
      first-letter logos otherwise. */
  lemma LogoOfEmptyName()
    ensures FormatLogo("", Initials) == Throws
    ensures FormatLogo("", InitialPlusTwo) == Undefined
    ensures FormatLogo("", FirstTwo) == Logo("")
  {
    assert Split("", ' ') == [""];
  }

  /** A leading space leaves an empty first word, and the template prints
      "undefined" for its missing first letter. */
  lemma LogoOfLeadingSpace()
    ensures FormatLogo(" Ada", Initials) == Logo("UNDEFINEDA")
    ensures FormatLogo(" Ada", InitialPlusTwo) == Logo("undefinedAd")
  {
    SplitJoin(["", "Ada"], ' ');
    assert Join(["", "Ada"], ' ') == " Ada";
  }

  /** The icon name `processSocialLinks` writes for a social link's platform. */
  function SerializedSocialIcon(platform: Platform): (icon: Icon)
    ensures IconFor(platform, icon)
  {
    match platform
    case Github => GithubIcon
    case Linkedin => LinkedinIcon
    case Twitter => TwitterIcon
    case Email => MailIcon
    case Custom => GlobeIcon
  }

  /** The icon name `processProjectLinks` writes: the GitHub icon exactly when
      the address mentions `github.com`. */
  function SerializedProjectIcon(url: string): (icon: Icon)
    ensures icon == GithubIcon <==> Contains(url, "github.com")
    ensures icon == GithubIcon || icon == GlobeIcon
  {
    if Contains(url, "github.com") then GithubIcon else GlobeIcon
  }

  /** The social links as the data file writes them: same links, same order,
      each icon recomputed from its platform. */
  function SerializeSocialLinks(links: seq<SocialLink>): (r: seq<SocialLink>)
    ensures |r| == |links|
    ensures forall k | 0 <= k < |links| ::
      && r[k].platform == links[k].platform && r[k].url == links[k].url
      && IconFor(links[k].platform, r[k].icon)
  {
    seq(|links|, k requires 0 <= k < |links| =>
      links[k].(icon := SerializedSocialIcon(links[k].platform)))
  }

  /** The projects as the data file writes them: only the link icons change. */
  function SerializeProjects(projects: seq<Project>): (r: seq<Project>)
    ensures |r| == |projects|
    ensures forall k | 0 <= k < |projects| ::
      && r[k].title == projects[k].title
      && r[k].description == projects[k].description
      && r[k].tags == projects[k].tags
      && r[k].inDevelopment == projects[k].inDevelopment
      && |r[k].links| == |projects[k].links|
      && forall j | 0 <= j < |projects[k].links| ::
        && r[k].links[j].name == projects[k].links[j].name
        && r[k].links[j].url == projects[k].links[j].url
        && (r[k].links[j].icon == GithubIcon <==> Contains(projects[k].links[j].url, "github.com"))
  {
    seq(|projects|, k requires 0 <= k < |projects| =>
      var p := projects[k];
      p.(links := seq(|p.links|, j requires 0 <= j < |p.links| =>
        p.links[j].(icon := SerializedProjectIcon(p.links[j].url)))))
  }

  /** Serializing twice writes the same data as serializing once, so the
      icon names survive a save / reload / save cycle. */
  lemma SerializeIdempotent(links: seq<SocialLink>, projects: seq<Project>)
    ensures SerializeSocialLinks(SerializeSocialLinks(links)) == SerializeSocialLinks(links)
    ensures SerializeProjects(SerializeProjects(projects)) == SerializeProjects(projects)
  {
    var once := SerializeProjects(projects);
    var twice := SerializeProjects(once);
    forall k | 0 <= k < |projects|
      ensures twice[k] == once[k]
    {
      assert twice[k].links == once[k].links;
    }
  }
}

=== FILE: validation.dfy ===
/** lib/validation.ts: the whole-portfolio check run before a deployment.
    Every rule that fails adds one error naming the offending field; the
    rules run in the order of the sections and of the items inside them. */
module Validation {
  import opened Wrappers
  import opened Text
  import opened Portfolio
  import opened Utils

  /** The `field` of a `ValidationError`. Item-level fields carry the item's
      position in its list. */
  datatype Field =
    | Name | Title | Bio | Location | ResumeUrl
    | SocialLinks | SocialLinkAt(index: nat)
    | Projects | ProjectTitle(index: nat) | ProjectDescription(index: nat) | ProjectTags(index: nat)
    | Skills | SkillCategoryName(index: nat) | SkillItems(index: nat)

  datatype ValidationError = ValidationError(field: Field, message: string)

  /** The field as the source spells it, e.g. `projects[2].title`. */
  function FieldText(f: Field): (r: string)
    ensures |r| > 0
  {
    match f
    case Name => "name"
    case Title => "title"
    case Bio => "bio"
    case Location => "location"
    case ResumeUrl => "resumeUrl"
    case SocialLinks => "socialLinks"
    case SocialLinkAt(i) => "socialLinks[" + NatToString(i) + "]"
    case Projects => "projects"
    case ProjectTitle(i) => "projects[" + NatToString(i) + "].title"
    case ProjectDescription(i) => "projects[" + NatToString(i) + "].description"
    case ProjectTags(i) => "projects[" + NatToString(i) + "].tags"
    case Skills => "skills"
    case SkillCategoryName(i) => "skills[" + NatToString(i) + "].category"
    case SkillItems(i) => "skills[" + NatToString(i) + "].items"
  }

  const NameTooShort := "Name must be at least 2 characters long"
  const TitleTooShort := "Title must be at least 2 characters long"
  const BioTooShort := "Bio must be at least 50 characters long"
  const LocationTooShort := "Location must be at least 2 characters long"
  const ResumeUrlInvalid := "Invalid resume URL format"
  const SocialLinksMissing := "At least one social link is required"
  const SocialUrlMissing := "Social link URL is required"
  const SocialUrlInvalid := "Invalid social link URL format"
  const ProjectsMissing := "At least one project is required"
  const ProjectTitleTooShort := "Project title must be at least 5 characters long"
  const ProjectDescriptionTooShort := "Project description must be at least 20 characters long"
  const ProjectTagsMissing := "At least one project tag is required"
  const SkillsMissing := "At least one skill category is required"
  const CategoryNameTooShort := "Skill category name must be at least 3 characters long"
  const SkillItemsMissing := "At least one skill is required in each category"

  /** The section a field belongs to, in the order the checks run. */
  function Rank(f: Field): nat {
    match f
    case Name => 0
    case Title => 1
    case Bio => 2
    case Location => 3
    case ResumeUrl => 4
    case SocialLinks => 5
    case SocialLinkAt(_) => 5
    case Projects => 6
    case ProjectTitle(_) => 6
    case ProjectDescription(_) => 6
    case ProjectTags(_) => 6
    case Skills => 7
    case SkillCategoryName(_) => 7
    case SkillItems(_) => 7
  }

  /** The item a field belongs to (0 for a field about a whole section). */
  function ItemOf(f: Field): nat {
    if f.SocialLinkAt? || f.ProjectTitle? || f.ProjectDescription? || f.ProjectTags?
      || f.SkillCategoryName? || f.SkillItems?
    then f.index
    else 0
  }

  /** The place of an error among those of its item, in the order the item's
      checks run: a link's missing address before its malformed one; a
      project's title, description, tags; a category's name, items. */
  function Slot(e: ValidationError): nat {
    match e.field
    case SocialLinkAt(_) => if e.message == SocialUrlMissing then 0 else 1
    case ProjectDescription(_) => 1
    case ProjectTags(_) => 2
    case SkillItems(_) => 1
    case _ => 0
  }

  /** `a` is reported before `b`: earlier section, or same section and
      earlier item, or same item and earlier check. */
  predicate Before(a: ValidationError, b: ValidationError) {
    || Rank(a.field) < Rank(b.field)
    || (Rank(a.field) == Rank(b.field) && ItemOf(a.field) < ItemOf(b.field))
    || (Rank(a.field) == Rank(b.field) && ItemOf(a.field) == ItemOf(b.field) && Slot(a) < Slot(b))
  }

  /** The errors come strictly in the order the checks run, so none is
      reported twice. */
  predicate Ordered(errors: seq<ValidationError>) {
    forall i, j | 0 <= i < j < |errors| :: Before(errors[i], errors[j])
  }

  /** The social-link rule `e` reports is broken: a link with no address, or
      an address that is not `mailto:` and that the constructor rejects. */
  predicate SocialLinkViolation(parse: UrlParser, links: seq<SocialLink>, e: ValidationError) {
    && e.field.SocialLinkAt? && e.field.index < |links|
    && var url := links[e.field.index].url;
      || (e.message == SocialUrlMissing && url == "")
      || (e.message == SocialUrlInvalid && !StartsWith(url, "mailto:") && parse(url).None?)
  }

  predicate ProjectViolation(projects: seq<Project>, e: ValidationError) {
    && (e.field.ProjectTitle? || e.field.ProjectDescription? || e.field.ProjectTags?)
    && e.field.index < |projects|
    && var p := projects[e.field.index];
      match e.field
      case ProjectTitle(_) => e.message == ProjectTitleTooShort && |p.title| < 5
      case ProjectDescription(_) => e.message == ProjectDescriptionTooShort && |p.description| < 20
      case ProjectTags(_) => e.message == ProjectTagsMissing && |p.tags| == 0
      case _ => false
  }

  predicate CategoryViolation(skills: seq<SkillCategory>, e: ValidationError) {
    && (e.field.SkillCategoryName? || e.field.SkillItems?)
    && e.field.index < |skills|
    && var c := skills[e.field.index];
      match e.field
      case SkillCategoryName(_) => e.message == CategoryNameTooShort && |c.category| < 3
      case SkillItems(_) => e.message == SkillItemsMissing && |c.items| == 0
      case _ => false
  }

  /** Every rule the portfolio breaks, written as one predicate per error:
      `e` is an error the portfolio deserves. An empty string fails every
      length rule, as `!x || x.length < n` does. */
  predicate Violation(parse: UrlParser, data: PortfolioData, e: ValidationError) {
    var info := data.personalInfo;
    match e.field
    case Name => e.message == NameTooShort && |info.name| < 2
    case Title => e.message == TitleTooShort && |info.title| < 2
    case Bio => e.message == BioTooShort && |info.bio| < 50
    case Location => e.message == LocationTooShort && |info.location| < 2
    case ResumeUrl => e.message == ResumeUrlInvalid && info.resumeUrl != "" && parse(info.resumeUrl).None?
    case SocialLinks => e.message == SocialLinksMissing && |data.socialLinks| == 0
    case SocialLinkAt(_) => |data.socialLinks| > 0 && SocialLinkViolation(parse, data.socialLinks, e)
    case Projects => e.message == ProjectsMissing && |data.projects| == 0
    case Skills => e.message == SkillsMissing && |data.skills| == 0
    case SkillCategoryName(_) => |data.skills| > 0 && CategoryViolation(data.skills, e)
    case SkillItems(_) => |data.skills| > 0 && CategoryViolation(data.skills, e)
    case _ => |data.projects| > 0 && ProjectViolation(data.projects, e)
  }

  /** A portfolio that breaks no rule, stated field by field. */
  predicate Valid(parse: UrlParser, data: PortfolioData) {
    var info := data.personalInfo;
    && |info.name| >= 2 && |info.title| >= 2 && |info.bio| >= 50 && |info.location| >= 2
    && (info.resumeUrl == "" || parse(info.resumeUrl).Some?)
    && |data.socialLinks| > 0
    && (forall i | 0 <= i < |data.socialLinks| ::
          data.socialLinks[i].url != ""
          && (StartsWith(data.socialLinks[i].url, "mailto:") || parse(data.socialLinks[i].url).Some?))
    && |data.projects| > 0
    && (forall i | 0 <= i < |data.projects| ::
          |data.projects[i].title| >= 5 && |data.projects[i].description| >= 20
          && |data.projects[i].tags| > 0)
    && |data.skills| > 0
    && (forall i | 0 <= i < |data.skills| ::
          |data.skills[i].category| >= 3 && |data.skills[i].items| > 0)
  }

  /** Every error of the list is deserved. */
  predicate AllDeserved(parse: UrlParser, data: PortfolioData, errors: seq<ValidationError>) {
    forall k | 0 <= k < |errors| :: Violation(parse, data, errors[k])
  }

  lemma AllDeservedAppend(parse: UrlParser, data: PortfolioData, a: seq<ValidationError>, b: seq<ValidationError>)
    requires AllDeserved(parse, data, a) && AllDeserved(parse, data, b)
    ensures AllDeserved(parse, data, a + b)
  {
    forall k | 0 <= k < |a + b|
      ensures Violation(parse, data, (a + b)[k])
    {
      if k < |a| {
        assert (a + b)[k] == a[k];
      } else {
        assert (a + b)[k] == b[k - |a|];
      }
    }
  }

  /** The checks of the personal details, in the order name, title, bio,
      location, resume address: every one that fails is reported. */
  function PersonalErrors(parse: UrlParser, data: PortfolioData): (r: seq<ValidationError>)
    ensures forall k | 0 <= k < |r| :: Rank(r[k].field) <= 4
    ensures AllDeserved(parse, data, r)
    ensures Ordered(r)
    ensures |data.personalInfo.name| < 2 ==> ValidationError(Name, NameTooShort) in r
    ensures |data.personalInfo.title| < 2 ==> ValidationError(Title, TitleTooShort) in r
    ensures |data.personalInfo.bio| < 50 ==> ValidationError(Bio, BioTooShort) in r
    ensures |data.personalInfo.location| < 2 ==> ValidationError(Location, LocationTooShort) in r
    ensures data.personalInfo.resumeUrl != "" && parse(data.personalInfo.resumeUrl).None? ==>
      ValidationError(ResumeUrl, ResumeUrlInvalid) in r
  {
    var pieces := PersonalPieces(parse, data);
    PersonalStep(parse, data, [], pieces[0], 0);
    PersonalStep(parse, data, pieces[0], pieces[1], 1);
    PersonalStep(parse, data, pieces[0] + pieces[1], pieces[2], 2);
    PersonalStep(parse, data, pieces[0] + pieces[1] + pieces[2], pieces[3], 3);
    PersonalStep(parse, data, pieces[0] + pieces[1] + pieces[2] + pieces[3], pieces[4], 4);
    pieces[0] + pieces[1] + pieces[2] + pieces[3] + pieces[4]
  }

  /** The error (if any) of each personal field, one piece per field. */
  function PersonalPieces(parse: UrlParser, data: PortfolioData): (pieces: seq<seq<ValidationError>>)
    ensures |pieces| == 5
    ensures forall p | 0 <= p < 5 ::
      && |pieces[p]| <= 1 && AllDeserved(parse, data, pieces[p])
      && (forall k | 0 <= k < |pieces[p]| :: Rank(pieces[p][k].field) == p)
    ensures |data.personalInfo.name| < 2 ==> pieces[0] == [ValidationError(Name, NameTooShort)]
    ensures |data.personalInfo.title| < 2 ==> pieces[1] == [ValidationError(Title, TitleTooShort)]
    ensures |data.personalInfo.bio| < 50 ==> pieces[2] == [ValidationError(Bio, BioTooShort)]
    ensures |data.personalInfo.location| < 2 ==> pieces[3] == [ValidationError(Location, LocationTooShort)]
    ensures data.personalInfo.resumeUrl != "" && parse(data.personalInfo.resumeUrl).None? ==>
      pieces[4] == [ValidationError(ResumeUrl, ResumeUrlInvalid)]
  {
    var info := data.personalInfo;
    [ if |info.name| < 2 then [ValidationError(Name, NameTooShort)] else [],
      if |info.title| < 2 then [ValidationError(Title, TitleTooShort)] else [],
      if |info.bio| < 50 then [ValidationError(Bio, BioTooShort)] else [],
      if |info.location| < 2 then [ValidationError(Location, LocationTooShort)] else [],
      if info.resumeUrl != "" && parse(info.resumeUrl).None?
      then [ValidationError(ResumeUrl, ResumeUrlInvalid)] else [] ]
  }

  /** Appending the error (if any) of the next personal field keeps the list
      ordered and deserved. */
  lemma PersonalStep(parse: UrlParser, data: PortfolioData, acc: seq<ValidationError>,
                     piece: seq<ValidationError>, rank: nat)
    requires Ordered(acc) && AllDeserved(parse, data, acc)
    requires forall k | 0 <= k < |acc| :: Rank(acc[k].field) < rank
    requires |piece| <= 1 && AllDeserved(parse, data, piece)
    requires forall k | 0 <= k < |piece| :: Rank(piece[k].field) == rank
    ensures Ordered(acc + piece) && AllDeserved(parse, data, acc + piece)
    ensures forall k | 0 <= k < |acc + piece| :: Rank((acc + piece)[k].field) <= rank
  {
    OrderedAppend(acc, piece);
    AllDeservedAppend(parse, data, acc, piece);
  }

  /** The errors of one social link: missing address, then malformed address. */
  function LinkErrors(parse: UrlParser, links: seq<SocialLink>, i: nat): (r: seq<ValidationError>)
    requires i < |links|
    ensures forall k | 0 <= k < |r| :: r[k].field == SocialLinkAt(i) && SocialLinkViolation(parse, links, r[k])
    ensures Ordered(r)
    ensures links[i].url == "" ==> ValidationError(SocialLinkAt(i), SocialUrlMissing) in r
    ensures !StartsWith(links[i].url, "mailto:") && parse(links[i].url).None? ==>
      ValidationError(SocialLinkAt(i), SocialUrlInvalid) in r
  {
    var url := links[i].url;
    (if url == "" then [ValidationError(SocialLinkAt(i), SocialUrlMissing)] else [])
    + (if !StartsWith(url, "mailto:") && parse(url).None?
       then [ValidationError(SocialLinkAt(i), SocialUrlInvalid)] else [])
  }

  /** The errors of social links `from` onwards, in list order. */
  function SocialErrorsFrom(parse: UrlParser, links: seq<SocialLink>, from: nat): (r: seq<ValidationError>)
    requires from <= |links|
    ensures forall k | 0 <= k < |r| ::
      r[k].field.SocialLinkAt? && from <= r[k].field.index && SocialLinkViolation(parse, links, r[k])
    ensures forall i | from <= i < |links| && links[i].url == "" ::
      ValidationError(SocialLinkAt(i), SocialUrlMissing) in r
    ensures forall i | from <= i < |links| && !StartsWith(links[i].url, "mailto:") && parse(links[i].url).None? ::
      ValidationError(SocialLinkAt(i), SocialUrlInvalid) in r
    ensures Ordered(r)
    decreases |links| - from
  {
    if from == |links| then []
    else
      var here := LinkErrors(parse, links, from);
      var rest := SocialErrorsFrom(parse, links, from + 1);
      OrderedAppend(here, rest);
      here + rest
  }

  /** The errors of one project: title, description, tags. */
  function ProjectItemErrors(projects: seq<Project>, i: nat): (r: seq<ValidationError>)
    requires i < |projects|
    ensures forall k | 0 <= k < |r| :: ItemOf(r[k].field) == i && ProjectViolation(projects, r[k])
    ensures Ordered(r)
    ensures |projects[i].title| < 5 ==> ValidationError(ProjectTitle(i), ProjectTitleTooShort) in r
    ensures |projects[i].description| < 20 ==>
      ValidationError(ProjectDescription(i), ProjectDescriptionTooShort) in r
    ensures |projects[i].tags| == 0 ==> ValidationError(ProjectTags(i), ProjectTagsMissing) in r
  {
    var p := projects[i];
    (if |p.title| < 5 then [ValidationError(ProjectTitle(i), ProjectTitleTooShort)] else [])
    + (if |p.description| < 20
       then [ValidationError(ProjectDescription(i), ProjectDescriptionTooShort)] else [])
    + (if |p.tags| == 0 then [ValidationError(ProjectTags(i), ProjectTagsMissing)] else [])
  }

  /** The errors of projects `from` onwards, in list order. */
  function ProjectErrorsFrom(projects: seq<Project>, from: nat): (r: seq<ValidationError>)
    requires from <= |projects|
    ensures ProjectErrorsComplete(projects, from, r)
    decreases |projects| - from
  {
    if from == |projects| then []
    else
      var here := ProjectItemErrors(projects, from);
      var rest := ProjectErrorsFrom(projects, from + 1);
      ProjectErrorsAppend(projects, from, here, rest);
      here + rest
  }

  /** `r` holds exactly the deserved errors of the projects from `from` on:
      every one is deserved and about a project from `from` on; every short
      title, short description and missing tag list from `from` on is
      reported; and they come in list order. */
  predicate ProjectErrorsComplete(projects: seq<Project>, from: nat, r: seq<ValidationError>) {
    && (forall k | 0 <= k < |r| :: from <= ItemOf(r[k].field) && ProjectViolation(projects, r[k]))
    && (forall i | from <= i < |projects| && |projects[i].title| < 5 ::
          ValidationError(ProjectTitle(i), ProjectTitleTooShort) in r)
    && (forall i | from <= i < |projects| && |projects[i].description| < 20 ::
          ValidationError(ProjectDescription(i), ProjectDescriptionTooShort) in r)
    && (forall i | from <= i < |projects| && |projects[i].tags| == 0 ::
          ValidationError(ProjectTags(i), ProjectTagsMissing) in r)
    && Ordered(r)
  }

  /** The errors of one project, then those of the projects after it, are
      the errors of the projects from the first on. */
  lemma ProjectErrorsAppend(projects: seq<Project>, from: nat, here: seq<ValidationError>, rest: seq<ValidationError>)
    requires from < |projects|
    requires forall k | 0 <= k < |here| :: ItemOf(here[k].field) == from && ProjectViolation(projects, here[k])
    requires Ordered(here)
    requires |projects[from].title| < 5 ==> ValidationError(ProjectTitle(from), ProjectTitleTooShort) in here
    requires |projects[from].description| < 20 ==>
      ValidationError(ProjectDescription(from), ProjectDescriptionTooShort) in here
    requires |projects[from].tags| == 0 ==> ValidationError(ProjectTags(from), ProjectTagsMissing) in here
    requires ProjectErrorsComplete(projects, from + 1, rest)
    ensures ProjectErrorsComplete(projects, from, here + rest)
  {
    var r := here + rest;
    OrderedAppend(here, rest);
    forall k | 0 <= k < |r|
      ensures from <= ItemOf(r[k].field) && ProjectViolation(projects, r[k])
    {
      if k < |here| {
        assert r[k] == here[k];
      } else {
        assert r[k] == rest[k - |here|];
      }
    }
  }

  /** The errors of one skill category: name, then items. */
  function CategoryItemErrors(skills: seq<SkillCategory>, i: nat): (r: seq<ValidationError>)
    requires i < |skills|
    ensures forall k | 0 <= k < |r| :: ItemOf(r[k].field) == i && CategoryViolation(skills, r[k])
    ensures Ordered(r)
    ensures |skills[i].category| < 3 ==> ValidationError(SkillCategoryName(i), CategoryNameTooShort) in r
    ensures |skills[i].items| == 0 ==> ValidationError(SkillItems(i), SkillItemsMissing) in r
  {
    var c := skills[i];
    (if |c.category| < 3 then [ValidationError(SkillCategoryName(i), CategoryNameTooShort)] else [])
    + (if |c.items| == 0 then [ValidationError(SkillItems(i), SkillItemsMissing)] else [])
  }

  /** The errors of skill categories `from` onwards, in list order. */
  function CategoryErrorsFrom(skills: seq<SkillCategory>, from: nat): (r: seq<ValidationError>)
    requires from <= |skills|
    ensures forall k | 0 <= k < |r| ::
      from <= ItemOf(r[k].field) && CategoryViolation(skills, r[k])
    ensures forall i | from <= i < |skills| && |skills[i].category| < 3 ::
      ValidationError(SkillCategoryName(i), CategoryNameTooShort) in r
    ensures forall i | from <= i < |skills| && |skills[i].items| == 0 ::
      ValidationError(SkillItems(i), SkillItemsMissing) in r
    ensures Ordered(r)
    decreases |skills| - from
  {
    if from == |skills| then []
    else
      var here := CategoryItemErrors(skills, from);
      var rest := CategoryErrorsFrom(skills, from + 1);
      OrderedAppend(here, rest);
      here + rest
  }

  function SocialErrors(parse: UrlParser, data: PortfolioData): (r: seq<ValidationError>)
    ensures forall k | 0 <= k < |r| :: Rank(r[k].field) == 5
    ensures AllDeserved(parse, data, r)
    ensures Ordered(r)
  {
    if |data.socialLinks| == 0 then [ValidationError(SocialLinks, SocialLinksMissing)]
    else
      var r := SocialErrorsFrom(parse, data.socialLinks, 0);
      LinkViolationsDeserved(parse, data, r);
      r
  }

  /** Errors of the social links are deserved by the portfolio. */
  lemma LinkViolationsDeserved(parse: UrlParser, data: PortfolioData, r: seq<ValidationError>)
    requires |data.socialLinks| > 0
    requires forall k | 0 <= k < |r| :: r[k].field.SocialLinkAt? && SocialLinkViolation(parse, data.socialLinks, r[k])
    ensures forall k | 0 <= k < |r| :: Rank(r[k].field) == 5
    ensures AllDeserved(parse, data, r)
  {
    forall k | 0 <= k < |r| ensures Violation(parse, data, r[k]) {
      LinkViolationDeserved(parse, data, r[k]);
    }
  }

  lemma LinkViolationDeserved(parse: UrlParser, data: PortfolioData, e: ValidationError)
    requires |data.socialLinks| > 0 && e.field.SocialLinkAt? && SocialLinkViolation(parse, data.socialLinks, e)
    ensures Violation(parse, data, e)
  {
  }

  function ProjectErrors(parse: UrlParser, data: PortfolioData): (r: seq<ValidationError>)
    ensures forall k | 0 <= k < |r| :: Rank(r[k].field) == 6
    ensures AllDeserved(parse, data, r)
    ensures Ordered(r)
  {
    if |data.projects| == 0 then [ValidationError(Projects, ProjectsMissing)]
    else ProjectErrorsFrom(data.projects, 0)
  }

  function SkillErrors(parse: UrlParser, data: PortfolioData): (r: seq<ValidationError>)
    ensures forall k | 0 <= k < |r| :: Rank(r[k].field) == 7
    ensures AllDeserved(parse, data, r)
    ensures Ordered(r)
  {
    if |data.skills| == 0 then [ValidationError(Skills, SkillsMissing)]
    else CategoryErrorsFrom(data.skills, 0)
  }

  /** `validatePortfolioData`: the errors are exactly the rules the portfolio
      breaks, each reported once, section by section and item by item. */
  function ValidatePortfolioData(parse: UrlParser, data: PortfolioData): (errors: seq<ValidationError>)
    ensures AllDeserved(parse, data, errors)
    ensures Ordered(errors)
    ensures forall i, j | 0 <= i < j < |errors| :: errors[i] != errors[j]
  {
    var personal := PersonalErrors(parse, data);
    var social := SocialErrors(parse, data);
    var projects := ProjectErrors(parse, data);
    var skills := SkillErrors(parse, data);
    OrderedAppend(personal, social);
    AllDeservedAppend(parse, data, personal, social);
    var upToSocial := personal + social;
    assert forall k | 0 <= k < |upToSocial| :: Rank(upToSocial[k].field) <= 5;
    OrderedAppend(upToSocial, projects);
    AllDeservedAppend(parse, data, upToSocial, projects);
    var upToProjects := upToSocial + projects;
    assert forall k | 0 <= k < |upToProjects| :: Rank(upToProjects[k].field) <= 6;
    OrderedAppend(upToProjects, skills);
    AllDeservedAppend(parse, data, upToProjects, skills);
    upToProjects + skills
  }

  /** Two ordered runs, the first reported no later than the second, make an ordered run. */
  lemma OrderedAppend(a: seq<ValidationError>, b: seq<ValidationError>)
    requires Ordered(a) && Ordered(b)
    requires forall i, j | 0 <= i < |a| && 0 <= j < |b| :: Before(a[i], b[j])
    ensures Ordered(a + b)
  {
    forall i, j | 0 <= i < j < |a + b|
      ensures Before((a + b)[i], (a + b)[j])
    {
      if j < |a| {
        assert (a + b)[i] == a[i] && (a + b)[j] == a[j];
      } else if i >= |a| {
        assert (a + b)[i] == b[i - |a|] && (a + b)[j] == b[j - |a|];
      } else {
        assert (a + b)[i] == a[i] && (a + b)[j] == b[j - |a|];
      }
    }
  }

  /** Every broken rule is reported. */
  lemma {:induction false} ViolationReported(parse: UrlParser, data: PortfolioData, e: ValidationError)
    requires Violation(parse, data, e)
    ensures e in ValidatePortfolioData(parse, data)
  {
    var personal := PersonalErrors(parse, data);
    var social := SocialErrors(parse, data);
    var projects := ProjectErrors(parse, data);
    var skills := SkillErrors(parse, data);
    assert ValidatePortfolioData(parse, data) == personal + social + projects + skills;
    if Rank(e.field) == 5 {
      SocialViolationReported(parse, data, e);
    } else if Rank(e.field) == 6 {
      ProjectViolationReported(parse, data, e);
    } else if Rank(e.field) == 7 {
      CategoryViolationReported(parse, data, e);
    } else {
      assert e in personal;
    }
  }

  lemma SocialViolationReported(parse: UrlParser, data: PortfolioData, e: ValidationError)
    requires Violation(parse, data, e) && Rank(e.field) == 5
    ensures e in SocialErrors(parse, data)
  {
    if e.field.SocialLinkAt? {
      assert e in SocialErrorsFrom(parse, data.socialLinks, 0);
    }
  }

  lemma ProjectViolationReported(parse: UrlParser, data: PortfolioData, e: ValidationError)
    requires Violation(parse, data, e) && Rank(e.field) == 6
    ensures e in ProjectErrors(parse, data)
  {
    if !e.field.Projects? {
      assert e in ProjectErrorsFrom(data.projects, 0);
    }
  }

  lemma CategoryViolationReported(parse: UrlParser, data: PortfolioData, e: ValidationError)
    requires Violation(parse, data, e) && Rank(e.field) == 7
    ensures e in SkillErrors(parse, data)
  {
    if !e.field.Skills? {
      assert e in CategoryErrorsFrom(data.skills, 0);
    }
  }

  /** No error list at all exactly when the portfolio is valid. */
  lemma NoErrorsIffValid(parse: UrlParser, data: PortfolioData)
    ensures ValidatePortfolioData(parse, data) == [] <==> Valid(parse, data)
  {
    var errors := ValidatePortfolioData(parse, data);
    if errors == [] && !Valid(parse, data) {
      var e := SomeViolation(parse, data);
      ViolationReported(parse, data, e);
    }
    if Valid(parse, data) && errors != [] {
      ValidNoViolation(parse, data, errors[0]);
    }
  }

  /** A valid portfolio deserves no error. */
  lemma ValidNoViolation(parse: UrlParser, data: PortfolioData, e: ValidationError)
    requires Valid(parse, data)
    ensures !Violation(parse, data, e)
  {
    match e.field {
      case SocialLinkAt(i) =>
        if i < |data.socialLinks| {
          assert data.socialLinks[i].url != "";
        }
      case ProjectTitle(i) =>
      case ProjectDescription(i) =>
      case ProjectTags(i) =>
      case SkillCategoryName(i) =>
      case SkillItems(i) =>
      case _ =>
    }
  }

  /** A rule broken by an invalid portfolio. */
  ghost function SomeViolation(parse: UrlParser, data: PortfolioData): (e: ValidationError)
    requires !Valid(parse, data)
    ensures Violation(parse, data, e)
  {
    var info := data.personalInfo;
    if |info.name| < 2 then ValidationError(Name, NameTooShort)
    else if |info.title| < 2 then ValidationError(Title, TitleTooShort)
    else if |info.bio| < 50 then ValidationError(Bio, BioTooShort)
    else if |info.location| < 2 then ValidationError(Location, LocationTooShort)
    else if info.resumeUrl != "" && parse(info.resumeUrl).None? then ValidationError(ResumeUrl, ResumeUrlInvalid)
    else if |data.socialLinks| == 0 then ValidationError(SocialLinks, SocialLinksMissing)
    else if !LinksValid(parse, data.socialLinks) then SomeLinkViolation(parse, data)
    else if |data.projects| == 0 then ValidationError(Projects, ProjectsMissing)
    else if !ProjectsValid(data.projects) then SomeProjectViolation(parse, data)
    else if |data.skills| == 0 then ValidationError(Skills, SkillsMissing)
    else SomeCategoryViolation(parse, data)
  }

  predicate LinksValid(parse: UrlParser, links: seq<SocialLink>) {
    forall i | 0 <= i < |links| ::
      links[i].url != "" && (StartsWith(links[i].url, "mailto:") || parse(links[i].url).Some?)
  }

  predicate ProjectsValid(projects: seq<Project>) {
    forall i | 0 <= i < |projects| ::
      |projects[i].title| >= 5 && |projects[i].description| >= 20 && |projects[i].tags| > 0
  }

  /** A social-link rule broken by links that are not all valid. */
  ghost function SomeLinkViolation(parse: UrlParser, data: PortfolioData): (e: ValidationError)
    requires |data.socialLinks| > 0 && !LinksValid(parse, data.socialLinks)
    ensures Violation(parse, data, e)
  {
    var links := data.socialLinks;
    var i :| 0 <= i < |links| && !(links[i].url != "" && (StartsWith(links[i].url, "mailto:") || parse(links[i].url).Some?));
    if links[i].url == "" then ValidationError(SocialLinkAt(i), SocialUrlMissing)
    else ValidationError(SocialLinkAt(i), SocialUrlInvalid)
  }

  /** A project rule broken by projects that are not all valid. */
  ghost function SomeProjectViolation(parse: UrlParser, data: PortfolioData): (e: ValidationError)
    requires |data.projects| > 0 && !ProjectsValid(data.projects)
    ensures Violation(parse, data, e)
  {
    var projects := data.projects;
    var i :| 0 <= i < |projects| && !(|projects[i].title| >= 5 && |projects[i].description| >= 20 && |projects[i].tags| > 0);
    if |projects[i].title| < 5 then ValidationError(ProjectTitle(i), ProjectTitleTooShort)
    else if |projects[i].description| < 20 then ValidationError(ProjectDescription(i), ProjectDescriptionTooShort)
    else ValidationError(ProjectTags(i), ProjectTagsMissing)
  }

  /** A category rule broken by an invalid portfolio whose other rules hold. */
  ghost function SomeCategoryViolation(parse: UrlParser, data: PortfolioData): (e: ValidationError)
    requires |data.skills| > 0
    requires !(forall i | 0 <= i < |data.skills| :: |data.skills[i].category| >= 3 && |data.skills[i].items| > 0)
    ensures Violation(parse, data, e)
  {
    var skills := data.skills;
    var i :| 0 <= i < |skills| && !(|skills[i].category| >= 3 && |skills[i].items| > 0);
    if |skills[i].category| < 3 then ValidationError(SkillCategoryName(i), CategoryNameTooShort)
    else ValidationError(SkillItems(i), SkillItemsMissing)
  }

  /** A social link with no address earns two errors: it is missing, and the
      empty string is not a URL either (the constructor rejects ""). */
  lemma EmptySocialUrlTwoErrors(parse: UrlParser, data: PortfolioData, i: nat)
    requires i < |data.socialLinks| && data.socialLinks[i].url == "" && parse("").None?
    ensures ValidationError(SocialLinkAt(i), SocialUrlMissing) in ValidatePortfolioData(parse, data)
    ensures ValidationError(SocialLinkAt(i), SocialUrlInvalid) in ValidatePortfolioData(parse, data)
  {
    ViolationReported(parse, data, ValidationError(SocialLinkAt(i), SocialUrlMissing));
    ViolationReported(parse, data, ValidationError(SocialLinkAt(i), SocialUrlInvalid));
  }

  /** A `mailto:` link is never reported as malformed, whatever the constructor says. */
  lemma MailtoNeverMalformed(parse: UrlParser, data: PortfolioData, i: nat)
    requires i < |data.socialLinks| && StartsWith(data.socialLinks[i].url, "mailto:")
    ensures ValidationError(SocialLinkAt(i), SocialUrlInvalid) !in ValidatePortfolioData(parse, data)
  {
    var errors := ValidatePortfolioData(parse, data);
    forall k | 0 <= k < |errors|
      ensures errors[k] != ValidationError(SocialLinkAt(i), SocialUrlInvalid)
    {
      assert Violation(parse, data, errors[k]);
    }
  }
}

=== FILE: wrappers.dfy ===
/** Small failure-compatible datatypes shared by every module of the model.

    JavaScript's `null` / `undefined` results (a validator that found nothing
    to complain about, an optional `app_id`) are modelled as `None`. */
module Wrappers {

  datatype Option<+T> = None | Some(value: T) {

    predicate IsFailure() {
      None?
    }

    function PropagateFailure<U>(): Option<U>
      requires None?
    {
      None
    }

    function Extract(): T
      requires Some?
    {
      value
    }

    function GetOr(default: T): T {
      match this
      case Some(v) => v
      case None => default
    }
  }
}
